=== FILE: README.md ===
# AiShopping browser-automation core in Dafny

This project models the browser-automation layer of the AiShopping
repository, with the pieces of glue around it that are pure logic:

- **ScriptRunner** models `ScrapScriptRunner` in src/scrapping_agent/scrap.py:
  - input validation;
  - `{{name}}` placeholder substitution over a JSON tree;
  - the `fill`/`click`/`extract`/`extract_all` step replay, which stops at the first failing step;
  - the `name=value` command-line parsing.
- **Commands** and **Scrapper** model the command-string dispatcher in src/scrapping_agent/scrapper.py:
  - the `([a-z_]+)\(('.*',?)*\)` search, written out as the positions and backtracking Python's `re.search` tries;
  - the command table, with its "Command not found" and "Error running command" sentinels;
  - the element listing and the element interactions.
- **ScrapingAgent** models the plan → act → tools → plan graph of src/scrapping_agent/agent.py.
- **ShoppingAgent** models the graph of src/shopping_agent/agent.py: receptionist → ask_human → researcher ⇄ tools → analyst. This includes the research notes and the analyst input.
- **Llms** models the chat-history bookkeeping of src/llms.py.
- **App** models the JSON-span fallback, the page-content compilation and the early return of app.py.
- **SearchCli** models the command-line flow `main2` of src/main.py.
- **Chunks** models `text_chunks` of test.py.
- **ProductText** models `format_p` of ml.py.
- Supporting modules:
  - Strings: Python's `strip`, `re.sub(r'\s+', ' ', …)`, `find`, `rfind`, `replace`, `split`, `join`, `removeprefix`, `int()` and `str()`;
  - Dicts: insertion-ordered dicts;
  - JsonValue: JSON trees;
  - Pages: a page as a list of element records;
  - Messages: the message-list reducer;
  - Wrappers: `Option` and `Result`.

What the code cannot see is passed in as a parameter:

- The live page is a sequence of element records. Each record lists the selectors it matches.
- Page actions are a `Driver` of functions that may fail.
- Every language model is a function from the messages it is sent to its reply, or to the error it raised.
- The tools, the web search, the page extractor and the JSON decoder are functions too.
- The console input is a function.
- The clock reading used by the screenshot path is an integer parameter.
- LangGraph's recursion limit is the fuel of the graph runs.

## Model

| member | source | states |
|---|---|---|
| ScriptRunner.ValidateInputs | src/scrapping_agent/scrap.py:96-107 | No failure exactly when every name declared under `input` is supplied. Extra values and a script without `input` are accepted. A failure lists only missing names, and at least one. |
| ScriptRunner.MissingInputRaisesEarly | src/scrapping_agent/scrap.py:53-58 | A missing input raises before any browser operation. The error lists exactly the declared names that have no value. |
| ScriptRunner.Substitute | src/scrapping_agent/scrap.py:109-121 | Keeps the tree's shape: dict keys, list lengths and non-string leaves. A tree with no `{{` in any string comes back unchanged. |
| ScriptRunner.SubstituteString | src/scrapping_agent/scrap.py:116-120 | A string leaf without `{{` is left as it is. |
| ScriptRunner.SubstitutionCanLeavePlaceholder | src/scrapping_agent/scrap.py:117-120 | Replacing in sequence is not a full substitution. `{{{{q}}q}}` with `q` set to the empty string becomes `{{q}}`, which is still a placeholder. |
| ScriptRunner.PropertyLines | src/scrapping_agent/scrap.py:38-40 | One line per property, in order. Each line is the label upper-cased, then `: `, then the value. All properties must be string-labelled and readable. |
| ScriptRunner.ExtractMissing | src/scrapping_agent/scrap.py:35-37 | A selector that matches nothing yields "Element not found". |
| ScriptRunner.ExtractFound | src/scrapping_agent/scrap.py:33-41 | With a match, the first matching element is used and the property lines are joined by newlines. The call succeeds exactly when every property reads. |
| ScriptRunner.ShownValueKeepsInnerWhitespace | src/scrapping_agent/scrap.py:39 | The `\s+` replace is literal. A stripped value without a backslash is shown unchanged, inner whitespace included. |
| ScriptRunner.BlocksHeadings | src/scrapping_agent/scrap.py:48-50 | Block k of the elements from index i on is headed `LABEL #k+1`. |
| ScriptRunner.ExtractAllBlocks | src/scrapping_agent/scrap.py:43-51 | The output is the blocks joined by newlines. There are min(matches, max(limit, 0)) blocks, block k is headed `LABEL #k+1`, and there is at least one match. |
| ScriptRunner.ExtractAllNonPositiveLimit | src/scrapping_agent/scrap.py:48-49 | A limit of zero or below gives the empty text. |
| ScriptRunner.ExecStep | src/scrapping_agent/scrap.py:26-51 | `extract` and `extract_all` leave the page alone and return text. `fill` and `click` perform one browser operation and return nothing. |
| ScriptRunner.StepOutcome | src/scrapping_agent/scrap.py:67-78 | An unknown action aborts the run. That lookup is outside the try. A step that produced text left the page as it was. |
| ScriptRunner.RunFrom | src/scrapping_agent/scrap.py:67-78 | A replay that stops or aborts names the step responsible, which lies inside the remaining steps. |
| ScriptRunner.NothingAfterFailure | src/scrapping_agent/scrap.py:72-78 | Steps after the first failure never influence the result. Two step lists that agree up to that step replay identically. |
| ScriptRunner.RunInOrder | src/scrapping_agent/scrap.py:67-83 | Steps run in list order. Replaying `a + b` equals replaying `a` and then replaying `b` from the page `a` left. |
| ScriptRunner.Run | src/scrapping_agent/scrap.py:53-83 | The browser is used exactly when the inputs are complete. A completed run opens the browser first and closes it last. Its output is the texts the replay collected, in step order, joined by blank lines. Once the script is loaded and the site opened, the run completes exactly when no step aborted, so a stopped step keeps the earlier texts. |
| ScriptRunner.RunSnoc | src/scrapping_agent/scrap.py:67-83 | One more step after a completed prefix either appends its text, or stops at its own index keeping the texts so far, or aborts there. |
| ScriptRunner.ParseAssignment | src/scrapping_agent/scrap.py:148-154 | An accepted argument is the stripped text `name=value`. The name is non-empty and has no `=`. The value is non-empty and has no newline. |
| ScriptRunner.ParseAssignmentComplete | src/scrapping_agent/scrap.py:148-154 | Every such argument is accepted, and it splits at its first `=`. |
| ScriptRunner.AssignmentsAccepted | src/scrapping_agent/scrap.py:147-155 | The assignments parse exactly when every argument is well formed. |
| ScriptRunner.LaterAssignmentWins | src/scrapping_agent/scrap.py:154-155 | Each name maps to the value of its last assignment. |
| ScriptRunner.ParseArgs | src/scrapping_agent/scrap.py:135-157 | The arguments are an invocation exactly when a script path is given and every further argument is well formed. The path is `argv[1]`, and later duplicates win. Otherwise the program exits with code 1. |
| Commands.SplitArguments | src/scrapping_agent/scrapper.py:54 | Every argument is stripped and contains no comma and no quote. There is at least one piece. |
| Commands.ParseCommand | src/scrapping_agent/scrapper.py:46-56 | Fails with "No function match" exactly when no position of the stripped command matches the pattern. A parsed name is non-empty `[a-z_]`. Its arguments are stripped and free of commas and quotes. |
| Commands.FormatCallRoundTrip | src/scrapping_agent/scrapper.py:46-56 | A call written as `name('a', 'b')`, with plain arguments, parses back to exactly that name and those arguments. Plain arguments are stripped, with no quote, comma or newline. |
| Commands.CallMatch | src/scrapping_agent/scrapper.py:47-48 | On such a call the search matches from position 0. The name ends at the `(`. The repeated group spans the quoted arguments, or is empty for `name()`. |
| Commands.SplitQuotedJoin | src/scrapping_agent/scrapper.py:54 | Splitting the quoted, comma-separated arguments gives the arguments back. |
| Commands.UnquoteJoin | src/scrapping_agent/scrapper.py:54 | Removing every `'` from the quoted join leaves the plain join. |
| Scrapper.CleanText | src/scrapping_agent/scrapper.py:75 | The shown text is stripped. Each whitespace run becomes one plain space. Every non-whitespace character is kept, in order. |
| Scrapper.ShownText | src/scrapping_agent/scrapper.py:80-82 | With truncation, text over 50 characters becomes its first 50 followed by `...`, 53 in all. Otherwise the text is unchanged. |
| Scrapper.Describe | src/scrapping_agent/scrapper.py:72-89 | Every entry starts with `Element: ` and the lower-cased tag. ` Classes: ` follows only for a non-blank class, then ` Text: ` with the shown text only for non-empty text. Only an `a` entry adds ` Href: …`, and only an `input` entry adds ` Name: … Placeholder: …`; an entry for any other tag is exactly the tag, classes and text part. An entry with none of these is the head alone. |
| Scrapper.PlaceholderText | src/scrapping_agent/scrapper.py:88 | "no placeholder" is shown exactly when the attribute is missing or empty, or is itself that text. |
| Scrapper.Shown | src/scrapping_agent/scrapper.py:91-94 | The listing shows at most as many entries as there are matches, and at most max(limit, 1). It shows at least one when there is a match, because the check follows the append, so a limit below 1 shows exactly one. For a positive limit it shows min(matches, limit). |
| Scrapper.DescribedAt | src/scrapping_agent/scrapper.py:71-91 | Entry k describes matched element k: entries keep match order. |
| Scrapper.Listing | src/scrapping_agent/scrapper.py:96-99 | Every listing starts with `Extracted elements:` and a newline. |
| Scrapper.ExtractElements | src/scrapping_agent/scrapper.py:67-99 | The loop as written (append, then test the limit, then the "No elements found" sentinel) produces exactly the listing the functional model describes. |
| Scrapper.ExtractHandler | src/scrapping_agent/scrapper.py:61-65 | Fewer than two arguments is an IndexError. With two arguments, or more than three, the reply is the listing of the selector's matches with limit 10. With three, the call succeeds exactly when the third argument parses as an integer, and lists with that limit; otherwise the parse error is the failure. Truncation is off only for `False`. |
| Scrapper.InteractHandler | src/scrapping_agent/scrapper.py:101-121 | Fewer than two arguments is an IndexError. A missing element gives the not-found text and leaves the page. `click` and `fill` succeed exactly when the driver call does, with the clicked or typed reply and the driver's page, and pass the driver's error on. Any other interaction answers "Unsupported interaction." and leaves the page. |
| Scrapper.Dispatch | src/scrapping_agent/scrapper.py:12-17 | Unknown names give "Command not found". `end` gives "END". Extraction replies with the extract handler's listing and leaves the page. Interaction is the interact handler. `print` succeeds exactly when the screenshot does, answering `PRINT: ` followed by the screenshot path with the page the screenshot leaves, and otherwise passes the screenshot's error on. |
| Scrapper.Execute | src/scrapping_agent/scrapper.py:36-44 | The reply starts with `Error running command '<cmd>'. Erro: ` exactly when parsing or the handler failed; then the message is "No function match" or the handler's error, and the page is kept. Otherwise the handler's reply is returned. Only interaction and print can change the page. |
| Scrapper.HandledReplyNotError | src/scrapping_agent/scrapper.py:36-44 | No handler's successful reply starts with the error prefix, so the prefix identifies failures. |
| Scrapper.ExecuteFormatted | src/scrapping_agent/scrapper.py:36-56 | A call in the agent's format reaches the named handler with its arguments. |
| Scrapper.EndCall | src/scrapping_agent/scrapper.py:123-124 | `end()` answers "END" and leaves the page unchanged. |
| Scrapper.ExtractCallDefaults | src/scrapping_agent/scrapper.py:61-65 | `extract_elements('sel', 'flag')` lists the matches of `sel` with the limit 10. Truncation is on unless the flag is `False`. |
| ScrapingAgent.ShouldEnd | src/scrapping_agent/agent.py:124-129 | Routes to response exactly when the last content contains END_NAVIGATION, and to act otherwise. |
| ScrapingAgent.SuccessorShape | src/scrapping_agent/agent.py:131-135 | act leads to tools and tools to plan. Plan leads to act or response. Response is the only route to the end. |
| ScrapingAgent.ToolReplies | src/scrapping_agent/agent.py:110-117 | Succeeds exactly when every call names a known tool that succeeds. It gives one tool message per call, in call order, each carrying that call's id. |
| ScrapingAgent.Execute | src/scrapping_agent/agent.py:80 | The final message list extends the seed messages. |
| ScrapingAgent.FinishesThroughResponse | src/scrapping_agent/agent.py:124-135 | A finished run ends with the response model's reply to everything before it. When the run did not start at response, the message before that reply is a plan that mentioned END_NAVIGATION. |
| ScrapingAgent.NoEndWithoutMarker | src/scrapping_agent/agent.py:124-135 | If no plan ever mentions END_NAVIGATION, every run exhausts the recursion limit. |
| ScrapingAgent.Run | src/scrapping_agent/agent.py:60-82 | Without `initialize` the url is unset and `run` fails. A returned answer comes from a conversation that starts with the seed message `Site: url\nQuery: query\nAll: True/False`. The answer is the response model's reply to everything before it, and the message before that reply mentions END_NAVIGATION. |
| ShoppingAgent.InitialState | src/shopping_agent/agent.py:45-51 | A text input gives one human message, the product, empty specifications and empty research. |
| ShoppingAgent.ToolsCondition | src/shopping_agent/agent.py:181-192 | Routes to tools exactly when the last message has tool calls, and to analyst otherwise. |
| ShoppingAgent.SuccessorShape | src/shopping_agent/agent.py:96-101 | receptionist leads to ask_human and tools to researcher. researcher leads to tools or analyst. analyst is the only route to the end. |
| ShoppingAgent.HandleToolCall | src/shopping_agent/agent.py:169-179 | The reply carries the call id. Only `save_relevant_data` adds a note, exactly one `(key, value)` at the end. An unknown tool fails. |
| ShoppingAgent.ResearchAccumulates | src/shopping_agent/agent.py:157-177 | Handling the calls of one tools step appends the saved notes in call order. |
| ShoppingAgent.ResearchTextSnoc | src/shopping_agent/agent.py:146 | The research text is the `## key:\nvalue` notes joined by blank lines, in list order. |
| ShoppingAgent.AnalystInput | src/shopping_agent/agent.py:144-148 | The analyst input is the product and specifications header followed by exactly the research text. Without research it is the header alone. |
| ShoppingAgent.RunNode | src/shopping_agent/agent.py:106-179 | Nodes only append messages and never change the product. ask_human sets the specifications to the reply and appends it. Research changes only at tools, where it grows by the saved notes of the last message's calls, in order. The analyst appends its reply to the formatted input. |
| ShoppingAgent.Execute | src/shopping_agent/agent.py:58-67 | A paused run stopped at ask_human. A finished run last entered the analyst. |
| ShoppingAgent.FirstRunAsks | src/shopping_agent/agent.py:40-73 | The first run returns `ASK_HUMAN:` followed by the receptionist's message. |
| ShoppingAgent.ResumedRunStops | src/shopping_agent/agent.py:96-134 | A resumed run that finishes last entered the analyst, with the reply recorded as the specifications. |
| ShoppingAgent.ResumedRunNeverPauses | src/shopping_agent/agent.py:96-101 | Once ask_human has its reply, the run never pauses again. |
| ShoppingAgent.ResearchOnlyGrows | src/shopping_agent/agent.py:157-177 | A run ends with the research notes it started from, followed by any saved ones. |
| ShoppingAgent.ResumedRunEndsWithAnalyst | src/shopping_agent/agent.py:96-153 | A resumed run that finishes last entered the analyst and keeps the reply as the specifications. Its research only grew. Its last message is the analyst's reply to the input formatted from a state with the same product, the final specifications and the final research. |
| ShoppingAgent.ContinueAsWritten | src/shopping_agent/agent.py:75-77 | As written, `continue_from_input` returns None whenever the resumed run succeeds, and fails exactly when that run fails. |
| ShoppingAgent.Continue | src/shopping_agent/agent.py:75-77 | As intended, the resumed run's answer is returned: the analyst's reply to the input formatted with the reply as specifications and research that extends the paused run's notes. |
| ShoppingAgent.ContinueDropsAnswer | src/shopping_agent/agent.py:75-77 | For a concrete paused run, the intended continuation returns the analyst's answer while the one as written returns None. |
| Llms.New | src/llms.py:4-6 | A new client has an empty history. |
| Llms.AddMessage | src/llms.py:14-15 | Exactly one entry, with the given role and content, is appended. |
| Llms.SetSystemPrompt | src/llms.py:8-9 | Exactly one system entry is appended. |
| Llms.AddConversationSample | src/llms.py:11-12 | The samples are appended in order. |
| Llms.GetResponse | src/llms.py:23-42 | The base class always raises NotImplementedError. On success the history grows by the user entry and the stripped assistant reply, which is also returned. A failed call leaves the user entry behind. |
| Llms.ServiceSeesQuestion | src/llms.py:32-39 | The service is sent the earlier history plus the question. |
| Llms.ConversationHistory | src/llms.py:32-42 | A run of successful questions leaves the earlier history followed by each question and its answer, in order. |
| App.JsonSpan | app.py:155-159 | A span exists exactly when some `}` follows some `{`. It runs from the first `{` to the last `}`. |
| App.SpanFindsEmbeddedObject | app.py:155-159 | Text around an object with no `{` before it and no `}` after it yields that object. |
| App.Interpret | app.py:151-176 | No span gives `raw_response` with the whole text. A decodable span gives its value. An undecodable span gives the error with the raw text. |
| App.NoBraceIsRaw | app.py:165-170 | A reply without `{` is returned as `raw_response`. |
| App.PageBlock | app.py:137 | A page block is labelled with its 1-based index and holds the first 4000 characters of the content. |
| App.Kept | app.py:134-136 | Exactly the indices of present contents are kept, in increasing order. |
| App.CompileSnoc | app.py:133-137 | Each further entry adds its block, or nothing when it is absent. Absent entries leave gaps in the numbering. |
| App.CompileContents | app.py:133-137 | The loop as written produces the compiled text. |
| App.GapInNumbering | app.py:135-137 | A skipped first page leaves the second labelled as page 2. |
| App.FullQuery | app.py:186-188 | With additional information, the query, a space and the information. Otherwise the query alone. |
| App.ProcessWithAgent | app.py:80-176 | need_more_info exactly when asked. Otherwise the reply to the comparison prompt over the compiled pages is interpreted. |
| App.Extracted | app.py:205-213 | Only pages the extractor returned are kept, at most one per link, and each is the extract of one of the links. |
| App.ExtractedSnoc | app.py:205-213 | One more link appends its page exactly when the extractor returns one, so the pages are the present results in link order. |
| App.SearchProduct | app.py:180-196 | Without additional information, the clarifying reply is returned and nothing is searched. |
| App.SearchRunsWithInfo | app.py:192-237 | With additional information the search always proceeds past the check. |
| SearchCli.ProjectItems | src/main.py:31-38 | One record per search item, and only objects are accepted. |
| SearchCli.Project | src/main.py:18-38 | A response without `items` gives no hits. Otherwise the loop visits what a Python `for` visits in `items` (list items, object keys, string characters), and the projection succeeds exactly when every visited value is an object: a list of objects, an empty object or an empty string. There is one hit per visited item, in order, each the title, link and snippet, or "" when a field is missing. A response that is not an object fails. |
| SearchCli.ProjectionDefaults | test.py:49-56 | Each record's title, link and snippet come from the item or default to "". |
| SearchCli.Classify | src/main.py:106-111 | `## SPECIFY ##` asks for specifications with the stripped question. Otherwise `## SEARCH ##` searches. A reply with neither raises. |
| SearchCli.Clarified | src/main.py:102-111 | The session goes on only when the first reply arrived. Without specifications, the reply used is the first reply, and it carries the search mark. With specifications, the first reply carried the specify mark and the line starts with `Especificações: `. |
| SearchCli.GoogleQuery | src/main.py:115 | The search query never contains `"`. |
| SearchCli.GoogleQueryOfClean | src/main.py:115 | A clean query behind the search mark is recovered exactly. |
| SearchCli.SecondReplyUnchecked | src/main.py:106-109 | After a specification request the second reply is used whatever it says. |
| SearchCli.UnmarkedReplyFails | src/main.py:110-111 | A first reply with neither mark ends the session with the error. |
| SearchCli.ExtractDataAlwaysFails | src/main.py:40-52 | As written, extraction always returns the fallback text. |
| SearchCli.ExtractData | src/main.py:40-52 | As intended, a failed run gives the fallback. Otherwise the result is the scraping agent's answer for the link and the query, a reply of the response model. |
| SearchCli.AggregateSnoc | src/main.py:132 | Results aggregate as `FROM: link\nDATA: data` blocks joined by blank lines, in order. |
| SearchCli.Main | src/main.py:86-139 | As written: a session needs the clarified reply. Its search query is that reply cleaned, without `"`, and the hits are the search for it with 3 results. The agent query is `Quero comprar: product`, a newline and the specifications line. The reviewer gets one `FROM: link\nDATA: Falha ao extrair dados do link link` block per hit, in order, joined by blank lines, and the answer is its reply to exactly that text. |
| SearchCli.Flow | src/main.py:86-139 | For any extraction: the search query, the hits, the agent query, the aggregated blocks of each hit's extracted data in hit order, and the reviewer's reply to exactly that text. A missing clarification or a failing reviewer ends the session. |
| SearchCli.MainCorrected | src/main.py:86-139 | With the intended extraction, each block carries the scraping agent's answer for its hit; everything else is as in the written flow. |
| SearchCli.FallbackResults | src/main.py:124-131 | As written, every hit's data is its fallback text. |
| Chunks.Chunks | test.py:91-92 | No chunk is empty or longer than the size, and all but the last have exactly the size. Empty text gives no chunks. |
| Chunks.ChunksJoin | test.py:91-92 | Concatenating the chunks gives the text back. |
| Chunks.ChunkCount | test.py:91-92 | The number of chunks n satisfies (n-1)·size < length ≤ n·size, which is the ceiling. |
| Chunks.ChunkAt | test.py:91-92 | Chunk k is the slice from k·size to min((k+1)·size, length). |
| Chunks.TextChunks | test.py:91-92 | A zero size raises. A negative size gives no chunks. A positive size gives chunks that join back to the text. |
| ProductText.NameFoundIff | ml.py:35-37 | A name is found exactly when the text contains `\nPor`. |
| ProductText.NameOfSecondLine | ml.py:35-37 | The name is the line just before the first `\nPor`. An earlier line is skipped. |
| ProductText.RatingSearch | ml.py:40-43 | A found rating is the match at the leftmost position where the pattern matches. Nothing is found exactly when it matches at no position. The rate is `d+.d+` and the count is all digits. |
| ProductText.RatingHasNoComma | ml.py:40-43 | A found rate and count hold no comma. |
| ProductText.PriceSearch | ml.py:46-48 | A found price is the match at the leftmost position where the pattern matches. Nothing is found exactly when it matches at no position. |
| ProductText.PriceAtShape | ml.py:46-48 | A price read at a position starts with an `R$` line there and is digits, a dot and digits. |
| ProductText.PriceNeedsMark | ml.py:46-48 | A price is found only in text holding `R$`, and it holds no comma. |
| ProductText.PriceOfCard | ml.py:46-48 | Text with `R$\nA\n,\nB` after a head with no `R$` line, and no digit right after B, gives the price `A.B`: the card is the first `R$` line. |
| ProductText.Leftmost | ml.py:41 | Picks the first present attempt from a position on, and nothing exactly when every attempt is absent. |
| ProductText.Fields | ml.py:34-48 | The name is present exactly when `\nPor` occurs, and it is stripped and on one line. A price implies `R$`. |
| ProductText.FormatP | ml.py:31-32 | None exactly when the text lacks `R$`. |
| ProductText.FormatSplitsBack | ml.py:50 | The output splits at commas into name, price, rate and count. An absent field reads "None". |
| Dicts.Put | src/scrapping_agent/scrap.py:155 | `d[k] = v`: an existing key keeps its place, a new key goes last. Other keys are unchanged. |
| Strings.Strip | src/scrapping_agent/scrapper.py:53 | `str.strip()` keeps the infix between leading and trailing whitespace. The result is stripped and keeps every other character. |
| Strings.CollapseShape | src/scrapping_agent/scrapper.py:75 | After `re.sub(r'\s+', ' ', …)` every whitespace is a single plain space. |
| Strings.CollapseKeepsText | src/scrapping_agent/scrapper.py:75 | Collapsing drops whitespace only. |
| Strings.SplitJoin | src/scrapping_agent/scrapper.py:54 | `split` undoes `join` when no piece holds the separator. |
| Strings.IntRoundTrip | src/scrapping_agent/scrapper.py:64 | `int(str(n)) == n`. |
| Strings.Find | app.py:155 | `find` gives the first occurrence, or -1 exactly when there is none. |
| Strings.RFind | app.py:156 | `rfind` gives the last occurrence, or -1 exactly when there is none. |

## Left out

- Playwright and browser I/O are left out: launching, `goto`, load waits, `wait_for_selector`, the screenshot file, and the sync `Scrapper.run` event-loop wrapper. Page actions are a `Driver` parameter. `_print` is modelled only by the path it reports, with the clock reading as a parameter.
- CSS selector semantics are not modelled: each element record lists the selectors it matches. Visibility and `evaluate` are not modelled either: string-valued properties are a map.
- Pages.QueryAll / Pages.QueryFirst: selectors are assumed to be valid, so a query never fails and a malformed selector such as `div[` just matches nothing. In the source, Playwright's `query_selector_all` and `query_selector` raise on an invalid selector (src/scrapping_agent/scrapper.py:68 and 108, src/scrapping_agent/scrap.py:35). The agent then receives "Error running command '…'. Erro: …" (scrapper.py:43-44) where the model lists no elements or reports the element missing. The script replay logs the error and stops (scrap.py:76-78) where the model records "Element not found" and goes on.
- `Scrapper.initialize` and `Scrapper.close`, and the scraping agent's `close`, are lifecycle and browser I/O. The agent's scrapper is always set in its constructor (src/scrapping_agent/agent.py:31), so `close` only forwards to the browser.
- Language models, embeddings, Google search and Firecrawl are parameters. Their replies are uninterpreted strings, and JSON decoding is a partial function.
- LangGraph checkpointing and the interrupt mechanism are left out. ask_human pauses when no reply is supplied.
- ScrapingAgent.Execute: the recursion limit is modelled as a budget of node executions. LangGraph's own step accounting may differ by one. The limit reached is reported with the same message.
- ShoppingAgent.ResearchAccumulates: the tools node runs its calls with `asyncio.gather`. Research notes are appended here in call order, which is one of the orders the concurrent run allows.
- ScrapingAgent.Run: the conversation between the seed message and the final reply is stated only through its ends. Which plans, actions and tool replies came between depends on the oracles, and Execute and FinishesThroughResponse describe the steps.
- ScriptRunner.Substitute: states the shape and the no-placeholder case. Each string leaf is rewritten by SubstituteString, whose sequential replacement is characterised by SubstitutionCanLeavePlaceholder rather than by a closed form.
- JsonValue.Json: JSON numbers are integers. `json.loads` in app.py and `json.load` in scrap.py give floats for numbers such as `8.5`. The program does no arithmetic on the comparison's ratings or prices, so they are left out. A script `"limit": 2.5` has no model value; in Python it yields three blocks.
- ProductText.RatingSearch, ProductText.PriceSearch and ProductText.DigitRunEnd: `\d` is modelled as the ASCII digits. Python's `\d` on a `str` pattern also matches other Unicode decimal digits, such as Arabic-Indic ones, so text using them finds no rating or price here. Product cards use ASCII digits.
- ShoppingAgent.RunNode: `handle_tool_call` appends to the state's research list in place, and the node returns only messages. The model assumes that the in-memory list carries over to later nodes, as it does when LangGraph hands the same list object on. A checkpointer that copied state between steps would drop the notes.
- ShoppingAgent.ResumedRunEndsWithAnalyst: the research the analyst reads is stated to be the final research and to extend the notes the run resumed with. Which calls saved the extra notes is left to RunNode and ResearchAccumulates.
- Strings.ParseInt: `int()` is modelled for ASCII digits with an optional sign and surrounding whitespace. Underscores and non-ASCII digits are not accepted.
- Strings.Upper and Strings.Lower: only ASCII letters change case.
- Scripts are already-parsed JSON values. `load_script`, `save_results` and the logger are file I/O and are left out.
- ScriptRunner.ValidateInputs: a script or an `input` entry that is not a JSON object fails validation here with its own error, before the browser starts. Python does otherwise. `validate_inputs` (src/scrapping_agent/scrap.py:96-107) iterates a list-valued `input` and accepts it when every listed name is supplied; it fails only on a missing name, at `.items()`. A list script usually passes validation, because `"input" in` a list tests membership. It then fails at `self.scrap_script['site']` after the browser has launched, which ScriptRunner.Run does not model.
- Only string default values in `.get()` and string `save_relevant_data` arguments are modelled. Other JSON types in those positions are left out.
- The prompt texts (the system prompts of app.py and src/main.py, and the prompt files of the agents) are parameters.
- src/scrapping_agent/tools.py and src/scrapping_agent/scrapper_tools.py are left out. They wrap methods that the shown `Scrapper` does not define.
- src/server.py is streaming transport and concurrency.
- fer.py, scrape.py, src/cli.py, src/shopping_agent/tools.py and src/shopping_agent/web_search.py are network wrappers.
- test.py's code after its early `return` is unreachable and is left out.
- cosine_similarity, get_embedding, clean_html, encode_image and the pandas code are floating-point or library code.
- `format_product` in ml.py is a single model call.

## Findings

| source | as written | input that shows it | evidently intended | confidence | as-written member | corrected member |
|---|---|---|---|---|---|---|
| src/main.py:40-52 | `extract_data` builds a `ScrappingAgent` and calls `run` without `initialize`, so `run` reads an unset `url` and the bare `except` turns every call into `Falha ao extrair dados do link …`; the positional arguments also pass the link as the query | any search result, for example a hit with link `https://a.example`, whatever the page and the models | initialise the agent at the result's link and ask it the query, falling back only when the run fails | not executed | SearchCli.ExtractDataAsWritten, SearchCli.ExtractDataAlwaysFails, SearchCli.Main, SearchCli.FallbackResults | SearchCli.ExtractData, SearchCli.MainCorrected |
| src/shopping_agent/agent.py:75-77 | `continue_from_input` awaits the resumed run but has no `return`, so its caller always receives None and the analyst's comparison is lost | a paused run for the product `livro`, resumed with `ficcao`, whose researcher answers without tool calls and whose analyst answers `Compre o livro A` | return what the resumed `run` returns, as `run` does for the first call | not executed | ShoppingAgent.ContinueAsWritten, ShoppingAgent.ContinueDropsAnswer | ShoppingAgent.Continue |

=== FILE: app.dfy ===
/** The Flask search flow of app.py: the agent's reply is searched for a
    JSON object, extracted page contents are compiled into the prompt, and
    a search request without additional information stops at the
    clarifying question. The chat service, the JSON decoder, the web search
    and the page extractor are oracles. */
module App {
  import opened Wrappers
  import opened Strings
  import opened JsonValue
  import opened Llms

  function Min(a: int, b: int): int { if a <= b then a else b }

  // ------------------------------------------------------------ JSON span

  /** The candidate JSON text of a reply: from the first `{` to the last `}`
      inclusive, when the last `}` comes after the first `{`. */
  function JsonSpan(text: string): (r: Option<string>)
    ensures r.Some? <==> exists i, j | 0 <= i < j < |text| :: text[i] == '{' && text[j] == '}'
    ensures r.Some? ==> |r.value| >= 2 && r.value[0] == '{' && r.value[|r.value| - 1] == '}'
    ensures r.Some? ==> exists i | 0 <= i <= |text| - |r.value| ::
      && r.value == text[i..i + |r.value|] && '{' !in text[..i] && '}' !in text[i + |r.value|..]
  {
    var start := Find(text, '{');
    var end := RFind(text, '}') + 1;
    if start >= 0 && end > start then
      assert text[start..end][end - start - 1] == text[end - 1];
      Some(text[start..end])
    else
      None
  }

  /** A JSON object written into a reply between chatter that holds no `{`
      before it and no `}` after it is exactly what the span finds. */
  lemma SpanFindsEmbeddedObject(before: string, body: string, after: string)
    requires '{' !in before && '}' !in after
    requires |body| >= 2 && body[0] == '{' && body[|body| - 1] == '}'
    ensures JsonSpan(before + body + after) == Some(body)
  {
    var text := before + body + after;
    var start := Find(text, '{');
    var last := RFind(text, '}');
    assert text[|before|] == '{';
    assert text[|before| + |body| - 1] == '}';
    assert text[start..last + 1] == body;
  }

  // ---------------------------------------------------- agent replies

  /** What `process_with_ai_agent` returns. */
  datatype AgentResult =
    | NeedMoreInfo(message: string)
    | Success(data: Json)
    | Failure(message: string, rawResponse: string)

  const DecodeFailure := "Erro ao processar a resposta do agente de IA"

  /** The comparison reply read as JSON: the span when it decodes, the raw
      text under `raw_response` when there is no span, an error keeping the
      raw text when the span does not decode. */
  function Interpret(text: string, decode: string -> Result<Json>): (r: AgentResult)
    ensures !r.NeedMoreInfo?
    ensures r.Failure? <==> JsonSpan(text).Some? && decode(JsonSpan(text).value).Err?
    ensures r.Failure? ==> r == Failure(DecodeFailure, text)
    ensures JsonSpan(text).None? ==> r == Success(JObj([("raw_response", JStr(text))]))
    ensures r.Success? && JsonSpan(text).Some? ==> decode(JsonSpan(text).value) == Ok(r.data)
  {
    match JsonSpan(text)
    case None => Success(JObj([("raw_response", JStr(text))]))
    case Some(span) =>
      match decode(span)
      case Ok(data) => Success(data)
      case Err(_) => Failure(DecodeFailure, text)
  }

  /** A reply with no `{` at all comes back whole as `raw_response`. */
  lemma NoBraceIsRaw(text: string, decode: string -> Result<Json>)
    requires '{' !in text
    ensures Interpret(text, decode) == Success(JObj([("raw_response", JStr(text))]))
  {
  }

  // ---------------------------------------------------- compiled contents

  const PageCut := 4000

  /** The heading of the page at 0-based position `i`. */
  function PageLabel(i: nat): string {
    "\n--- CONTE\U{DA}DO DA P\U{C1}GINA " + NatToString(i + 1) + " ---\n"
  }

  /** One page's block: its heading, then at most the first 4000
      characters of its content, then a newline. */
  function PageBlock(i: nat, content: string): (r: string)
    ensures PageLabel(i) <= r && r[|r| - 1] == '\n'
    ensures |r| == |PageLabel(i)| + Min(|content|, PageCut) + 1
    ensures r[|PageLabel(i)|..|r| - 1] <= content
    ensures |content| <= PageCut ==> r[|PageLabel(i)|..|r| - 1] == content
  {
    PageLabel(i) + content[..Min(|content|, PageCut)] + "\n"
  }

  /** The positions of the entries that are present, in increasing order. */
  function Kept(contents: seq<Option<string>>): (r: seq<nat>)
    ensures forall k | 0 <= k < |r| :: r[k] < |contents| && contents[r[k]].Some?
    ensures forall i | 0 <= i < |contents| && contents[i].Some? :: i in r
    ensures forall k, l | 0 <= k < l < |r| :: r[k] < r[l]
  {
    if |contents| == 0 then []
    else
      var init := contents[..|contents| - 1];
      assert forall i | 0 <= i < |init| :: init[i] == contents[i];
      Kept(init) + (if contents[|contents| - 1].Some? then [|contents| - 1] else [])
  }

  /** The blocks of the entries at the given positions. */
  function Blocks(contents: seq<Option<string>>, kept: seq<nat>): (r: seq<string>)
    requires forall k | 0 <= k < |kept| :: kept[k] < |contents| && contents[kept[k]].Some?
    ensures |r| == |kept|
  {
    seq(|kept|, k requires 0 <= k < |kept| => PageBlock(kept[k], contents[kept[k]].value))
  }

  /** The compiled text: the blocks of the present entries, each under its
      original position, so an absent entry leaves a gap in the numbering. */
  function Compile(contents: seq<Option<string>>): string {
    Join("", Blocks(contents, Kept(contents)))
  }

  /** Blocks do not depend on entries after the positions they name. */
  lemma BlocksExtend(contents: seq<Option<string>>, more: seq<Option<string>>, kept: seq<nat>)
    requires forall k | 0 <= k < |kept| :: kept[k] < |contents| && contents[kept[k]].Some?
    ensures Blocks(contents + more, kept) == Blocks(contents, kept)
  {
    var all := contents + more;
    forall k | 0 <= k < |kept|
      ensures all[kept[k]] == contents[kept[k]]
    {
    }
  }

  /** One more position adds its block at the end. */
  lemma BlocksSnoc(contents: seq<Option<string>>, kept: seq<nat>, i: nat)
    requires forall k | 0 <= k < |kept| :: kept[k] < |contents| && contents[kept[k]].Some?
    requires i < |contents| && contents[i].Some?
    ensures Blocks(contents, kept + [i]) == Blocks(contents, kept) + [PageBlock(i, contents[i].value)]
  {
    var longer := Blocks(contents, kept + [i]);
    var shorter := Blocks(contents, kept);
    forall k | 0 <= k < |kept|
      ensures longer[k] == shorter[k]
    {
    }
    assert longer == shorter + [longer[|kept|]];
  }

  /** Joining with no separator: one more part goes at the end. */
  lemma ConcatSnoc(parts: seq<string>, x: string)
    ensures Join("", parts + [x]) == Join("", parts) + x
  {
    if |parts| > 0 {
      JoinSnoc("", parts, x);
    } else {
      assert parts + [x] == [x];
    }
  }

  /** Compiling one more entry appends its block, if it is present. */
  lemma CompileSnoc(contents: seq<Option<string>>, entry: Option<string>)
    ensures Compile(contents + [entry])
      == Compile(contents) + (if entry.Some? then PageBlock(|contents|, entry.value) else "")
  {
    var all := contents + [entry];
    assert all[..|all| - 1] == contents;
    var kept := Kept(contents);
    BlocksExtend(contents, [entry], kept);
    if entry.Some? {
      assert Kept(all) == kept + [|contents|];
      BlocksSnoc(all, kept, |contents|);
      ConcatSnoc(Blocks(contents, kept), PageBlock(|contents|, entry.value));
    } else {
      assert Kept(all) == kept;
    }
  }

  /** The compiling loop of `process_with_ai_agent`. */
  method CompileContents(contents: seq<Option<string>>) returns (text: string)
    ensures text == Compile(contents)
  {
    text := "";
    var i := 0;
    while i < |contents|
      invariant 0 <= i <= |contents|
      invariant text == Compile(contents[..i])
    {
      CompileSnoc(contents[..i], contents[i]);
      assert contents[..i + 1] == contents[..i] + [contents[i]];
      if contents[i].Some? {
        text := text + PageBlock(i, contents[i].value);
      }
      i := i + 1;
    }
    assert contents[..i] == contents;
  }

  /** A missing first page leaves the second labelled with its own position. */
  lemma GapInNumbering(content: string)
    ensures Compile([None, Some(content)]) == PageBlock(1, content)
  {
    var none: seq<Option<string>> := [];
    CompileSnoc(none, None);
    CompileSnoc([None], Some(content));
    assert [None] + [Some(content)] == [None, Some(content)];
    assert none + [None] == [None];
  }

  // ------------------------------------------------------------ requests

  /** `full_query`: the additional information, when given, after a space. */
  function FullQuery(query: string, info: string): (r: string)
    ensures info == "" ==> r == query
    ensures info != "" ==> |r| == |query| + 1 + |info| && r[..|query|] == query && r[|query|] == ' ' && r[|query| + 1..] == info
  {
    if info != "" then query + " " + info else query
  }

  /** The system prompts are the source's fixed texts; they are kept as
      parameters rather than repeated here. */
  datatype Services = Services(
    clarifyPrompt: string,
    comparePrompt: string,
    chat: seq<Entry> -> string,
    decode: string -> Result<Json>,
    search: (string, nat) -> seq<string>,
    extract: string -> Option<string>)

  function ComparePrompt(query: string, contentText: string): string {
    "Com base na busca por '" + query + "', analise os seguintes conte\U{FA}dos extra\U{ED}dos de tier lists e reviews:\n"
    + contentText + "\n\nCrie uma compara\U{E7}\U{E3}o detalhada dos melhores produtos encontrados."
  }

  function ClarifyPrompt(query: string): string {
    "O usu\U{E1}rio est\U{E1} procurando: " + query + ". Preciso de mais detalhes para ajud\U{E1}-lo melhor."
  }

  /** `process_with_ai_agent`: with `needMoreInfo` the reply is always a
      clarifying question; otherwise the compiled contents are sent and the
      reply is interpreted. */
  function ProcessWithAgent(query: string, contents: seq<Option<string>>, needMoreInfo: bool, svc: Services): (r: AgentResult)
    ensures needMoreInfo <==> r.NeedMoreInfo?
    ensures needMoreInfo ==>
      r.message == svc.chat([Entry("system", svc.clarifyPrompt), Entry("user", ClarifyPrompt(query))])
    ensures !needMoreInfo ==>
      r == Interpret(svc.chat([Entry("system", svc.comparePrompt), Entry("user", ComparePrompt(query, Compile(contents)))]), svc.decode)
  {
    if needMoreInfo then
      NeedMoreInfo(svc.chat([Entry("system", svc.clarifyPrompt), Entry("user", ClarifyPrompt(query))]))
    else
      Interpret(svc.chat([Entry("system", svc.comparePrompt), Entry("user", ComparePrompt(query, Compile(contents)))]), svc.decode)
  }

  /** The pages of the given links, each kept when the extractor returns content. */
  function Extracted(links: seq<string>, svc: Services): (r: seq<Option<string>>)
    ensures |r| <= |links|
    ensures forall k | 0 <= k < |r| :: r[k].Some?
    ensures forall k | 0 <= k < |r| :: exists j | 0 <= j < |links| :: r[k] == svc.extract(links[j])
  {
    if |links| == 0 then []
    else
      var rest := Extracted(links[1..], svc);
      assert forall j | 1 <= j < |links| :: links[j] == links[1..][j - 1];
      (if svc.extract(links[0]).Some? then [svc.extract(links[0])] else []) + rest
  }

  /** One more link appends its page exactly when the extractor returns
      one: the pages are the present results, in link order. */
  lemma {:induction false} ExtractedSnoc(links: seq<string>, link: string, svc: Services)
    ensures Extracted(links + [link], svc)
      == Extracted(links, svc) + (if svc.extract(link).Some? then [svc.extract(link)] else [])
  {
    if |links| > 0 {
      assert (links + [link])[1..] == links[1..] + [link];
      ExtractedSnoc(links[1..], link, svc);
    }
  }

  /** The follow-up searches for the recommended products' names. */
  function ProductPages(products: seq<Json>, svc: Services): Result<seq<Option<string>>> {
    if |products| == 0 then Ok([])
    else
      var name :- if products[0].JObj? then Ok(Get(products[0].fields, "nome")) else Err("AttributeError: 'get'");
      var rest :- ProductPages(products[1..], svc);
      if name.Some? && name.value.JStr? && name.value.s != "" then
        Ok(Extracted(svc.search(name.value.s + " specifications review price", 2), svc) + rest)
      else Ok(rest)
  }

  /** `search_product`: the clarifying check, then the tier-list search and
      comparison, then a second comparison including the product pages. */
  function SearchProduct(query: string, info: string, svc: Services): (r: Result<AgentResult>)
    ensures info == "" ==> r == Ok(ProcessWithAgent(query, [], true, svc))
  {
    var full := FullQuery(query, info);
    var check := ProcessWithAgent(full, [], true, svc);
    if check.NeedMoreInfo? && info == "" then Ok(check)
    else
      var contents := Extracted(svc.search(full + " tier list best recommendations reviews", 3), svc);
      var comparison := ProcessWithAgent(full, contents, false, svc);
      if comparison.Success? && comparison.data.JObj? then
        var products := Get(comparison.data.fields, "produtos");
        var more :- if products.Some? && products.value.JArr? then ProductPages(products.value.items, svc) else Ok([]);
        Ok(ProcessWithAgent(full, contents + more, false, svc))
      else Ok(comparison)
  }

  /** With additional information the search always runs and the answer is
      a comparison, never the clarifying question. */
  lemma SearchRunsWithInfo(query: string, info: string, svc: Services)
    requires info != ""
    requires SearchProduct(query, info, svc).Ok?
    ensures !SearchProduct(query, info, svc).value.NeedMoreInfo?
  {
  }
}

=== FILE: chunks.dfy ===
/** `text_chunks` (test.py): a text cut into consecutive pieces of
    `chunk_size` characters, the last one possibly shorter. */
module Chunks {
  import opened Wrappers
  import opened Strings

  function Min(a: int, b: int): int { if a <= b then a else b }

  /** The pieces for a positive size: none is empty or longer than
      `size`, and all but the last are exactly `size` long. */
  function Chunks(text: string, size: nat): (r: seq<string>)
    requires size > 0
    ensures forall k | 0 <= k < |r| :: 0 < |r[k]| <= size
    ensures forall k | 0 <= k < |r| - 1 :: |r[k]| == size
    ensures |text| == 0 <==> |r| == 0
    decreases |text|
  {
    if |text| == 0 then []
    else if |text| <= size then [text]
    else
      var rest := Chunks(text[size..], size);
      assert |rest| > 0;
      [text[..size]] + rest
  }

  /** Concatenated, the pieces give the text back. */
  lemma {:induction false} ChunksJoin(text: string, size: nat)
    requires size > 0
    ensures Join("", Chunks(text, size)) == text
    decreases |text|
  {
    if |text| > size {
      ChunksJoin(text[size..], size);
      assert text == text[..size] + "" + text[size..];
    }
  }

  lemma SliceOfSuffix(text: string, d: nat, lo: nat, hi: nat)
    requires d <= |text| && lo <= hi <= |text| - d
    ensures text[d..][lo..hi] == text[lo + d..hi + d]
  {
  }

  /** There are ceil(|text| / size) pieces: the smallest count whose
      pieces of `size` cover the text. */
  lemma {:induction false} ChunkCount(text: string, size: nat)
    requires size > 0
    ensures var n := |Chunks(text, size)|;
      n > 0 ==> (n - 1) * size < |text| <= n * size
    decreases |text|
  {
    var n := |Chunks(text, size)|;
    if |text| > size {
      ChunkCount(text[size..], size);
      assert n * size == (n - 1) * size + size;
      assert (n - 1) * size == (n - 2) * size + size;
    }
  }

  /** The first piece is the first `size` characters, or the whole text. */
  lemma FirstChunk(text: string, size: nat)
    requires size > 0 && |text| > 0
    ensures Chunks(text, size)[0] == text[..Min(size, |text|)]
  {
  }

  /** Past the first piece, the pieces are those of the rest of the text. */
  lemma LaterChunk(text: string, size: nat, k: nat)
    requires size > 0 && 0 < k < |Chunks(text, size)|
    ensures |text| > size
    ensures Chunks(text, size)[k] == Chunks(text[size..], size)[k - 1]
  {
  }

  /** Where piece `k` starts: `k` pieces of `size` in. */
  function Offset(k: nat, size: nat): nat {
    if k == 0 then 0 else Offset(k - 1, size) + size
  }

  lemma {:induction false} OffsetIsProduct(k: nat, size: nat)
    ensures Offset(k, size) == k * size
    ensures Offset(k + 1, size) == (k + 1) * size
  {
    if k > 0 {
      OffsetIsProduct(k - 1, size);
    }
  }

  /** Piece `k` starts `Offset(k, size)` characters into the text. */
  lemma {:induction false} ChunkFrom(text: string, size: nat, k: nat)
    requires size > 0 && k < |Chunks(text, size)|
    ensures Offset(k, size) < |text|
    ensures Chunks(text, size)[k] == text[Offset(k, size)..Min(Offset(k, size) + size, |text|)]
    decreases |text|
  {
    if k == 0 {
      FirstChunk(text, size);
    } else {
      LaterChunk(text, size, k);
      var rest := text[size..];
      var lo := Offset(k - 1, size);
      var hi := Min(lo + size, |rest|);
      ChunkFrom(rest, size, k - 1);
      SliceOfSuffix(text, size, lo, hi);
    }
  }

  /** The list comprehension itself: piece `k` is the slice starting at
      `k * size`, cut at the end of the text. */
  lemma ChunkAt(text: string, size: nat, k: nat)
    requires size > 0 && k < |Chunks(text, size)|
    ensures k * size < |text|
    ensures Chunks(text, size)[k] == text[k * size..Min((k + 1) * size, |text|)]
  {
    ChunkFrom(text, size, k);
    OffsetIsProduct(k, size);
  }

  /** `text_chunks(text, chunk_size)`: a zero step is refused by `range`; a
      negative one gives an empty range and so no pieces. */
  function TextChunks(text: string, size: int): (r: Result<seq<string>>)
    ensures r.Err? <==> size == 0
    ensures size < 0 ==> r == Ok([])
    ensures size > 0 ==> r == Ok(Chunks(text, size))
    ensures size > 0 ==> Join("", r.value) == text
  {
    if size == 0 then Err("ValueError: range() arg 3 must not be zero")
    else if size < 0 then Ok([])
    else
      ChunksJoin(text, size);
      Ok(Chunks(text, size))
  }

  /** The empty text has no pieces, whatever the size. */
  lemma EmptyTextNoChunks(size: int)
    requires size != 0
    ensures TextChunks("", size) == Ok([])
  {
  }
}

=== FILE: commands.dfy ===
/** How `Scrapper` reads a tool call such as `extract_elements('a', 'False', '5')`
    (src/scrapping_agent/scrapper.py): `re.search` of
    `([a-z_]+)\(('.*',?)*\)` on the stripped command, then the arguments are
    the last capture of the repeated group with quotes removed, split at
    commas and stripped. The matcher below follows the backtracking order of
    Python's engine for this one pattern: leftmost start first, greedy `.*`
    (longest first, never across a newline), the optional comma taken before
    it is left out, another repetition tried before the closing parenthesis. */
module Commands {
  import opened Wrappers
  import opened Strings

  predicate IsNameChar(c: char) {
    'a' <= c <= 'z' || c == '_'
  }

  /** End of the run of `[a-z_]` characters that starts at `p`. */
  function NameRunEnd(s: string, p: nat): (e: nat)
    requires p <= |s|
    ensures p <= e <= |s|
    ensures forall k | p <= k < e :: IsNameChar(s[k])
    ensures e < |s| ==> !IsNameChar(s[e])
    decreases |s| - p
  {
    if p < |s| && IsNameChar(s[p]) then NameRunEnd(s, p + 1) else p
  }

  /** End of the line that position `j` is on: where `.` stops matching. */
  function LineEnd(s: string, j: nat): (e: nat)
    requires j <= |s|
    ensures j <= e <= |s|
    ensures forall k | j <= k < e :: s[k] != '\n'
    ensures e < |s| ==> s[e] == '\n'
    decreases |s| - j
  {
    if j < |s| && s[j] != '\n' then LineEnd(s, j + 1) else j
  }

  /** The line from `j` ends at the first newline after it. */
  lemma {:induction false} LineEndAt(s: string, j: nat, e: nat)
    requires j <= e < |s| && s[e] == '\n'
    requires forall k | j <= k < e :: s[k] != '\n'
    ensures LineEnd(s, j) == e
    decreases e - j
  {
    if j < e {
      LineEndAt(s, j + 1, e);
    }
  }

  /** Where a match of the tail `('.*',?)*\)` ends, and the span of the
      last repetition of the group, if it repeated at all. */
  datatype Tail = Tail(end: nat, group: Option<(nat, nat)>)

  /** The tail from position `j`; `last` is the capture of the repetition
      before. A further repetition is tried first, the `)` only after. */
  function StarFrom(s: string, j: nat, last: Option<(nat, nat)>): (r: Option<Tail>)
    requires j <= |s|
    requires last.Some? ==> last.value.0 < last.value.1 <= |s| && s[last.value.0] == '\''
    ensures r.Some? ==> j < r.value.end <= |s| && s[r.value.end - 1] == ')'
    ensures r.Some? && r.value.group.Some? ==>
      var (a, b) := r.value.group.value; a < b <= |s| && s[a] == '\''
    decreases |s| - j, 1, 0
  {
    var repeated := if j < |s| && s[j] == '\'' then Repetition(s, j, LineEnd(s, j + 1)) else None;
    if repeated.Some? then repeated
    else if j < |s| && s[j] == ')' then Some(Tail(j + 1, last))
    else None
  }

  /** One repetition opening at the quote `j`: the closing quote `q` is tried
      at every position below `hi`, from the last down, since `.*` is greedy. */
  function Repetition(s: string, j: nat, hi: nat): (r: Option<Tail>)
    requires j < hi <= |s| && s[j] == '\''
    ensures r.Some? ==> j < r.value.end <= |s| && s[r.value.end - 1] == ')'
    ensures r.Some? && r.value.group.Some? ==>
      var (a, b) := r.value.group.value; a < b <= |s| && s[a] == '\''
    decreases |s| - j, 0, hi
  {
    if hi == j + 1 then None
    else
      var q := hi - 1;
      var found :=
        if s[q] != '\'' then None
        else
          var withComma := if q + 1 < |s| && s[q + 1] == ',' then StarFrom(s, q + 2, Some((j, q + 2))) else None;
          if withComma.Some? then withComma else StarFrom(s, q + 1, Some((j, q + 1)));
      if found.Some? then found else Repetition(s, j, q)
  }

  /** A match: the name spans `[start, nameEnd)`, the `(` is at `nameEnd`. */
  datatype Match = Match(start: nat, nameEnd: nat, tail: Tail)

  /** The match that starts at `p`, if any: `[a-z_]+` takes the whole run
      (a shorter run would be followed by a letter, not by `(`). */
  function MatchAt(s: string, p: nat): (r: Option<Match>)
    requires p <= |s|
    ensures r.Some? ==> r.value.start == p < r.value.nameEnd < |s| && s[r.value.nameEnd] == '('
  {
    if p < |s| && IsNameChar(s[p]) then
      var e := NameRunEnd(s, p);
      if e < |s| && s[e] == '(' then
        match StarFrom(s, e + 1, None)
        case Some(t) => Some(Match(p, e, t))
        case None => None
      else None
    else None
  }

  /** `re.search`: the leftmost start position that matches. */
  function SearchFrom(s: string, p: nat): (r: Option<Match>)
    requires p <= |s|
    ensures r.Some? ==> p <= r.value.start < |s| && MatchAt(s, r.value.start) == r
    ensures r.Some? ==> forall k | p <= k < r.value.start :: MatchAt(s, k).None?
    ensures r.None? ==> forall k | p <= k <= |s| :: MatchAt(s, k).None?
    decreases |s| - p
  {
    var m := MatchAt(s, p);
    if m.Some? then m
    else if p == |s| then None
    else SearchFrom(s, p + 1)
  }

  /** Splits the captured argument text: quotes removed, split at commas,
      each piece stripped. */
  function SplitArguments(g: string): (r: seq<string>)
    ensures |r| >= 1
    ensures forall k | 0 <= k < |r| :: Stripped(r[k]) && ',' !in r[k] && '\'' !in r[k]
  {
    var unquoted := ReplaceAll(Strip(g), "'", "");
    RemoveCharGone(Strip(g), '\'');
    var pieces := Split(unquoted, ',');
    assert forall k | 0 <= k < |pieces| :: '\'' !in pieces[k] by {
      forall k | 0 <= k < |pieces|
        ensures '\'' !in pieces[k]
      {
        assert Join([','], pieces) == unquoted;
        JoinHolds(pieces, k, ',');
      }
    }
    var r := seq(|pieces|, k requires 0 <= k < |pieces| => Strip(pieces[k]));
    forall k | 0 <= k < |pieces|
      ensures ',' !in r[k] && '\'' !in r[k]
    {
      StripKeepsOut(pieces[k], ',');
      StripKeepsOut(pieces[k], '\'');
    }
    r
  }

  /** Every part of a join occurs in the joined text. */
  lemma {:induction false} JoinHolds(parts: seq<string>, k: nat, c: char)
    requires k < |parts|
    ensures forall x | x in parts[k] :: x in Join([c], parts)
  {
    if |parts| > 1 {
      if k == 0 {
        assert Join([c], parts) == parts[0] + [c] + Join([c], parts[1..]);
      } else {
        JoinHolds(parts[1..], k - 1, c);
        assert parts[1..][k - 1] == parts[k];
      }
    }
  }

  /** `_extract_command_and_args`: the command name and its arguments, or
      the "No function match" exception. */
  function ParseCommand(command: string): (r: Result<(string, seq<string>)>)
    ensures r.Err? <==> forall k | 0 <= k <= |Strip(command)| :: MatchAt(Strip(command), k).None?
    ensures r.Err? ==> r.msg == "No function match"
    ensures r.Ok? ==> |r.value.0| > 0 && forall k | 0 <= k < |r.value.0| :: IsNameChar(r.value.0[k])
    ensures r.Ok? ==> forall k | 0 <= k < |r.value.1| ::
      Stripped(r.value.1[k]) && ',' !in r.value.1[k] && '\'' !in r.value.1[k]
  {
    var s := Strip(command);
    match SearchFrom(s, 0)
    case None => Err("No function match")
    case Some(m) =>
      var nameText := s[m.start..m.nameEnd];
      NameIsStripped(nameText);
      var args :=
        match m.tail.group
        case Some((a, b)) => if a < b <= |s| then SplitArguments(s[a..b]) else []
        case None => [];
      Ok((Strip(nameText), args))
  }

  lemma NameIsStripped(t: string)
    requires forall k | 0 <= k < |t| :: IsNameChar(t[k])
    ensures Stripped(t) && Strip(t) == t
  {
    if |t| > 0 {
      assert IsNameChar(t[0]) && IsNameChar(t[|t| - 1]);
    }
    StripOfStripped(t);
  }

  // ------------------------------------------------------------ round trip

  function Quote(a: string): string {
    "'" + a + "'"
  }

  function Quoted(args: seq<string>): (r: seq<string>)
    ensures |r| == |args|
  {
    seq(|args|, k requires 0 <= k < |args| => Quote(args[k]))
  }

  /** How the agent is asked to write a call: `name('a', 'b', 'c')`. */
  function FormatCall(name: string, args: seq<string>): string {
    name + "(" + Join(", ", Quoted(args)) + ")"
  }

  /** An argument the format can carry unchanged. */
  predicate Plain(a: string) {
    Stripped(a) && ',' !in a && '\'' !in a && '\n' !in a
  }

  /** Calls written in that format are read back exactly. */
  lemma FormatCallRoundTrip(name: string, args: seq<string>)
    requires |name| > 0 && forall k | 0 <= k < |name| :: IsNameChar(name[k])
    requires forall k | 0 <= k < |args| :: Plain(args[k])
    ensures ParseCommand(FormatCall(name, args)) == Ok((name, args))
  {
    var s := FormatCall(name, args);
    var m := CallMatch(name, args);
    assert Strip(s) == s;
    assert s[m.start..m.nameEnd] == name;
    NameIsStripped(name);
    if |args| > 0 {
      assert s[|name| + 1..|s| - 1] == Join(", ", Quoted(args));
      SplitQuotedJoin(args);
    }
  }

  /** The formatted call is stripped, and the search matches it from its
      first character up to the final `)`. */
  lemma CallMatch(name: string, args: seq<string>) returns (m: Match)
    requires |name| > 0 && forall k | 0 <= k < |name| :: IsNameChar(name[k])
    requires forall k | 0 <= k < |args| :: Plain(args[k])
    ensures var s := FormatCall(name, args);
      && Stripped(s)
      && SearchFrom(s, 0) == Some(m)
      && m.start == 0 && m.nameEnd == |name|
      && m.tail.group == (if |args| == 0 then None else Some((|name| + 1, |s| - 1)))
  {
    var s := FormatCall(name, args);
    assert Stripped(s) by {
      assert s[0] == name[0] && s[|s| - 1] == ')';
    }
    NameRunAt(s, name);
    var j := |name| + 1;
    assert s[|name|] == '(';
    if |args| == 0 {
      assert s[j] == ')';
      assert StarFrom(s, j, None) == Some(Tail(|s|, None));
      m := Match(0, |name|, Tail(|s|, None));
    } else {
      var body := Join(", ", Quoted(args));
      assert s[j..|s| - 1] == body;
      JoinQuotedShape(args);
      NoNewlineInCall(name, args);
      LineEndOfNoNewline(s, j + 1);
      TailOfQuotedArguments(s, j);
      m := Match(0, |name|, Tail(|s|, Some((j, |s| - 1))));
    }
    assert MatchAt(s, 0) == Some(m);
  }

  /** With no newline after it, the repetition runs from the opening quote
      at `j` to the quote just before the final `)`. */
  lemma TailOfQuotedArguments(s: string, j: nat)
    requires j + 2 < |s| && s[j] == '\'' && s[|s| - 2] == '\'' && s[|s| - 1] == ')'
    requires LineEnd(s, j + 1) == |s|
    ensures StarFrom(s, j, None) == Some(Tail(|s|, Some((j, |s| - 1))))
  {
    assert StarFrom(s, |s| - 1, Some((j, |s| - 1))) == Some(Tail(|s|, Some((j, |s| - 1))));
    assert Repetition(s, j, |s| - 1) == Some(Tail(|s|, Some((j, |s| - 1))));
    assert Repetition(s, j, |s|) == Some(Tail(|s|, Some((j, |s| - 1))));
  }

  lemma NameRunAt(s: string, name: string)
    requires |name| > 0 && forall k | 0 <= k < |name| :: IsNameChar(name[k])
    requires |name| < |s| && s[..|name|] == name && s[|name|] == '('
    ensures NameRunEnd(s, 0) == |name|
  {
  }

  lemma {:induction false} LineEndOfNoNewline(s: string, j: nat)
    requires j <= |s| && '\n' !in s[j..]
    ensures LineEnd(s, j) == |s|
    decreases |s| - j
  {
    if j < |s| {
      assert s[j] in s[j..];
      assert s[j + 1..] == s[j..][1..];
      LineEndOfNoNewline(s, j + 1);
    }
  }

  lemma NoNewlineInCall(name: string, args: seq<string>)
    requires forall k | 0 <= k < |name| :: IsNameChar(name[k])
    requires forall k | 0 <= k < |args| :: Plain(args[k])
    ensures '\n' !in FormatCall(name, args)
  {
    NoCharInQuotedJoin(args, '\n');
    assert '\n' !in name;
  }

  lemma {:induction false} NoCharInQuotedJoin(args: seq<string>, c: char)
    requires c != '\'' && c != ',' && c != ' '
    requires forall k | 0 <= k < |args| :: c !in args[k]
    ensures c !in Join(", ", Quoted(args))
  {
    if |args| > 1 {
      assert Quoted(args)[1..] == Quoted(args[1..]);
      NoCharInQuotedJoin(args[1..], c);
    }
  }

  /** A non-empty quoted join starts and ends with a quote. */
  lemma {:induction false} JoinQuotedShape(args: seq<string>)
    requires |args| > 0
    ensures var t := Join(", ", Quoted(args)); |t| >= 2 && t[0] == '\'' && t[|t| - 1] == '\''
  {
    if |args| > 1 {
      assert Quoted(args)[1..] == Quoted(args[1..]);
      JoinQuotedShape(args[1..]);
    }
  }

  /** Removing the quotes from the quoted join leaves the plain join. */
  lemma {:induction false} UnquoteJoin(args: seq<string>)
    requires forall k | 0 <= k < |args| :: '\'' !in args[k]
    ensures ReplaceAll(Join(", ", Quoted(args)), "'", "") == Join(", ", args)
  {
    if |args| > 0 {
      var a := args[0];
      RemoveAbsentChar(a, '\'');
      ReplaceCharAppend("'", a, '\'', "");
      ReplaceCharAppend("'" + a, "'", '\'', "");
      assert ReplaceAll(Quote(a), "'", "") == a;
      if |args| > 1 {
        assert Quoted(args)[1..] == Quoted(args[1..]);
        UnquoteJoin(args[1..]);
        RemoveAbsentChar(", ", '\'');
        ReplaceCharAppend(Quote(a), ", ", '\'', "");
        ReplaceCharAppend(Quote(a) + ", ", Join(", ", Quoted(args[1..])), '\'', "");
      }
    }
  }

  /** Pieces after the first carry the space that followed the comma. */
  function SpaceLed(args: seq<string>): (r: seq<string>)
    requires |args| > 0
    ensures |r| == |args| && r[0] == args[0]
    ensures forall k | 1 <= k < |args| :: r[k] == " " + args[k]
  {
    [args[0]] + seq(|args| - 1, k requires 0 <= k < |args| - 1 => " " + args[k + 1])
  }

  lemma {:induction false} CommaSpaceJoin(args: seq<string>)
    requires |args| > 0
    ensures Join(", ", args) == Join([','], SpaceLed(args))
  {
    if |args| > 1 {
      CommaSpaceJoin(args[1..]);
      var t := SpaceLed(args);
      var u := SpaceLed(args[1..]);
      SpaceLedTail(args);
      SpaceHeadJoin(u);
      var x := Join([','], u);
      assert Join([','], t) == t[0] + [','] + Join([','], t[1..]);
      assert Join(", ", args) == args[0] + ", " + x;
      assert args[0] + [','] + (" " + x) == args[0] + ", " + x;
    }
  }

  /** Dropping the first piece leads the next one with its space. */
  lemma {:induction false} SpaceLedTail(args: seq<string>)
    requires |args| > 1
    ensures var u := SpaceLed(args[1..]);
      SpaceLed(args)[1..] == [" " + u[0]] + u[1..]
  {
  }

  /** A space before the first piece ends up right after the joined text's start. */
  lemma {:induction false} SpaceHeadJoin(u: seq<string>)
    requires |u| > 0
    ensures Join([','], [" " + u[0]] + u[1..]) == " " + Join([','], u)
  {
    var head := " " + u[0];
    var v := [head] + u[1..];
    assert |v| == |u| && v[0] == head && v[1..] == u[1..];
    if |u| == 1 {
      assert Join([','], v) == head;
      assert Join([','], u) == u[0];
    } else {
      var tail := Join([','], u[1..]);
      assert Join([','], v) == head + [','] + tail;
      assert Join([','], u) == u[0] + [','] + tail;
    }
  }

  /** The arguments split back out of the plain join. */
  lemma SplitQuotedJoin(args: seq<string>)
    requires |args| > 0
    requires forall k | 0 <= k < |args| :: Plain(args[k])
    ensures SplitArguments(Join(", ", Quoted(args))) == args
  {
    var g := Join(", ", Quoted(args));
    UnquotedPieces(args);
    SplitArgumentsPieces(g);
    StripSpaceLed(args);
    var r := SplitArguments(g);
    assert |r| == |args| && forall k | 0 <= k < |r| :: r[k] == args[k];
  }

  /** Unquoting the stripped join and splitting at commas gives the
      arguments, each after the first led by its space. */
  lemma UnquotedPieces(args: seq<string>)
    requires |args| > 0
    requires forall k | 0 <= k < |args| :: Plain(args[k])
    ensures Split(ReplaceAll(Strip(Join(", ", Quoted(args))), "'", ""), ',') == SpaceLed(args)
  {
    var g := Join(", ", Quoted(args));
    JoinQuotedShape(args);
    StripOfStripped(g);
    UnquoteJoin(args);
    CommaSpaceJoin(args);
    var pieces := SpaceLed(args);
    assert ReplaceAll(Strip(g), "'", "") == Join([','], pieces);
    assert forall k | 0 <= k < |pieces| :: ',' !in pieces[k];
    SplitJoin(pieces, ',');
  }

  /** Stripping each space-led piece gives the plain arguments back. */
  lemma StripSpaceLed(args: seq<string>)
    requires |args| > 0
    requires forall k | 0 <= k < |args| :: Plain(args[k])
    ensures forall k | 0 <= k < |args| :: Strip(SpaceLed(args)[k]) == args[k]
  {
    forall k | 0 <= k < |args|
      ensures Strip(SpaceLed(args)[k]) == args[k]
    {
      if k == 0 {
        StripOfStripped(args[0]);
      } else {
        StripAfterSpace(args[k]);
      }
    }
  }

  /** The arguments are the stripped comma pieces of the unquoted text. */
  lemma SplitArgumentsPieces(g: string)
    ensures var pieces := Split(ReplaceAll(Strip(g), "'", ""), ',');
      |SplitArguments(g)| == |pieces| && forall k | 0 <= k < |pieces| :: SplitArguments(g)[k] == Strip(pieces[k])
  {
  }
}

=== FILE: dicts.dfy ===
/** A Python `dict[str, str]`: entries in insertion order, keys distinct.
    Assigning to an existing key keeps its position, as Python does. */
module Dicts {
  import opened Wrappers

  type Dict = seq<(string, string)>

  function Keys(d: Dict): seq<string> {
    seq(|d|, i requires 0 <= i < |d| => d[i].0)
  }

  predicate DistinctKeys(d: Dict) {
    forall i, j | 0 <= i < j < |d| :: d[i].0 != d[j].0
  }

  predicate HasKey(d: Dict, k: string) {
    exists i | 0 <= i < |d| :: d[i].0 == k
  }

  /** `d.get(k)`. */
  function Lookup(d: Dict, k: string): (r: Option<string>)
    ensures r.Some? <==> HasKey(d, k)
    ensures r.Some? ==> exists i | 0 <= i < |d| :: d[i] == (k, r.value)
  {
    if |d| == 0 then None
    else if d[0].0 == k then Some(d[0].1)
    else
      var r := Lookup(d[1..], k);
      assert HasKey(d, k) ==> HasKey(d[1..], k) by {
        if HasKey(d, k) {
          var i :| 0 <= i < |d| && d[i].0 == k;
          assert d[1..][i - 1].0 == k;
        }
      }
      assert r.Some? ==> exists i | 0 <= i < |d| :: d[i] == (k, r.value) by {
        if r.Some? {
          var i :| 0 <= i < |d[1..]| && d[1..][i] == (k, r.value);
          assert d[i + 1] == (k, r.value);
        }
      }
      r
  }

  /** Position of key `k` in `d`. */
  function KeyIndex(d: Dict, k: string): (r: Option<nat>)
    ensures r.Some? ==> r.value < |d| && d[r.value].0 == k
    ensures r.None? <==> !HasKey(d, k)
  {
    if |d| == 0 then None
    else if d[0].0 == k then Some(0)
    else
      var r := KeyIndex(d[1..], k);
      assert HasKey(d, k) ==> HasKey(d[1..], k) by {
        if HasKey(d, k) {
          var i :| 0 <= i < |d| && d[i].0 == k;
          assert d[1..][i - 1].0 == k;
        }
      }
      if r.Some? then Some(r.value + 1) else None
  }

  /** `d[k] = v`: an existing key is updated in place, a new key goes last. */
  function Put(d: Dict, k: string, v: string): (r: Dict)
    requires DistinctKeys(d)
    ensures DistinctKeys(r)
    ensures Lookup(r, k) == Some(v)
    ensures forall k' | k' != k :: Lookup(r, k') == Lookup(d, k')
    ensures HasKey(d, k) ==> Keys(r) == Keys(d)
    ensures !HasKey(d, k) ==> Keys(r) == Keys(d) + [k]
  {
    match KeyIndex(d, k)
    case Some(i) =>
      var r := d[i := (k, v)];
      UpdatedLookup(d, i, k, v);
      r
    case None =>
      var r := d + [(k, v)];
      AppendedLookup(d, k, v);
      r
  }

  lemma UniqueLookup(d: Dict, i: nat)
    requires DistinctKeys(d) && i < |d|
    ensures Lookup(d, d[i].0) == Some(d[i].1)
  {
    if i > 0 {
      assert d[1..][i - 1] == d[i];
      UniqueLookup(d[1..], i - 1);
    }
  }

  lemma UpdatedLookup(d: Dict, i: nat, k: string, v: string)
    requires DistinctKeys(d) && i < |d| && d[i].0 == k
    ensures var r := d[i := (k, v)];
      && DistinctKeys(r) && Lookup(r, k) == Some(v) && Keys(r) == Keys(d)
      && forall k' | k' != k :: Lookup(r, k') == Lookup(d, k')
  {
    var r := d[i := (k, v)];
    assert Keys(r) == Keys(d);
    UniqueLookup(r, i);
    forall k' | k' != k
      ensures Lookup(r, k') == Lookup(d, k')
    {
      if HasKey(d, k') {
        var j :| 0 <= j < |d| && d[j].0 == k';
        UniqueLookup(d, j);
        UniqueLookup(r, j);
      } else {
        assert !HasKey(r, k');
      }
    }
  }

  lemma AppendedLookup(d: Dict, k: string, v: string)
    requires DistinctKeys(d) && !HasKey(d, k)
    ensures var r := d + [(k, v)];
      && DistinctKeys(r) && Lookup(r, k) == Some(v) && Keys(r) == Keys(d) + [k]
      && forall k' | k' != k :: Lookup(r, k') == Lookup(d, k')
  {
    var r := d + [(k, v)];
    assert Keys(r) == Keys(d) + [k];
    UniqueLookup(r, |d|);
    forall k' | k' != k
      ensures Lookup(r, k') == Lookup(d, k')
    {
      if HasKey(d, k') {
        var j :| 0 <= j < |d| && d[j].0 == k';
        UniqueLookup(d, j);
        UniqueLookup(r, j);
      } else {
        assert !HasKey(r, k');
      }
    }
  }
}

=== FILE: json_value.dfy ===
/** A decoded JSON document, as `json.load` hands it to Python: objects keep
    their keys in document order (the decoder leaves them distinct), numbers
    are integers. */
module JsonValue {
  import opened Wrappers

  datatype Json =
    | JNull
    | JBool(b: bool)
    | JNum(n: int)
    | JStr(s: string)
    | JArr(items: seq<Json>)
    | JObj(fields: seq<(string, Json)>)

  /** `obj.get(key)` on the fields of an object. */
  function Get(fields: seq<(string, Json)>, key: string): (r: Option<Json>)
    ensures r.Some? ==> exists i | 0 <= i < |fields| :: fields[i] == (key, r.value)
    ensures r.None? ==> forall i | 0 <= i < |fields| :: fields[i].0 != key
  {
    if |fields| == 0 then None
    else if fields[0].0 == key then Some(fields[0].1)
    else
      var r := Get(fields[1..], key);
      assert r.Some? ==> exists i | 0 <= i < |fields| :: fields[i] == (key, r.value) by {
        if r.Some? {
          var i :| 0 <= i < |fields[1..]| && fields[1..][i] == (key, r.value);
          assert fields[i + 1] == (key, r.value);
        }
      }
      assert r.None? ==> forall i | 0 <= i < |fields| :: fields[i].0 != key by {
        if r.None? {
          forall i | 0 <= i < |fields|
            ensures fields[i].0 != key
          {
            if i > 0 {
              assert fields[i] == fields[1..][i - 1];
            }
          }
        }
      }
      r
  }

  /** `value[key]` where `value` came out of a JSON document: only an object
      with that key yields something; every other case raises. */
  function Member(value: Json, key: string): Result<Json> {
    match value
    case JObj(fields) =>
      (match Get(fields, key)
       case Some(v) => Ok(v)
       case None => Err("KeyError: '" + key + "'"))
    case _ => Err("TypeError: not a mapping")
  }

  /** A member that must be a string (a selector, a label, a text). */
  function StringMember(value: Json, key: string): Result<string> {
    var v :- Member(value, key);
    if v.JStr? then Ok(v.s) else Err("TypeError: '" + key + "' is not a string")
  }

  /** What a Python `for` loop over a JSON value visits: the items of a
      list, the keys of an object, the one-character strings of a string;
      numbers, booleans and null are not iterable. */
  function Iterate(value: Json): (r: Result<seq<Json>>)
    ensures value.JArr? ==> r == Ok(value.items)
    ensures r.Ok? && value.JObj? ==> |r.value| == |value.fields|
    ensures r.Ok? && value.JStr? ==> |r.value| == |value.s|
    ensures r.Err? <==> !(value.JArr? || value.JObj? || value.JStr?)
  {
    match value
    case JArr(items) => Ok(items)
    case JObj(fields) => Ok(seq(|fields|, i requires 0 <= i < |fields| => JStr(fields[i].0)))
    case JStr(s) => Ok(seq(|s|, i requires 0 <= i < |s| => JStr([s[i]])))
    case _ => Err("TypeError: object is not iterable")
  }
}

=== FILE: llms.dfy ===
/** The chat-history bookkeeping of `LlmBase` and `LlmOpenAi` (src/llms.py).
    The completion service is an oracle from the history it is sent to the
    raw reply text (or the error it raised). */
module Llms {
  import opened Wrappers
  import opened Strings

  datatype Entry = Entry(role: string, content: string)

  /** `LlmBase` has no completion service; `LlmOpenAi` names a model. */
  datatype Backend = NoBackend | Chat(model: string)

  datatype Llm = Llm(backend: Backend, history: seq<Entry>)

  /** The completion service: model name and history in, raw reply out. */
  type Complete = (string, seq<Entry>) -> Result<string>

  /** A fresh client. */
  function New(backend: Backend): (r: Llm)
    ensures r.history == [] && r.backend == backend
  {
    Llm(backend, [])
  }

  /** `__add_message`: one entry appended, nothing else touched. */
  function AddMessage(llm: Llm, content: string, role: string): (r: Llm)
    ensures r.backend == llm.backend
    ensures |r.history| == |llm.history| + 1 && llm.history <= r.history
    ensures r.history[|llm.history|] == Entry(role, content)
  {
    llm.(history := llm.history + [Entry(role, content)])
  }

  function SetSystemPrompt(llm: Llm, prompt: string): (r: Llm)
    ensures |r.history| == |llm.history| + 1 && llm.history <= r.history
    ensures r.history[|llm.history|] == Entry("system", prompt)
  {
    AddMessage(llm, prompt, "system")
  }

  /** `add_conversation_sample(*messages)`: the samples go last, in order. */
  function AddConversationSample(llm: Llm, samples: seq<Entry>): (r: Llm)
    ensures r.backend == llm.backend
    ensures |r.history| == |llm.history| + |samples| && llm.history <= r.history
    ensures r.history[|llm.history|..] == samples
  {
    llm.(history := llm.history + samples)
  }

  /** `get_response(message)`: the user entry is recorded before the
      service is called, so a failed call leaves it behind; the reply is
      stripped, recorded as the assistant entry and returned. */
  function GetResponse(llm: Llm, message: string, complete: Complete): (r: (Llm, Result<string>))
    ensures r.0.backend == llm.backend && llm.history <= r.0.history
    ensures llm.backend.NoBackend? ==> r == (llm, Err("NotImplementedError: get_response not implemented"))
    ensures r.1.Ok? ==>
      && r.0.history == llm.history + [Entry("user", message), Entry("assistant", r.1.value)]
      && Stripped(r.1.value)
    ensures r.1.Err? && llm.backend.Chat? ==> r.0.history == llm.history + [Entry("user", message)]
  {
    match llm.backend
    case NoBackend => (llm, Err("NotImplementedError: get_response not implemented"))
    case Chat(model) =>
      var asked := AddMessage(llm, message, "user");
      match complete(model, asked.history)
      case Err(e) => (asked, Err(e))
      case Ok(raw) =>
        var response := Strip(raw);
        (AddMessage(asked, response, "assistant"), Ok(response))
  }

  /** The service is sent exactly the earlier history and the new question. */
  lemma ServiceSeesQuestion(llm: Llm, message: string, complete: Complete)
    requires llm.backend.Chat?
    requires complete(llm.backend.model, llm.history + [Entry("user", message)]).Ok?
    ensures var raw := complete(llm.backend.model, llm.history + [Entry("user", message)]).value;
      GetResponse(llm, message, complete).1 == Ok(Strip(raw))
  {
  }

  /** A conversation: one `get_response` per question, stopping at the
      first failure. */
  function Converse(llm: Llm, questions: seq<string>, complete: Complete): (r: (Llm, seq<string>))
    decreases |questions|
  {
    if |questions| == 0 then (llm, [])
    else
      var step := GetResponse(llm, questions[0], complete);
      if step.1.Err? then (step.0, [])
      else
        var rest := Converse(step.0, questions[1..], complete);
        (rest.0, [step.1.value] + rest.1)
  }

  /** Each question followed by its answer, in order. */
  function Transcript(questions: seq<string>, answers: seq<string>): (r: seq<Entry>)
    requires |questions| == |answers|
    ensures |r| == 2 * |questions|
  {
    if |questions| == 0 then []
    else [Entry("user", questions[0]), Entry("assistant", answers[0])] + Transcript(questions[1..], answers[1..])
  }

  /** Entry `2k` of a transcript is question `k`, entry `2k + 1` its answer. */
  lemma {:induction false} TranscriptAt(questions: seq<string>, answers: seq<string>, k: nat)
    requires |questions| == |answers| && k < |questions|
    ensures Transcript(questions, answers)[2 * k] == Entry("user", questions[k])
    ensures Transcript(questions, answers)[2 * k + 1] == Entry("assistant", answers[k])
  {
    if k > 0 {
      TranscriptAt(questions[1..], answers[1..], k - 1);
      var rest := Transcript(questions[1..], answers[1..]);
      assert Transcript(questions, answers)[2 * k] == rest[2 * (k - 1)];
      assert Transcript(questions, answers)[2 * k + 1] == rest[2 * (k - 1) + 1];
    }
  }

  /** A conversation in which every call succeeds leaves the earlier history
      untouched, followed by each question and its stripped answer. */
  lemma {:induction false} ConversationHistory(llm: Llm, questions: seq<string>, complete: Complete)
    requires |Converse(llm, questions, complete).1| == |questions|
    ensures var r := Converse(llm, questions, complete);
      r.0.history == llm.history + Transcript(questions, r.1)
    decreases |questions|
  {
    if |questions| > 0 {
      var step := GetResponse(llm, questions[0], complete);
      var next := step.0;
      assert step.1.Ok?;
      var rest := Converse(next, questions[1..], complete);
      ConversationHistory(next, questions[1..], complete);
      var r := Converse(llm, questions, complete);
      assert r.0 == rest.0 && r.1 == [step.1.value] + rest.1;
      assert r.1[1..] == rest.1;
    }
  }
}

=== FILE: messages.dfy ===
/** The chat messages the agent graphs pass around: a human turn, a model
    turn that may request tool calls, and a tool's reply to one call. */
module Messages {
  import opened JsonValue

  datatype ToolCall = ToolCall(name: string, args: Json, id: string)

  datatype Message =
    | Human(content: string)
    | Ai(content: string, toolCalls: seq<ToolCall>)
    | ToolReply(content: string, callId: string)

  /** `add_messages` with fresh messages: they are appended in order. */
  function AddMessages(state: seq<Message>, added: seq<Message>): (r: seq<Message>)
    ensures |r| == |state| + |added| && state <= r && r[|state|..] == added
  {
    state + added
  }
}

=== FILE: pages.dfy ===
/** The browser as the automation code sees it. A page is its list of
    element records in document order; CSS selectors are not interpreted:
    each element records which selectors match it. Everything that changes
    the page (typing, clicking, navigating, screenshots) is an oracle held in
    a `Driver`, and may fail with the message the browser would raise. */
module Pages {
  import opened Wrappers

  datatype Element = Element(
    tagName: string,                    // `el.tagName` as the browser reports it
    className: string,                  // `el.className`
    textContent: string,                // `el.text_content()`
    attributes: map<string, string>,    // `el.get_attribute(name)`; absent means None
    properties: map<string, string>,    // string-valued `el.<prop>`; absent means not a string
    selectors: set<string>,             // the selectors this element matches
    descendants: seq<Element>)          // the elements below it, in document order

  datatype Page = Page(url: string, elements: seq<Element>)

  /** `query_selector_all(selector)` over a scope: the matching elements in
      document order. */
  function QueryAll(scope: seq<Element>, selector: string): (r: seq<Element>)
    ensures |r| <= |scope|
    ensures forall i | 0 <= i < |r| :: selector in r[i].selectors && r[i] in scope
    ensures forall i | 0 <= i < |scope| && selector in scope[i].selectors :: scope[i] in r
  {
    if |scope| == 0 then []
    else
      var rest := QueryAll(scope[1..], selector);
      assert forall i | 1 <= i < |scope| :: scope[i] == scope[1..][i - 1];
      if selector in scope[0].selectors then [scope[0]] + rest else rest
  }

  /** `query_selector(selector)`: the first match, or None. */
  function QueryFirst(scope: seq<Element>, selector: string): (r: Option<Element>)
    ensures r.None? <==> QueryAll(scope, selector) == []
    ensures r.Some? ==> r.value == QueryAll(scope, selector)[0]
  {
    var all := QueryAll(scope, selector);
    if |all| == 0 then None else Some(all[0])
  }

  /** The browser operations whose effect the model does not compute. */
  datatype Driver = Driver(
    open: string -> Result<Page>,                  // `page.goto(url)` then wait for load
    fill: (Page, string, string) -> Result<Page>,  // `page.fill(selector, text)`
    click: (Page, string) -> Result<Page>,         // `page.click(selector)` then wait for load
    clickElement: (Page, Element) -> Result<Page>, // `element.click()`
    typeInto: (Page, Element, string) -> Result<Page>, // `element.type(text)`
    screenshot: (Page, string) -> Result<Page>)    // `page.screenshot(path=..., full_page=True)`
}

=== FILE: product_text.dfy ===
/** `format_p` (ml.py): a scraped product card's text turned into
    `name,price,rate,ratings` by three regular-expression searches. Each
    search is modelled by the positions Python's `re.search` tries, in
    order, with the backtracking each pattern allows. */
module ProductText {
  import opened Wrappers
  import opened Strings
  import opened Commands

  /** End of the run of digits that starts at `p`: where a greedy `\d+` stops. */
  function DigitRunEnd(s: string, p: nat): (e: nat)
    requires p <= |s|
    ensures p <= e <= |s|
    ensures AllDigits(s[p..e])
    ensures e < |s| ==> !IsDigit(s[e])
    decreases |s| - p
  {
    if p < |s| && IsDigit(s[p]) then
      var e := DigitRunEnd(s, p + 1);
      assert s[p..e] == [s[p]] + s[p + 1..e];
      e
    else p
  }

  /** `re.search` over the attempts at each position from `i` on: the
      leftmost attempt that matches, and nothing exactly when none does. */
  function Leftmost<T>(attempts: seq<Option<T>>, i: nat): (r: Option<T>)
    requires i <= |attempts|
    ensures r.Some? ==> exists j | i <= j < |attempts| ::
      attempts[j] == r && forall k | i <= k < j :: attempts[k].None?
    ensures r.None? <==> forall j | i <= j < |attempts| :: attempts[j].None?
    decreases |attempts| - i
  {
    if i == |attempts| then None
    else if attempts[i].Some? then attempts[i]
    else
      var r := Leftmost(attempts, i + 1);
      assert r.Some? ==> exists j | i <= j < |attempts| ::
        attempts[j] == r && forall k | i <= k < j :: attempts[k].None?
      by {
        if r.Some? {
          var j :| i + 1 <= j < |attempts| && attempts[j] == r
            && forall k | i + 1 <= k < j :: attempts[k].None?;
          assert forall k | i <= k < j :: attempts[k].None?;
        }
      }
      r
  }

  // ----------------------------------------------------------------- name

  const PorMark := "\nPor"

  /** The attempt of `(?:.*\n)?(.*?)(?:\nPor)` at position `i`: first with
      the optional line taken (the name is then the next line), then
      without it (the name is the rest of this line); the lazy group cannot
      cross a newline, so it must end where its line ends. */
  function NameAt(s: string, i: nat): (r: Option<string>)
    requires i <= |s|
    ensures r.Some? ==> exists q | i <= q :: OccursAt(s, PorMark, q)
    ensures OccursAt(s, PorMark, i) ==> r.Some?
    ensures r.Some? ==> '\n' !in r.value
  {
    var e := LineEnd(s, i);
    if e < |s| && OccursAt(s, PorMark, LineEnd(s, e + 1)) then
      var e2 := LineEnd(s, e + 1);
      Some(s[e + 1..e2])
    else if OccursAt(s, PorMark, e) then
      Some(s[i..e])
    else None
  }

  /** `re.search`: the first position, from `i` on, where the pattern matches. */
  function NameSearch(s: string, i: nat): (r: Option<string>)
    requires i <= |s|
    ensures r.Some? ==> exists q | i <= q :: OccursAt(s, PorMark, q)
    ensures r.Some? ==> '\n' !in r.value
    decreases |s| - i
  {
    match NameAt(s, i)
    case Some(name) => Some(name)
    case None => if i < |s| then NameSearch(s, i + 1) else None
  }

  /** The search finds a name from `i` on whenever the mark occurs there. */
  lemma {:induction false} NameSearchFinds(s: string, i: nat, q: nat)
    requires i <= q <= |s| && OccursAt(s, PorMark, q)
    ensures NameSearch(s, i).Some?
    decreases q - i
  {
    if NameAt(s, i).None? {
      assert i != q;
      NameSearchFinds(s, i + 1, q);
    }
  }

  /** A name is found exactly when the text holds a newline followed by `Por`. */
  lemma NameFoundIff(s: string)
    ensures NameSearch(s, 0).Some? <==> Contains(s, PorMark)
  {
    if Contains(s, PorMark) {
      var q :| 0 <= q <= |s| - |PorMark| && OccursAt(s, PorMark, q);
      NameSearchFinds(s, 0, q);
    }
  }

  /** The name is the stripped line just before the mark when the mark
      closes the second line of the text. */
  lemma NameOfSecondLine(first: string, line: string, rest: string)
    requires '\n' !in first && '\n' !in line
    ensures NameSearch(first + "\n" + line + PorMark + rest, 0) == Some(line)
  {
    var s := first + "\n" + line + PorMark + rest;
    var e := |first|;
    var e2 := e + 1 + |line|;
    assert s[e] == '\n' && s[e2] == '\n';
    assert forall k | 0 <= k < e :: s[k] == first[k];
    assert forall k | e + 1 <= k < e2 :: s[k] == line[k - (e + 1)];
    LineEndAt(s, 0, e);
    LineEndAt(s, e + 1, e2);
    assert s[e2..e2 + |PorMark|] == PorMark;
    assert s[e + 1..e2] == line;
    assert NameAt(s, 0) == Some(line);
  }

  // --------------------------------------------------------------- rating

  /** The attempt of `(\d+\.\d+)\n\((\d+)\)` at `i`: every `\d+` is greedy
      and giving digits back cannot help, since a digit is never the `.`,
      newline or `)` that must follow. */
  function RatingAt(s: string, i: nat): (r: Option<(string, string)>)
    requires i <= |s|
    ensures r.Some? ==> |r.value.0| >= 3 && |r.value.1| >= 1 && AllDigits(r.value.1)
    ensures r.Some? ==> ',' !in r.value.0 && ',' !in r.value.1
  {
    var a := DigitRunEnd(s, i);
    if a > i && a < |s| && s[a] == '.' then
      var b := DigitRunEnd(s, a + 1);
      if b > a + 1 && OccursAt(s, "\n(", b) then
        var c := DigitRunEnd(s, b + 2);
        if c > b + 2 && c < |s| && s[c] == ')' then
          assert forall k | i <= k < b :: k == a || IsDigit(s[k]) by {
            forall k | i <= k < b
              ensures k == a || IsDigit(s[k])
            {
              if k < a { assert s[i..a][k - i] == s[k]; }
              if k > a { assert s[a + 1..b][k - a - 1] == s[k]; }
            }
          }
          assert forall k | 0 <= k < |s[i..b]| :: s[i..b][k] == s[i + k];
          Some((s[i..b], s[b + 2..c]))
        else None
      else None
    else None
  }

  /** `re.search` for the rating: the leftmost position where the pattern
      matches, and nothing exactly when it matches nowhere. */
  function RatingSearch(s: string): (r: Option<(string, string)>)
    ensures r.Some? ==> exists j | 0 <= j <= |s| ::
      RatingAt(s, j) == r && forall k | 0 <= k < j :: RatingAt(s, k).None?
    ensures r.None? <==> forall j | 0 <= j <= |s| :: RatingAt(s, j).None?
  {
    var attempts := seq(|s| + 1, j requires 0 <= j <= |s| => RatingAt(s, j));
    var r := Leftmost(attempts, 0);
    assert r.Some? ==> exists j | 0 <= j <= |s| ::
      RatingAt(s, j) == r && forall k | 0 <= k < j :: RatingAt(s, k).None?
    by {
      if r.Some? {
        var j :| 0 <= j < |attempts| && attempts[j] == r
          && forall k | 0 <= k < j :: attempts[k].None?;
        forall k | 0 <= k < j
          ensures RatingAt(s, k).None?
        {
          assert attempts[k].None?;
        }
        assert RatingAt(s, j) == r;
      }
    }
    assert r.None? ==> forall j | 0 <= j <= |s| :: RatingAt(s, j).None? by {
      if r.None? {
        forall j | 0 <= j <= |s|
          ensures RatingAt(s, j).None?
        {
          assert attempts[j].None?;
        }
      }
    }
    r
  }

  /** A found rating holds no comma. */
  lemma RatingHasNoComma(s: string)
    requires RatingSearch(s).Some?
    ensures ',' !in RatingSearch(s).value.0 && ',' !in RatingSearch(s).value.1
  {
    var j :| 0 <= j <= |s| && RatingAt(s, j) == RatingSearch(s);
  }

  // ---------------------------------------------------------------- price

  const PriceMark := "R$\n"

  /** Digits, a dot, digits. */
  predicate DecimalText(v: string) {
    exists a | 0 < a < |v| - 1 :: v[a] == '.' && AllDigits(v[..a]) && AllDigits(v[a + 1..])
  }

  /** The attempt of `R\$\n(\d+)\n,\n(\d+)` at `i`: reais and centavos
      joined with a dot. */
  function PriceAt(s: string, i: nat): Option<string>
    requires i <= |s|
  {
    if OccursAt(s, PriceMark, i) then
      var a := DigitRunEnd(s, i + 3);
      if a > i + 3 && OccursAt(s, "\n,\n", a) then
        var b := DigitRunEnd(s, a + 3);
        if b > a + 3 then
          Some(s[i + 3..a] + "." + s[a + 3..b])
        else None
      else None
    else None
  }

  /** A price read at `i` starts at an `R$` line, is reais, a dot and
      centavos, and so holds no comma. */
  lemma PriceAtShape(s: string, i: nat)
    requires i <= |s| && PriceAt(s, i).Some?
    ensures OccursAt(s, PriceMark, i)
    ensures DecimalText(PriceAt(s, i).value) && ',' !in PriceAt(s, i).value
  {
    var a := DigitRunEnd(s, i + 3);
    var b := DigitRunEnd(s, a + 3);
    var price := s[i + 3..a] + "." + s[a + 3..b];
    assert price[..a - i - 3] == s[i + 3..a];
    assert price[a - i - 2..] == s[a + 3..b];
    assert price[a - i - 3] == '.';
  }

  /** `re.search` for the price: the leftmost position where the pattern
      matches, and nothing exactly when it matches nowhere. */
  function PriceSearch(s: string): (r: Option<string>)
    ensures r.Some? ==> exists j | 0 <= j <= |s| ::
      PriceAt(s, j) == r && forall k | 0 <= k < j :: PriceAt(s, k).None?
    ensures r.None? <==> forall j | 0 <= j <= |s| :: PriceAt(s, j).None?
  {
    var attempts := seq(|s| + 1, j requires 0 <= j <= |s| => PriceAt(s, j));
    var r := Leftmost(attempts, 0);
    assert r.Some? ==> exists j | 0 <= j <= |s| ::
      PriceAt(s, j) == r && forall k | 0 <= k < j :: PriceAt(s, k).None?
    by {
      if r.Some? {
        var j :| 0 <= j < |attempts| && attempts[j] == r
          && forall k | 0 <= k < j :: attempts[k].None?;
        forall k | 0 <= k < j
          ensures PriceAt(s, k).None?
        {
          assert attempts[k].None?;
        }
        assert PriceAt(s, j) == r;
      }
    }
    assert r.None? ==> forall j | 0 <= j <= |s| :: PriceAt(s, j).None? by {
      if r.None? {
        forall j | 0 <= j <= |s|
          ensures PriceAt(s, j).None?
        {
          assert attempts[j].None?;
        }
      }
    }
    r
  }

  /** An `R$` line starts with `R$`. */
  lemma MarkPrefix(s: string, j: nat)
    requires OccursAt(s, PriceMark, j)
    ensures Contains(s, "R$")
  {
    assert s[j..j + 2] == s[j..j + 3][..2];
    assert OccursAt(s, "R$", j);
  }

  /** A price is found only in a text holding `R$`, and holds no comma. */
  lemma PriceNeedsMark(s: string)
    requires PriceSearch(s).Some?
    ensures Contains(s, "R$") && ',' !in PriceSearch(s).value
  {
    var j :| 0 <= j <= |s| && PriceAt(s, j) == PriceSearch(s);
    PriceAtShape(s, j);
    MarkPrefix(s, j);
  }

  /** A price written `R$`, reais, `,`, centavos on separate lines is read
      as `reais.centavos` when it is the first `R$` line of the text. */
  lemma PriceOfCard(head: string, reais: string, centavos: string, rest: string)
    requires !Contains(head, PriceMark)
    requires |reais| > 0 && AllDigits(reais) && |centavos| > 0 && AllDigits(centavos)
    requires |rest| > 0 ==> !IsDigit(rest[0])
    ensures PriceSearch(head + PriceMark + reais + "\n,\n" + centavos + rest) == Some(reais + "." + centavos)
  {
    var card := PriceMark + reais + "\n,\n" + centavos + rest;
    var s := head + card;
    assert s == head + PriceMark + reais + "\n,\n" + centavos + rest;
    var h := |head|;
    var a := h + 3 + |reais|;
    var b := a + 3 + |centavos|;
    CardSlices(head, reais, centavos, rest);
    PriceAtParts(s, h, reais, centavos);
    NoMarkBefore(head, card);
    FirstPrice(s, h);
  }

  /** Where the pieces of a card sit in `head + card`. */
  lemma CardSlices(head: string, reais: string, centavos: string, rest: string)
    ensures var card := PriceMark + reais + "\n,\n" + centavos + rest;
      var s := head + card;
      var h := |head|;
      var a := h + 3 + |reais|;
      var b := a + 3 + |centavos|;
      && s[h..h + 3] == PriceMark && s[h + 3..a] == reais
      && s[a..a + 3] == "\n,\n" && s[a + 3..b] == centavos
      && (b < |s| ==> s[b] == rest[0])
      && card[0] == 'R' && card[1] == '$'
  {
    var card := PriceMark + reais + "\n,\n" + centavos + rest;
    var s := head + card;
    var h := |head|;
    var a := h + 3 + |reais|;
    var b := a + 3 + |centavos|;
    assert s[h..] == card;
    assert s[h..h + 3] == PriceMark by { assert card[..3] == PriceMark; }
    assert s[h + 3..a] == reais by { assert card[3..3 + |reais|] == reais; }
    assert s[a..a + 3] == "\n,\n" by { assert card[3 + |reais|..6 + |reais|] == "\n,\n"; }
    assert s[a + 3..b] == centavos by { assert card[6 + |reais|..6 + |reais| + |centavos|] == centavos; }
  }

  /** An `R$` line at `h`, a run of digits `reais`, the `,` line and a run
      of digits `centavos` that ends at a non-digit read as `reais.centavos`. */
  lemma PriceAtParts(s: string, h: nat, reais: string, centavos: string)
    requires |reais| > 0 && AllDigits(reais) && |centavos| > 0 && AllDigits(centavos)
    requires h + 6 + |reais| + |centavos| <= |s|
    requires s[h..h + 3] == PriceMark
    requires s[h + 3..h + 3 + |reais|] == reais
    requires s[h + 3 + |reais|..h + 6 + |reais|] == "\n,\n"
    requires s[h + 6 + |reais|..h + 6 + |reais| + |centavos|] == centavos
    requires h + 6 + |reais| + |centavos| < |s| ==> !IsDigit(s[h + 6 + |reais| + |centavos|])
    ensures PriceAt(s, h) == Some(reais + "." + centavos)
  {
    var a := h + 3 + |reais|;
    var b := a + 3 + |centavos|;
    assert s[a] == s[a..a + 3][0];
    DigitRunUpTo(s, h + 3, a);
    DigitRunUpTo(s, a + 3, b);
  }

  /** The search returns the match at `h` when no position before it matches. */
  lemma FirstPrice(s: string, h: nat)
    requires h <= |s| && PriceAt(s, h).Some?
    requires forall k | 0 <= k < h :: PriceAt(s, k).None?
    ensures PriceSearch(s) == PriceAt(s, h)
  {
    var r := PriceSearch(s);
    assert r.Some?;
    var j :| 0 <= j <= |s| && PriceAt(s, j) == r
      && forall k | 0 <= k < j :: PriceAt(s, k).None?;
    assert j == h;
  }

  /** In `head + tail`, with `tail` starting with `R$`, no `R$` line starts
      inside `head` when `head` holds none. */
  lemma NoMarkBefore(head: string, tail: string)
    requires !Contains(head, PriceMark)
    requires |tail| >= 2 && tail[0] == 'R' && tail[1] == '$'
    ensures forall k | 0 <= k < |head| :: PriceAt(head + tail, k).None?
  {
    var s := head + tail;
    forall k | 0 <= k < |head|
      ensures !OccursAt(s, PriceMark, k)
    {
      if k + 3 <= |head| {
        assert s[k..k + 3] == head[k..k + 3];
        assert !OccursAt(head, PriceMark, k);
      } else if k + 1 == |head| {
        assert k + 3 <= |s| ==> s[k..k + 3][1] == tail[0];
      } else {
        assert k + 3 <= |s| ==> s[k..k + 3][2] == tail[0];
      }
    }
  }

  /** A run of digits that ends at a non-digit (or the end) is the greedy run. */
  lemma {:induction false} DigitRunUpTo(s: string, p: nat, e: nat)
    requires p <= e <= |s|
    requires AllDigits(s[p..e])
    requires e < |s| ==> !IsDigit(s[e])
    ensures DigitRunEnd(s, p) == e
    decreases e - p
  {
    if p < e {
      assert s[p] == s[p..e][0];
      assert s[p + 1..e] == s[p..e][1..];
      DigitRunUpTo(s, p + 1, e);
    }
  }

  // --------------------------------------------------------------- format

  /** A missing field prints as `None`. */
  function FieldText(field: Option<string>): (r: string)
    ensures field.None? ==> r == "None"
    ensures field.Some? ==> r == field.value
  {
    match field
    case None => "None"
    case Some(v) => v
  }

  datatype Card = Card(name: Option<string>, price: Option<string>, rate: Option<string>, ratings: Option<string>)

  /** The four fields `format_p` reads. */
  function Fields(p: string): (c: Card)
    ensures c.name.Some? <==> Contains(p, PorMark)
    ensures c.price.Some? ==> Contains(p, "R$")
    ensures c.name.Some? ==> Stripped(c.name.value) && '\n' !in c.name.value
    ensures c.price.Some? ==> ',' !in c.price.value
    ensures c.rate.Some? ==> ',' !in c.rate.value
    ensures c.ratings.Some? ==> ',' !in c.ratings.value
  {
    NameFoundIff(p);
    var name := NameSearch(p, 0);
    var rating := RatingSearch(p);
    var price := PriceSearch(p);
    assert price.Some? ==> Contains(p, "R$") && ',' !in price.value by {
      if price.Some? { PriceNeedsMark(p); }
    }
    assert rating.Some? ==> ',' !in rating.value.0 && ',' !in rating.value.1 by {
      if rating.Some? { RatingHasNoComma(p); }
    }
    Card(
      if name.Some? then (StripKeepsOut(name.value, '\n'); Some(Strip(name.value))) else None,
      price,
      if rating.Some? then Some(rating.value.0) else None,
      if rating.Some? then Some(rating.value.1) else None)
  }

  /** The output line for a card. */
  function Render(c: Card): string {
    Join(",", [FieldText(c.name), FieldText(c.price), FieldText(c.rate), FieldText(c.ratings)])
  }

  /** `format_p(p)`: nothing for a text without `R$` (the empty text
      included), otherwise the four fields joined with commas. */
  function FormatP(p: string): (r: Option<string>)
    ensures r.None? <==> !Contains(p, "R$")
  {
    if !Contains(p, "R$") then None else Some(Render(Fields(p)))
  }

  /** When the name holds no comma, splitting the output on commas gives
      the four fields back; the other three never hold one. */
  lemma FormatSplitsBack(p: string)
    requires Contains(p, "R$")
    requires Fields(p).name.Some? ==> ',' !in Fields(p).name.value
    ensures var c := Fields(p);
      Split(FormatP(p).value, ',') == [FieldText(c.name), FieldText(c.price), FieldText(c.rate), FieldText(c.ratings)]
  {
    var c := Fields(p);
    var parts := [FieldText(c.name), FieldText(c.price), FieldText(c.rate), FieldText(c.ratings)];
    assert FormatP(p).value == Join([','], parts);
    assert forall k | 0 <= k < |parts| :: ',' !in parts[k];
    SplitJoin(parts, ',');
  }
}

=== FILE: scraping_agent.dfy ===
/** `ScrappingAgent` (src/scrapping_agent/agent.py): a plan → act → tools →
    plan loop over a message list that ends through the response node once a
    plan mentions END_NAVIGATION. The three model calls and the tools are
    oracles; LangGraph's recursion limit is the fuel of the loop. */
module ScrapingAgent {
  import opened Wrappers
  import opened Strings
  import opened JsonValue
  import opened Messages

  datatype Node = Plan | Act | Tools | Response | End

  const Entry: Node := Plan

  /** `should_end`: the route out of the plan node. */
  function ShouldEnd(last: Message): (n: Node)
    ensures n == Response <==> Contains(last.content, "END_NAVIGATION")
    ensures n == Act <==> !Contains(last.content, "END_NAVIGATION")
  {
    if Contains(last.content, "END_NAVIGATION") then Response else Act
  }

  /** The edges of the graph, given the messages after the node has run. */
  function Successor(node: Node, messages: seq<Message>): Node
    requires |messages| > 0
  {
    match node
    case Plan => ShouldEnd(messages[|messages| - 1])
    case Act => Tools
    case Tools => Plan
    case Response => End
    case End => End
  }

  /** Only the response node leads to the end; act always leads to tools
      and tools always back to plan. */
  lemma SuccessorShape(node: Node, messages: seq<Message>)
    requires |messages| > 0 && node != End
    ensures Successor(node, messages) == End <==> node == Response
    ensures node == Act ==> Successor(node, messages) == Tools
    ensures node == Tools ==> Successor(node, messages) == Plan
    ensures node == Plan ==> Successor(node, messages) in {Act, Response}
  {
  }

  /** The three prompts' model calls, from the message list to a reply. */
  datatype Models = Models(
    plan: seq<Message> -> Result<Message>,
    act: seq<Message> -> Result<Message>,
    respond: seq<Message> -> Result<Message>)

  /** `tools_by_name` and the tools' own behaviour. */
  datatype Toolbox = Toolbox(names: set<string>, invoke: (string, Json) -> Result<string>)

  /** One tool message per call, in call order, each carrying its call's id;
      an unknown tool name raises. */
  function ToolReplies(calls: seq<ToolCall>, tools: Toolbox): (r: Result<seq<Message>>)
    ensures r.Ok? <==> forall i | 0 <= i < |calls| ::
      calls[i].name in tools.names && tools.invoke(calls[i].name, calls[i].args).Ok?
    ensures r.Ok? ==> |r.value| == |calls| && forall i | 0 <= i < |calls| ::
      r.value[i] == ToolReply(tools.invoke(calls[i].name, calls[i].args).value, calls[i].id)
  {
    if |calls| == 0 then Ok([])
    else
      var call := calls[0];
      assert forall i | 1 <= i < |calls| :: calls[i] == calls[1..][i - 1];
      if call.name !in tools.names then Err("KeyError: '" + call.name + "'")
      else
        var observation :- tools.invoke(call.name, call.args);
        var rest :- ToolReplies(calls[1..], tools);
        Ok([ToolReply(observation, call.id)] + rest)
  }

  /** `tools_node`: only a model turn has tool calls. */
  function ToolsNode(last: Message, tools: Toolbox): Result<seq<Message>> {
    if last.Ai? then ToolReplies(last.toolCalls, tools)
    else Err("AttributeError: message has no tool_calls")
  }

  /** The messages one node adds. */
  function RunNode(node: Node, messages: seq<Message>, models: Models, tools: Toolbox): Result<seq<Message>>
    requires |messages| > 0
  {
    match node
    case Plan => var m :- models.plan(messages); Ok([m])
    case Act => var m :- models.act(messages); Ok([m])
    case Tools => ToolsNode(messages[|messages| - 1], tools)
    case Response => var m :- models.respond(messages); Ok([m])
    case End => Ok([])
  }

  function RecursionError(limit: nat): string {
    "Recursion limit of " + NatToString(limit) + " reached without hitting a stop condition"
  }

  /** Runs the graph from `node` with `fuel` node executions left. */
  function Execute(node: Node, messages: seq<Message>, fuel: nat, limit: nat, models: Models, tools: Toolbox): (r: Result<seq<Message>>)
    requires |messages| > 0
    ensures r.Ok? ==> messages <= r.value
    decreases fuel
  {
    if node == End then Ok(messages)
    else if fuel == 0 then Err(RecursionError(limit))
    else
      var added :- RunNode(node, messages, models, tools);
      var next := AddMessages(messages, added);
      var rest :- Execute(Successor(node, next), next, fuel - 1, limit, models, tools);
      Ok(rest)
  }

  /** A finished run from any live node has passed through the response
      node last: the final message is the response model's reply to all the
      messages before it, and the message before that is a plan that
      mentioned END_NAVIGATION. */
  lemma {:induction false} FinishesThroughResponse(node: Node, messages: seq<Message>, fuel: nat, limit: nat, models: Models, tools: Toolbox)
    requires |messages| > 0 && node != End
    requires Execute(node, messages, fuel, limit, models, tools).Ok?
    ensures var out := Execute(node, messages, fuel, limit, models, tools).value;
      && |out| > |messages|
      && models.respond(out[..|out| - 1]) == Ok(out[|out| - 1])
      && (node != Response ==> Contains(out[|out| - 2].content, "END_NAVIGATION"))
    decreases fuel
  {
    var added := RunNode(node, messages, models, tools).value;
    var next := AddMessages(messages, added);
    var succ := Successor(node, next);
    if node == Response {
      assert next[..|next| - 1] == messages;
    } else {
      if succ == End {
        SuccessorShape(node, next);
        assert false;
      }
      FinishesThroughResponse(succ, next, fuel - 1, limit, models, tools);
      if succ == Response {
        assert node == Plan;
        var out := Execute(succ, next, fuel - 1, limit, models, tools).value;
        assert out == next + [models.respond(next).value];
        assert out[|out| - 2] == next[|next| - 1];
      }
    }
  }

  /** More fuel never changes a finished run. */
  lemma {:induction false} FuelMonotone(node: Node, messages: seq<Message>, fuel: nat, more: nat, limit: nat, models: Models, tools: Toolbox)
    requires |messages| > 0 && fuel <= more
    requires Execute(node, messages, fuel, limit, models, tools).Ok?
    ensures Execute(node, messages, more, limit, models, tools) == Execute(node, messages, fuel, limit, models, tools)
    decreases fuel
  {
    if node != End {
      var added := RunNode(node, messages, models, tools).value;
      var next := AddMessages(messages, added);
      FuelMonotone(Successor(node, next), next, fuel - 1, more - 1, limit, models, tools);
    }
  }

  /** The parts of the agent `run` reads: the url `initialize` sets. */
  datatype Agent = Agent(url: Option<string>)

  function BoolText(b: bool): string {
    if b then "True" else "False"
  }

  /** The human message that seeds a run. */
  function Seed(url: string, query: string, allResults: bool): string {
    "Site: " + url + "\nQuery: " + query + "\nAll: " + BoolText(allResults)
  }

  /** `run(query, all_results, recursion_limit)`: the content of the final
      message. Without `initialize` the url was never set and reading it
      raises. A finished run starts from the seed message alone and answers
      with the response model's reply to the whole conversation before it,
      which a plan mentioning END_NAVIGATION closed. */
  function Run(agent: Agent, query: string, allResults: bool, recursionLimit: nat, models: Models, tools: Toolbox): (r: Result<string>)
    ensures agent.url.None? ==> r.Err?
    ensures r.Ok? ==> agent.url.Some? && exists out: seq<Message> ::
      && |out| >= 2
      && out[0] == Human(Seed(agent.url.value, query, allResults))
      && models.respond(out[..|out| - 1]) == Ok(out[|out| - 1])
      && Contains(out[|out| - 2].content, "END_NAVIGATION")
      && r.value == out[|out| - 1].content
  {
    match agent.url
    case None => Err("AttributeError: 'ScrappingAgent' object has no attribute 'url'")
    case Some(url) =>
      var seed := [Human(Seed(url, query, allResults))];
      var out :- Execute(Entry, seed, recursionLimit, recursionLimit, models, tools);
      FinishesThroughResponse(Entry, seed, recursionLimit, recursionLimit, models, tools);
      assert out[0] == seed[0] && |out| >= 2;
      assert models.respond(out[..|out| - 1]) == Ok(out[|out| - 1]);
      assert Contains(out[|out| - 2].content, "END_NAVIGATION");
      Ok(out[|out| - 1].content)
  }

  /** A plan that never mentions END_NAVIGATION keeps the loop going until
      the fuel runs out: the run cannot finish. */
  lemma {:induction false} NoEndWithoutMarker(node: Node, messages: seq<Message>, fuel: nat, limit: nat, models: Models, tools: Toolbox)
    requires |messages| > 0 && node in {Plan, Act, Tools}
    requires forall ms: seq<Message> | models.plan(ms).Ok? :: !Contains(models.plan(ms).value.content, "END_NAVIGATION")
    ensures Execute(node, messages, fuel, limit, models, tools).Err?
    decreases fuel
  {
    if fuel > 0 && RunNode(node, messages, models, tools).Ok? {
      var added := RunNode(node, messages, models, tools).value;
      var next := AddMessages(messages, added);
      if node == Plan {
        assert next[|next| - 1] == models.plan(messages).value;
      }
      NoEndWithoutMarker(Successor(node, next), next, fuel - 1, limit, models, tools);
    }
  }
}

=== FILE: scrapper.dfy ===
/** `Scrapper` (src/scrapping_agent/scrapper.py): runs one tool call written
    by the navigating agent against the open page and answers with text. Every
    exception is turned into an error reply; the command table maps four
    names, anything else answers "Command not found". */
module Scrapper {
  import opened Wrappers
  import opened Strings
  import opened Pages
  import opened Commands

  function Min(a: int, b: int): int { if a <= b then a else b }
  function Max(a: int, b: int): int { if a >= b then a else b }

  /** The text shown for an element: stripped, each whitespace run one space. */
  function CleanText(t: string): (r: string)
    ensures Stripped(r)
    ensures SpacesCollapsed(r)
    ensures NonSpace(r) == NonSpace(t)
  {
    CollapseKeepsStripped(Strip(t));
    CollapseKeepsText(Strip(t));
    CollapseShape(Strip(t));
    CollapseSpaces(Strip(t))
  }

  /** With truncation on, a text over 50 characters keeps its first 50 and
      gains "..."; otherwise it is shown whole. */
  function ShownText(text: string, trunc: bool): (r: string)
    ensures |r| <= |text| + 3
    ensures trunc ==> |r| <= 53
    ensures !trunc || |text| <= 50 ==> r == text
    ensures trunc && |text| > 50 ==> r == text[..50] + "..." && |r| == 53
  {
    if !trunc then text
    else if |text| > 50 then text[..50] + "..."
    else text
  }

  /** One entry of the listing:
      `Element: tag [Classes: c] [Text: t] [Href: h] [Name: n Placeholder: p]`.
      Classes and text appear only when not empty, the link target only for
      `a`, and name and placeholder only for `input`. */
  function Describe(el: Element, trunc: bool): (r: string)
    ensures var head := "Element: " + Lower(el.tagName);
      var classes := Strip(el.className);
      var text := CleanText(el.textContent);
      && head <= r
      && (|classes| > 0 ==> head + (" Classes: " + classes) <= r)
      && (|text| > 0 ==>
            head + (if |classes| > 0 then " Classes: " + classes else "") + (" Text: " + ShownText(text, trunc)) <= r)
      && (Lower(el.tagName) == "a" ==> EndsWith(r, " Href: " + AttributeText(el, "href")))
      && (Lower(el.tagName) == "input" ==>
            EndsWith(r, " Name: " + AttributeText(el, "name") + " Placeholder: " + PlaceholderText(el)))
      && (|classes| == 0 && |text| == 0 && Lower(el.tagName) !in {"a", "input"} ==> r == head)
    ensures Lower(el.tagName) !in {"a", "input"} ==> r == Lead(el, trunc)
    ensures Lower(el.tagName) == "a" ==> r == Lead(el, trunc) + (" Href: " + AttributeText(el, "href"))
    ensures Lower(el.tagName) == "input" ==>
      r == Lead(el, trunc) + (" Name: " + AttributeText(el, "name") + " Placeholder: " + PlaceholderText(el))
  {
    var head := "Element: " + Lower(el.tagName);
    var classes := Strip(el.className);
    var text := CleanText(el.textContent);
    var c := if |classes| > 0 then " Classes: " + classes else "";
    var t := if |text| > 0 then " Text: " + ShownText(text, trunc) else "";
    var tail := if Lower(el.tagName) == "a" then " Href: " + AttributeText(el, "href")
      else if Lower(el.tagName) == "input" then
        " Name: " + AttributeText(el, "name") + " Placeholder: " + PlaceholderText(el)
      else "";
    EntryPieces(head, c, t, tail);
    head + c + t + tail
  }

  /** Where the pieces of an entry sit in their concatenation. */
  lemma EntryPieces(head: string, c: string, t: string, tail: string)
    ensures var r := head + c + t + tail;
      && head <= r && head + c <= r && head + c + t <= r
      && EndsWith(r, tail)
      && (tail == "" ==> r == head + c + t)
      && (c == t == tail == "" ==> r == head)
  {
    var r := head + c + t + tail;
    assert r[..|head|] == head;
    assert r[..|head + c|] == head + c;
    assert r[..|head + c + t|] == head + c + t;
    assert r[|r| - |tail|..] == tail;
  }

  /** The part of an entry every tag shares: the tag, then the classes and
      the shown text when they are not empty. */
  function Lead(el: Element, trunc: bool): string {
    var classes := Strip(el.className);
    var text := CleanText(el.textContent);
    "Element: " + Lower(el.tagName)
      + (if |classes| > 0 then " Classes: " + classes else "")
      + (if |text| > 0 then " Text: " + ShownText(text, trunc) else "")
  }

  /** An attribute as an f-string prints it: a missing one is `None`. */
  function AttributeText(el: Element, name: string): string {
    if name in el.attributes then el.attributes[name] else "None"
  }

  /** `get_attribute("placeholder") or "no placeholder"`: an empty one counts as missing. */
  function PlaceholderText(el: Element): (r: string)
    ensures |r| > 0
    ensures r == "no placeholder" <==> "placeholder" !in el.attributes || el.attributes["placeholder"] in {"", "no placeholder"}
  {
    if "placeholder" in el.attributes && el.attributes["placeholder"] != "" then el.attributes["placeholder"]
    else "no placeholder"
  }

  /** How many elements the listing shows: the loop appends before it tests
      the limit, so at least one is shown whenever one matched. */
  function Shown(count: nat, limit: int): (n: nat)
    ensures n <= count && n <= Max(limit, 1)
    ensures count > 0 ==> n >= 1
    ensures count > 0 && limit < 1 ==> n == 1
    ensures limit >= 1 ==> n == Min(count, limit)
  {
    Min(count, Max(limit, 1))
  }

  /** The lines of the listing. */
  function Entries(els: seq<Element>, trunc: bool, limit: int): (r: seq<string>)
    ensures |r| >= 1
  {
    if |els| == 0 then ["No elements found"]
    else Described(els, trunc, Shown(|els|, limit))
  }

  /** The first `n` elements, described. */
  function Described(els: seq<Element>, trunc: bool, n: nat): (r: seq<string>)
    requires n <= |els|
    ensures |r| == n
  {
    MapPrefix(Describer(trunc), els, n)
  }

  function Describer(trunc: bool): Element -> string {
    el => Describe(el, trunc)
  }

  /** `f` applied to the first `n` items, in order. */
  function MapPrefix<T, U>(f: T -> U, s: seq<T>, n: nat): (r: seq<U>)
    requires n <= |s|
    ensures |r| == n
  {
    if n == 0 then [] else MapPrefix(f, s, n - 1) + [f(s[n - 1])]
  }

  lemma {:induction false} MapPrefixAt<T, U>(f: T -> U, s: seq<T>, n: nat, k: nat)
    requires n <= |s| && k < n
    ensures MapPrefix(f, s, n)[k] == f(s[k])
  {
    if k < n - 1 {
      MapPrefixAt(f, s, n - 1, k);
    }
  }

  /** Entry `k` of the listing describes element `k`, in matching order. */
  lemma DescribedAt(els: seq<Element>, trunc: bool, n: nat, k: nat)
    requires n <= |els| && k < n
    ensures Described(els, trunc, n)[k] == Describe(els[k], trunc)
  {
    MapPrefixAt(Describer(trunc), els, n, k);
  }

  const ListingHead := "Extracted elements:\n"

  function Listing(els: seq<Element>, trunc: bool, limit: int): (r: string)
    ensures ListingHead <= r
  {
    var entries := Join("\n- ", Entries(els, trunc, limit));
    assert (ListingHead + entries)[..|ListingHead|] == ListingHead;
    ListingHead + entries
  }

  /** Where the loop stops: after the last element, or as soon as it has
      described `limit` of them (never before the first). */
  lemma LoopStop(count: nat, limit: int, i: nat)
    requires 0 < i <= count
    requires i == count || i >= limit
    requires i - 1 < limit || i == 1
    ensures i == Shown(count, limit)
  {
  }

  /** `_extract_elements`, as the loop the source runs. */
  method ExtractElements(els: seq<Element>, trunc: bool, limit: int) returns (out: string)
    ensures out == Listing(els, trunc, limit)
  {
    var describe := Describer(trunc);
    var entries: seq<string> := [];
    var i := 0;
    while i < |els|
      invariant 0 <= i <= |els|
      invariant entries == Described(els, trunc, i)
      invariant i == 0 || i < limit
    {
      entries := entries + [describe(els[i])];
      DescribedSnoc(els, trunc, i);
      i := i + 1;
      if |entries| >= limit {
        LoopStop(|els|, limit, i);
        break;
      }
    }
    if i == |els| && 0 < i < limit {
      LoopStop(|els|, limit, i);
    }
    LoopEntries(els, trunc, limit, i);
    if i == 0 {
      entries := entries + ["No elements found"];
    }
    out := ListingHead + Join("\n- ", entries);
  }

  /** Describing one more element appends its entry. */
  lemma DescribedSnoc(els: seq<Element>, trunc: bool, i: nat)
    requires i < |els|
    ensures Described(els, trunc, i + 1) == Described(els, trunc, i) + [Describer(trunc)(els[i])]
  {
  }

  /** The entries once the loop has stopped: the placeholder line when
      nothing matched, otherwise the ones described so far. */
  lemma LoopEntries(els: seq<Element>, trunc: bool, limit: int, i: nat)
    requires i <= |els|
    requires i == 0 ==> |els| == 0
    requires i > 0 ==> i == Shown(|els|, limit)
    ensures Entries(els, trunc, limit)
      == if i == 0 then Described(els, trunc, i) + ["No elements found"] else Described(els, trunc, i)
  {
  }

  /** The reply to a call and the page it leaves behind. */
  datatype Reply = Reply(text: string, page: Page)

  function ErrorText(command: string, msg: string): string {
    "Error running command '" + command + "'. Erro: " + msg
  }

  const IndexError := "list index out of range"

  /** `_handle_extract_elements`: selector, truncation flag (off only for
      the exact text `False`), and a limit read only when three arguments
      are given (default 10). */
  function ExtractHandler(args: seq<string>, page: Page): (r: Result<string>)
    ensures |args| < 2 ==> r == Err(IndexError)
    ensures |args| == 2 ==> r == Ok(Listing(QueryAll(page.elements, args[0]), args[1] != "False", 10))
    ensures |args| > 3 ==> r == Ok(Listing(QueryAll(page.elements, args[0]), args[1] != "False", 10))
    ensures |args| == 3 ==> (r.Ok? <==> ParseInt(args[2]).Ok?)
    ensures |args| == 3 && r.Ok? ==>
      r.value == Listing(QueryAll(page.elements, args[0]), args[1] != "False", ParseInt(args[2]).value)
    ensures |args| == 3 && r.Err? ==> r.msg == ParseInt(args[2]).msg
  {
    if |args| < 2 then Err(IndexError)
    else
      var trunc := args[1] != "False";
      var limit :- if |args| == 3 then ParseInt(args[2]) else Ok(10);
      Ok(Listing(QueryAll(page.elements, args[0]), trunc, limit))
  }

  /** The text typed by a `fill`: the third argument when exactly three are
      given, the empty text otherwise. */
  function FillText(args: seq<string>): string {
    if |args| == 3 then args[2] else ""
  }

  /** `_handle_interact_with_element`: a missing element is reported, a
      click or a fill acts on the first match and says so, and any other
      interaction is unsupported. A browser failure propagates. */
  function InteractHandler(args: seq<string>, page: Page, driver: Driver): (r: Result<Reply>)
    ensures |args| < 2 ==> r == Err(IndexError)
    ensures |args| >= 2 && QueryFirst(page.elements, args[0]).None? ==>
      r == Ok(Reply("Element with selector '" + args[0] + "' not found.", page))
    ensures |args| >= 2 && QueryFirst(page.elements, args[0]).Some? ==>
      var el := QueryFirst(page.elements, args[0]).value;
      var clicked := driver.clickElement(page, el);
      var typed := driver.typeInto(page, el, FillText(args));
      && (args[1] == "click" ==>
            (r.Ok? <==> clicked.Ok?)
            && (r.Ok? ==> r.value == Reply("Element '" + args[0] + "' clicked.", clicked.value))
            && (r.Err? ==> r.msg == clicked.msg))
      && (args[1] == "fill" ==>
            (r.Ok? <==> typed.Ok?)
            && (r.Ok? ==> r.value == Reply("Text '" + FillText(args) + "' typed in element '" + args[0] + "'.", typed.value))
            && (r.Err? ==> r.msg == typed.msg))
      && (args[1] !in {"click", "fill"} ==> r == Ok(Reply("Unsupported interaction.", page)))
  {
    if |args| < 2 then Err(IndexError)
    else
      var selector := args[0];
      var text := FillText(args);
      match QueryFirst(page.elements, selector)
      case None => Ok(Reply("Element with selector '" + selector + "' not found.", page))
      case Some(el) =>
        if args[1] == "click" then
          var next :- driver.clickElement(page, el);
          Ok(Reply("Element '" + selector + "' clicked.", next))
        else if args[1] == "fill" then
          var next :- driver.typeInto(page, el, text);
          Ok(Reply("Text '" + text + "' typed in element '" + selector + "'.", next))
        else Ok(Reply("Unsupported interaction.", page))
  }

  /** The screenshot path for a clock reading, already rounded to seconds. */
  function ScreenshotPath(seconds: int): string {
    "./temp/print_" + IntToString(seconds) + ".png"
  }

  datatype Verb = ExtractElementsVerb | InteractVerb | PrintVerb | EndVerb

  /** The command table. */
  function VerbOf(name: string): (r: Option<Verb>)
    ensures r.None? <==> name !in {"extract_elements", "interact_with_element", "print", "end"}
    ensures r == Some(EndVerb) <==> name == "end"
  {
    if name == "extract_elements" then Some(ExtractElementsVerb)
    else if name == "interact_with_element" then Some(InteractVerb)
    else if name == "print" then Some(PrintVerb)
    else if name == "end" then Some(EndVerb)
    else None
  }

  /** The handler the command table picks, applied to the arguments. */
  function Dispatch(name: string, args: seq<string>, page: Page, driver: Driver, seconds: int): (r: Result<Reply>)
    ensures VerbOf(name).None? ==> r == Ok(Reply("Command not found", page))
    ensures VerbOf(name) == Some(EndVerb) ==> r == Ok(Reply("END", page))
    ensures VerbOf(name) == Some(ExtractElementsVerb) ==>
      (r.Ok? <==> ExtractHandler(args, page).Ok?)
      && (r.Ok? ==> r.value == Reply(ExtractHandler(args, page).value, page))
    ensures VerbOf(name) == Some(InteractVerb) ==> r == InteractHandler(args, page, driver)
    ensures VerbOf(name) == Some(PrintVerb) ==>
      var shot := driver.screenshot(page, ScreenshotPath(seconds));
      && (r.Ok? <==> shot.Ok?)
      && (r.Ok? ==> r.value == Reply("PRINT: " + ScreenshotPath(seconds), shot.value))
      && (r.Err? ==> r.msg == shot.msg)
  {
    match VerbOf(name)
    case Some(ExtractElementsVerb) =>
      var text :- ExtractHandler(args, page);
      Ok(Reply(text, page))
    case Some(InteractVerb) => InteractHandler(args, page, driver)
    case Some(PrintVerb) =>
      var path := ScreenshotPath(seconds);
      var next :- driver.screenshot(page, path);
      Ok(Reply("PRINT: " + path, next))
    case Some(EndVerb) => Ok(Reply("END", page))
    case None => Ok(Reply("Command not found", page))
  }

  /** What every error reply to `command` starts with. */
  function ErrorPrefix(command: string): string {
    ErrorText(command, "")
  }

  lemma ErrorTextStarts(command: string, msg: string)
    ensures ErrorPrefix(command) <= ErrorText(command, msg)
  {
    assert ErrorText(command, msg)[..|ErrorPrefix(command)|] == ErrorPrefix(command);
  }

  /** The command parsed and its handler returned normally. */
  predicate Handled(command: string, page: Page, driver: Driver, seconds: int) {
    ParseCommand(command).Ok?
    && Dispatch(ParseCommand(command).value.0, ParseCommand(command).value.1, page, driver, seconds).Ok?
  }

  /** `run(command)`; `seconds` stands for `round(time())`. No exception
      escapes: the reply is an error naming the command exactly when the
      parse or the handler failed, an error leaves the page as it was, a
      handled command answers with its handler's reply, and only a
      successful interaction or screenshot can change the page. */
  function Execute(command: string, page: Page, driver: Driver, seconds: int): (r: Reply)
    ensures ErrorPrefix(command) <= r.text <==> !Handled(command, page, driver, seconds)
    ensures !Handled(command, page, driver, seconds) ==> r.page == page
    ensures ParseCommand(command).Err? ==> r.text == ErrorText(command, "No function match")
    ensures ParseCommand(command).Ok? && !Handled(command, page, driver, seconds) ==>
      r.text == ErrorText(command, Dispatch(ParseCommand(command).value.0, ParseCommand(command).value.1, page, driver, seconds).msg)
    ensures Handled(command, page, driver, seconds) ==>
      r == Dispatch(ParseCommand(command).value.0, ParseCommand(command).value.1, page, driver, seconds).value
    ensures r.page != page ==>
      ParseCommand(command).Ok? && VerbOf(ParseCommand(command).value.0) in {Some(InteractVerb), Some(PrintVerb)}
  {
    match ParseCommand(command)
    case Err(e) =>
      ErrorTextStarts(command, e);
      Reply(ErrorText(command, e), page)
    case Ok((name, args)) =>
      match Dispatch(name, args, page, driver, seconds)
      case Ok(reply) =>
        HandledReplyNotError(command, name, args, page, driver, seconds);
        reply
      case Err(e) =>
        ErrorTextStarts(command, e);
        Reply(ErrorText(command, e), page)
  }

  /** No handler's normal reply starts like an error reply. */
  lemma HandledReplyNotError(command: string, name: string, args: seq<string>, page: Page, driver: Driver, seconds: int)
    requires Dispatch(name, args, page, driver, seconds).Ok?
    ensures !(ErrorPrefix(command) <= Dispatch(name, args, page, driver, seconds).value.text)
  {
    var text := Dispatch(name, args, page, driver, seconds).value.text;
    var p := ErrorPrefix(command);
    assert p[0] == 'E' && p[1] == 'r';
    match VerbOf(name)
    case Some(ExtractElementsVerb) =>
      var els := QueryAll(page.elements, args[0]);
      var lim := if |args| == 3 then ParseInt(args[2]).value else 10;
      assert text == Listing(els, args[1] != "False", lim);
      ListingStart(text);
    case Some(InteractVerb) =>
      InteractReplyNotError(args, page, driver);
    case Some(PrintVerb) =>
      assert text[0] == 'P';
    case Some(EndVerb) =>
      assert text[1] == 'N';
    case None =>
      assert text[0] == 'C';
  }

  /** A listing starts with `Ex`. */
  lemma ListingStart(text: string)
    requires ListingHead <= text
    ensures |text| >= 2 && text[1] == 'x'
  {
    assert text[1] == text[..|ListingHead|][1];
  }

  /** Every normal reply of an interaction starts with `El`, `Te` or `Un`. */
  lemma InteractReplyNotError(args: seq<string>, page: Page, driver: Driver)
    requires InteractHandler(args, page, driver).Ok?
    ensures var text := InteractHandler(args, page, driver).value.text;
      |text| >= 2 && !(text[0] == 'E' && text[1] == 'r')
  {
    var text := InteractHandler(args, page, driver).value.text;
    if QueryFirst(page.elements, args[0]).None? {
      assert text[1] == 'l';
    } else if args[1] == "click" {
      assert text[1] == 'l';
    } else if args[1] == "fill" {
      assert text[0] == 'T';
    } else {
      assert text[0] == 'U';
    }
  }

  /** A call in the agent's format reaches its handler with its arguments. */
  lemma ExecuteFormatted(name: string, args: seq<string>, page: Page, driver: Driver, seconds: int)
    requires |name| > 0 && forall k | 0 <= k < |name| :: IsNameChar(name[k])
    requires forall k | 0 <= k < |args| :: Plain(args[k])
    ensures var r := Dispatch(name, args, page, driver, seconds);
      Execute(FormatCall(name, args), page, driver, seconds)
      == (if r.Ok? then r.value else Reply(ErrorText(FormatCall(name, args), r.msg), page))
  {
    FormatCallRoundTrip(name, args);
  }

  /** `end()` always answers END and leaves the page alone. */
  lemma EndCall(page: Page, driver: Driver, seconds: int)
    ensures Execute(FormatCall("end", []), page, driver, seconds) == Reply("END", page)
  {
    var name := "end";
    assert |name| > 0 && forall k | 0 <= k < |name| :: IsNameChar(name[k]);
    ExecuteFormatted(name, [], page, driver, seconds);
  }

  /** An extraction call with two arguments lists the matches with the
      default limit of ten. */
  lemma ExtractCallDefaults(selector: string, flag: string, page: Page, driver: Driver, seconds: int)
    requires Plain(selector) && Plain(flag)
    ensures Execute(FormatCall("extract_elements", [selector, flag]), page, driver, seconds)
      == Reply(Listing(QueryAll(page.elements, selector), flag != "False", 10), page)
  {
    var name := "extract_elements";
    var args := [selector, flag];
    ExtractNameIsName();
    ExecuteFormatted(name, args, page, driver, seconds);
    ExtractDispatch(args, page, driver, seconds);
  }

  /** The extraction verb hands two arguments to its handler with the
      default limit. */
  lemma ExtractDispatch(args: seq<string>, page: Page, driver: Driver, seconds: int)
    requires |args| == 2
    ensures Dispatch("extract_elements", args, page, driver, seconds)
      == Ok(Reply(Listing(QueryAll(page.elements, args[0]), args[1] != "False", 10), page))
  {
    assert VerbOf("extract_elements") == Some(ExtractElementsVerb);
  }

  lemma ExtractNameIsName()
    ensures var name := "extract_elements"; |name| > 0 && forall k | 0 <= k < |name| :: IsNameChar(name[k])
  {
  }
}



=== FILE: script_runner.dfy ===
/** `ScrapScriptRunner` (src/scrapping_agent/scrap.py): replays a declarative
    JSON script of `fill`/`click`/`extract`/`extract_all` steps against one
    page, after checking the declared inputs and substituting `{{name}}`
    placeholders; plus the command-line argument parser. */
module ScriptRunner {
  import opened Wrappers
  import opened Strings
  import opened Dicts
  import opened JsonValue
  import opened Pages

  // ------------------------------------------------------------ validation

  function FieldNames(fields: seq<(string, Json)>): seq<string> {
    seq(|fields|, i requires 0 <= i < |fields| => fields[i].0)
  }

  /** Declared input names that have no supplied value, in declaration order. */
  function MissingNames(declared: seq<(string, Json)>, values: Dict): (r: seq<string>)
    ensures forall k | 0 <= k < |r| :: r[k] in FieldNames(declared) && !HasKey(values, r[k])
    ensures forall i | 0 <= i < |declared| && !HasKey(values, declared[i].0) :: declared[i].0 in r
    ensures |r| <= |declared|
  {
    if |declared| == 0 then []
    else
      var rest := MissingNames(declared[1..], values);
      assert FieldNames(declared) == [declared[0].0] + FieldNames(declared[1..]);
      assert forall i | 1 <= i < |declared| :: declared[i] == declared[1..][i - 1];
      if HasKey(values, declared[0].0) then rest else [declared[0].0] + rest
  }

  /** Why a run raised instead of returning its text. */
  datatype Failure =
    | MissingInputs(missing: seq<string>) // validate_inputs raised ValueError
    | NotAScript                          // the script, or its "input", is not a JSON object
    | NoSite                              // "site" is absent or not a string, or the page did not open
    | NoSteps                             // "steps" is absent or cannot be iterated
    | UnknownAction(index: nat)           // the action lookup, outside the try, raised

  /** Every name declared under "input" has a supplied value (or nothing is declared). */
  ghost predicate InputsSupplied(script: Json, values: Dict) {
    && script.JObj?
    && match Get(script.fields, "input")
       case None => true
       case Some(decl) => decl.JObj? && forall i | 0 <= i < |decl.fields| :: HasKey(values, decl.fields[i].0)
  }

  /** `validate_inputs`: None when the run may go on. */
  function ValidateInputs(script: Json, values: Dict): (r: Option<Failure>)
    ensures r.None? <==> InputsSupplied(script, values)
    ensures r.Some? && r.value.MissingInputs? ==>
      && |r.value.missing| > 0
      && forall k | 0 <= k < |r.value.missing| :: !HasKey(values, r.value.missing[k])
  {
    match script
    case JObj(fields) =>
      (match Get(fields, "input")
       case None => None
       case Some(JObj(decl)) =>
         var missing := MissingNames(decl, values);
         if |missing| == 0 then None
         else
           assert missing[0] in FieldNames(decl);
           var i :| 0 <= i < |decl| && FieldNames(decl)[i] == missing[0];
           assert !HasKey(values, decl[i].0);
           Some(MissingInputs(missing))
       case Some(_) => Some(NotAScript))
    case _ => Some(NotAScript)
  }

  // ---------------------------------------------------------- substitution

  function Placeholder(name: string): string {
    "{{" + name + "}}"
  }

  /** The string-leaf rewrite of `replace_placeholders`: `str.replace` of
      each supplied name's placeholder, in the dictionary's order. */
  function SubstituteString(s: string, values: Dict): (r: string)
    ensures !Contains(s, "{{") ==> r == s
    decreases |values|
  {
    if |values| == 0 then s
    else
      var pat := Placeholder(values[0].0);
      PlaceholderNeedsMark(s, values[0].0);
      SubstituteString(ReplaceAll(s, pat, values[0].1), values[1..])
  }

  lemma PlaceholderNeedsMark(s: string, name: string)
    ensures Contains(s, Placeholder(name)) ==> Contains(s, "{{")
  {
    if Contains(s, Placeholder(name)) {
      assert Placeholder(name) == "{{" + (name + "}}");
      ContainsPrefix(s, "{{", name + "}}");
    }
  }

  /** One pass is not a fixed point: removing a placeholder can join the
      text around it into another placeholder, which stays. */
  lemma SubstitutionCanLeavePlaceholder()
    ensures var r := SubstituteString("{{{{q}}q}}", [("q", "")]);
      r == Placeholder("q") && Contains(r, Placeholder("q"))
  {
    var pat := Placeholder("q");
    assert pat == "{{q}}";
    RemovalJoinsPlaceholder(pat);
    assert OccursAt(pat, pat, 0);
  }

  /** Deleting `{{q}}` from `{{{{q}}q}}` leaves `{{q}}`. */
  lemma RemovalJoinsPlaceholder(pat: string)
    requires pat == "{{q}}"
    ensures ReplaceAll("{{{{q}}q}}", pat, "") == pat
  {
    var s := "{{{{q}}q}}";
    var tail := s[2..];
    assert tail[..5] == pat;
    assert tail[5..] == "q}}";
    assert ReplaceAll(tail, pat, "") == "q}}";
    assert s[1..][..5] != pat by {
      assert s[1..][..5][2] != pat[2];
    }
    assert s[1..][1..] == tail;
    assert ReplaceAll(s[1..], pat, "") == "{q}}";
    assert s[..5] != pat by {
      assert s[..5][2] != pat[2];
    }
    assert ReplaceAll(s, pat, "") == "{" + "{q}}";
  }

  /** Same keys in the same order, same list lengths, same non-string leaves. */
  predicate SameShape(a: Json, b: Json)
    decreases a
  {
    match a
    case JStr(_) => b.JStr?
    case JArr(xs) =>
      b.JArr? && |xs| == |b.items| && forall i | 0 <= i < |xs| :: SameShape(xs[i], b.items[i])
    case JObj(fs) =>
      && b.JObj? && |fs| == |b.fields|
      && forall i | 0 <= i < |fs| :: fs[i].0 == b.fields[i].0 && SameShape(fs[i].1, b.fields[i].1)
    case _ => b == a
  }

  /** No string leaf holds `{{`. */
  predicate NoMarks(j: Json)
    decreases j
  {
    match j
    case JStr(s) => !Contains(s, "{{")
    case JArr(xs) => forall i | 0 <= i < |xs| :: NoMarks(xs[i])
    case JObj(fs) => forall i | 0 <= i < |fs| :: NoMarks(fs[i].1)
    case _ => true
  }

  /** `replace_placeholders`: rewrites every string leaf, nothing else. */
  function Substitute(j: Json, values: Dict): (r: Json)
    ensures SameShape(j, r)
    ensures NoMarks(j) ==> r == j
    decreases j
  {
    match j
    case JStr(s) => JStr(SubstituteString(s, values))
    case JArr(xs) =>
      var ys := seq(|xs|, i requires 0 <= i < |xs| => Substitute(xs[i], values));
      assert NoMarks(j) ==> ys == xs;
      JArr(ys)
    case JObj(fs) =>
      var gs := seq(|fs|, i requires 0 <= i < |fs| => (fs[i].0, Substitute(fs[i].1, values)));
      assert NoMarks(j) ==> gs == fs by {
        if NoMarks(j) {
          forall i | 0 <= i < |fs|
            ensures gs[i] == fs[i]
          {
          }
        }
      }
      JObj(gs)
    case _ => j
  }

  // --------------------------------------------------------------- extract

  /** What `extract` prints for a property value: the literal three
      characters `\s+` (the Python code passes a raw string to
      `str.replace`, not to a regular expression) become a space, then the
      value is stripped. */
  function ShownValue(v: string): string {
    Strip(ReplaceAll(v, "\\s+", " "))
  }

  /** One `LABEL: value` line per `(property, caption)` pair, in order. */
  function PropertyLines(el: Element, props: seq<(string, Json)>): (r: Result<seq<string>>)
    ensures r.Ok? <==> forall i | 0 <= i < |props| :: props[i].1.JStr? && props[i].0 in el.properties
    ensures r.Ok? ==> |r.value| == |props|
    ensures r.Ok? ==> forall i | 0 <= i < |props| ::
      r.value[i] == Upper(props[i].1.s) + ": " + ShownValue(el.properties[props[i].0])
  {
    if |props| == 0 then Ok([])
    else
      var prop := props[0].0;
      var caption := props[0].1;
      assert forall i | 1 <= i < |props| :: props[i] == props[1..][i - 1];
      if !caption.JStr? then Err("AttributeError: label has no upper()")
      else if prop !in el.properties then Err("AttributeError: property value has no replace()")
      else
        var rest :- PropertyLines(el, props[1..]);
        Ok([Upper(caption.s) + ": " + ShownValue(el.properties[prop])] + rest)
  }

  /** `extract(parent, step)`; `scope` is what `parent.query_selector` searches. */
  function Extract(scope: seq<Element>, step: Json): Result<string> {
    var selector :- StringMember(step, "selector");
    match QueryFirst(scope, selector)
    case None => Ok("Element not found")
    case Some(el) =>
      var props :- Member(step, "properties");
      if !props.JObj? then Err("AttributeError: properties has no items()")
      else
        var lines :- PropertyLines(el, props.fields);
        Ok(Join("\n", lines))
  }

  /** A missing element is reported without even reading "properties". */
  lemma ExtractMissing(scope: seq<Element>, step: Json, selector: string)
    requires StringMember(step, "selector") == Ok(selector)
    requires forall i | 0 <= i < |scope| :: selector !in scope[i].selectors
    ensures Extract(scope, step) == Ok("Element not found")
  {
  }

  /** A found element yields exactly the property lines, joined by newlines. */
  lemma ExtractFound(scope: seq<Element>, step: Json, selector: string, props: seq<(string, Json)>)
    requires StringMember(step, "selector") == Ok(selector)
    requires exists i | 0 <= i < |scope| :: selector in scope[i].selectors
    requires Member(step, "properties") == Ok(JObj(props))
    ensures var el := QueryAll(scope, selector)[0];
      && (Extract(scope, step).Ok? <==> forall i | 0 <= i < |props| :: props[i].1.JStr? && props[i].0 in el.properties)
      && (Extract(scope, step).Ok? ==> Extract(scope, step).value == Join("\n", PropertyLines(el, props).value))
  {
    var i :| 0 <= i < |scope| && selector in scope[i].selectors;
    assert scope[i] in QueryAll(scope, selector);
    var el := QueryAll(scope, selector)[0];
    assert QueryFirst(scope, selector) == Some(el);
    assert Extract(scope, step) == (
      var lines :- PropertyLines(el, props);
      Ok(Join("\n", lines)));
  }

  /** A value without the literal `\s+` is only stripped. */
  lemma ShownValueOnlyStrips(v: string)
    requires !Contains(v, "\\s+")
    ensures ShownValue(v) == Strip(v)
  {
  }

  /** A value holding no backslash is shown exactly stripped, whatever
      whitespace it holds inside. */
  lemma ShownValueWithoutBackslash(v: string)
    requires '\\' !in v
    ensures ShownValue(v) == Strip(v)
  {
    assert !Contains(v, "\\s+") by {
      forall i | 0 <= i <= |v| - 3
        ensures !OccursAt(v, "\\s+", i)
      {
        assert v[i] in v;
      }
    }
  }

  /** Inner whitespace survives: a stripped value without a backslash is
      shown unchanged, runs of spaces and newlines included. */
  lemma ShownValueKeepsInnerWhitespace(v: string)
    requires Stripped(v) && '\\' !in v
    ensures ShownValue(v) == v
  {
    ShownValueWithoutBackslash(v);
    StripOfStripped(v);
  }

  // ----------------------------------------------------------- extract_all

  function Min(a: int, b: int): int { if a <= b then a else b }
  function Max(a: int, b: int): int { if a >= b then a else b }

  /** `i >= limit` is defined for Python ints and booleans only. */
  function LimitValue(v: Json): Result<int> {
    match v
    case JNum(n) => Ok(n)
    case JBool(b) => Ok(if b then 1 else 0)
    case _ => Err("TypeError: '>=' not supported")
  }

  /** Block heading `LABEL #k`, with `k` counted from 1. */
  function Heading(caption: string, i: nat): string {
    caption + " #" + NatToString(i + 1)
  }

  /** The sub-extracts of one matched element, in `forEach` order. */
  function ExtractEach(scope: seq<Element>, subSteps: seq<Json>): (r: Result<seq<string>>)
    ensures r.Ok? ==> |r.value| == |subSteps|
  {
    if |subSteps| == 0 then Ok([])
    else
      var first :- Extract(scope, subSteps[0]);
      var rest :- ExtractEach(scope, subSteps[1..]);
      Ok([first] + rest)
  }

  /** Block `i`: its heading, then one sub-extract per `forEach` entry. */
  function Block(el: Element, caption: string, step: Json, i: nat): (r: Result<string>)
    ensures r.Ok? ==> Heading(caption, i) <= r.value
  {
    var subs :- Member(step, "forEach");
    var subSteps :- Iterate(subs);
    var parts :- ExtractEach(el.descendants, subSteps);
    JoinStartsWithFirst("\n", [Heading(caption, i)] + parts);
    Ok(Join("\n", [Heading(caption, i)] + parts))
  }

  /** The loop of `extract_all` from index `i`: it breaks at `i >= limit`. */
  function BlocksFrom(els: seq<Element>, caption: string, limit: int, step: Json, i: nat): (r: Result<seq<string>>)
    requires i <= |els|
    ensures r.Ok? ==> |r.value| == Max(Min(|els|, limit) - i, 0)
    decreases |els| - i
  {
    if i == |els| || i >= limit then Ok([])
    else
      var block :- Block(els[i], caption, step, i);
      var rest :- BlocksFrom(els, caption, limit, step, i + 1);
      Ok([block] + rest)
  }

  /** Block `k` of `blocks` opens with heading `i + k`. */
  predicate Headed(blocks: seq<string>, caption: string, i: nat) {
    forall k | 0 <= k < |blocks| :: Heading(caption, i + k) <= blocks[k]
  }

  lemma HeadedCons(block: string, rest: seq<string>, caption: string, i: nat)
    requires Heading(caption, i) <= block && Headed(rest, caption, i + 1)
    ensures Headed([block] + rest, caption, i)
  {
    var r := [block] + rest;
    forall k | 0 <= k < |r|
      ensures Heading(caption, i + k) <= r[k]
    {
      if k > 0 {
        assert r[k] == rest[k - 1];
        assert i + k == (i + 1) + (k - 1);
      }
    }
  }

  /** Block `k` of the loop from `i` carries heading `i + k`. */
  lemma {:induction false} BlocksHeadings(els: seq<Element>, caption: string, limit: int, step: Json, i: nat)
    requires i <= |els| && BlocksFrom(els, caption, limit, step, i).Ok?
    ensures Headed(BlocksFrom(els, caption, limit, step, i).value, caption, i)
    decreases |els| - i
  {
    if i < |els| && i < limit {
      var block := Block(els[i], caption, step, i).value;
      BlocksHeadings(els, caption, limit, step, i + 1);
      HeadedCons(block, BlocksFrom(els, caption, limit, step, i + 1).value, caption, i);
    }
  }

  /** `extract_all(page, step)`. */
  function ExtractAll(page: Page, step: Json): Result<string> {
    var caption :- StringMember(step, "label");
    var limitValue :- Member(step, "limit");
    var selector :- StringMember(step, "selector");
    var els := QueryAll(page.elements, selector);
    if |els| == 0 then Err("TimeoutError: waiting for selector")
    else
      var limit :- LimitValue(limitValue);
      var blocks :- BlocksFrom(els, Upper(caption), limit, step, 0);
      Ok(Join("\n", blocks))
  }

  /** `extract_all` emits min(matches, max(limit, 0)) blocks, block k headed `LABEL #k+1`. */
  lemma ExtractAllBlocks(page: Page, step: Json, caption: string, limit: int, selector: string)
    requires StringMember(step, "label") == Ok(caption)
    requires Member(step, "limit") == Ok(JNum(limit))
    requires StringMember(step, "selector") == Ok(selector)
    requires ExtractAll(page, step).Ok?
    ensures var els := QueryAll(page.elements, selector);
      var blocks := BlocksFrom(els, Upper(caption), limit, step, 0);
      && |els| > 0
      && blocks.Ok?
      && ExtractAll(page, step).value == Join("\n", blocks.value)
      && |blocks.value| == Min(|els|, Max(limit, 0))
      && forall k | 0 <= k < |blocks.value| :: Heading(Upper(caption), k) <= blocks.value[k]
  {
    var els := QueryAll(page.elements, selector);
    var blocks := BlocksFrom(els, Upper(caption), limit, step, 0);
    assert |blocks.value| == Max(Min(|els|, limit), 0);
    BlocksHeadings(els, Upper(caption), limit, step, 0);
  }

  /** With a limit of zero or less no block is built, so "forEach" is never read. */
  lemma ExtractAllNonPositiveLimit(page: Page, step: Json, caption: string, limit: int, selector: string)
    requires StringMember(step, "label") == Ok(caption)
    requires Member(step, "limit") == Ok(JNum(limit)) && limit <= 0
    requires StringMember(step, "selector") == Ok(selector)
    requires exists i | 0 <= i < |page.elements| :: selector in page.elements[i].selectors
    ensures ExtractAll(page, step) == Ok("")
  {
    var i :| 0 <= i < |page.elements| && selector in page.elements[i].selectors;
    assert page.elements[i] in QueryAll(page.elements, selector);
  }

  // ----------------------------------------------------------------- steps

  datatype Action = FillAction | ClickAction | ExtractAction | ExtractAllAction

  /** `self.actions[step["action"]]`, evaluated outside the try: None means
      the lookup raised and the whole run raises. */
  function ActionOf(step: Json): (r: Option<Action>)
    ensures r.Some? <==>
      (Member(step, "action").Ok? && Member(step, "action").value in {JStr("fill"), JStr("click"), JStr("extract"), JStr("extract_all")})
  {
    match Member(step, "action")
    case Ok(JStr(name)) =>
      if name == "fill" then Some(FillAction)
      else if name == "click" then Some(ClickAction)
      else if name == "extract" then Some(ExtractAction)
      else if name == "extract_all" then Some(ExtractAllAction)
      else None
    case _ => None
  }

  /** Browser operations, recorded in the order the run issues them. */
  datatype BrowserOp = Launch | Goto(url: string) | FillOp(selector: string, text: string) | ClickOp(selector: string) | Close

  /** One step inside the try: the page afterwards, its result (None for
      `fill`/`click`, which return nothing; Err when it raised) and the
      browser operations it issued. */
  datatype StepResult = StepResult(page: Page, output: Result<Option<string>>, ops: seq<BrowserOp>)

  function ExecStep(action: Action, page: Page, step: Json, driver: Driver): (r: StepResult)
    ensures action.ExtractAction? || action.ExtractAllAction? ==>
      r.page == page && r.ops == [] && (r.output.Ok? ==> r.output.value.Some?)
    ensures action.FillAction? || action.ClickAction? ==>
      |r.ops| <= 1 && (r.output.Ok? ==> r.output.value.None? && |r.ops| == 1)
  {
    match action
    case FillAction =>
      (match (StringMember(step, "selector"), StringMember(step, "text"))
       case (Ok(sel), Ok(text)) =>
         (match driver.fill(page, sel, text)
          case Ok(p) => StepResult(p, Ok(None), [FillOp(sel, text)])
          case Err(e) => StepResult(page, Err(e), [FillOp(sel, text)]))
       case _ => StepResult(page, Err("KeyError"), []))
    case ClickAction =>
      (match StringMember(step, "selector")
       case Ok(sel) =>
         (match driver.click(page, sel)
          case Ok(p) => StepResult(p, Ok(None), [ClickOp(sel)])
          case Err(e) => StepResult(page, Err(e), [ClickOp(sel)]))
       case Err(e) => StepResult(page, Err(e), []))
    case ExtractAction =>
      (match Extract(page.elements, step)
       case Ok(s) => StepResult(page, Ok(Some(s)), [])
       case Err(e) => StepResult(page, Err(e), []))
    case ExtractAllAction =>
      (match ExtractAll(page, step)
       case Ok(s) => StepResult(page, Ok(Some(s)), [])
       case Err(e) => StepResult(page, Err(e), []))
  }

  /** What one iteration of the step loop does: the action lookup raises
      (outside the try), the step raises inside the try (logged, loop left),
      or the loop moves on with the new page and what the step returned. */
  datatype Outcome =
    | Aborted
    | Stopped(ops: seq<BrowserOp>)
    | Advanced(page: Page, out: seq<string>, ops: seq<BrowserOp>)

  function StepOutcome(page: Page, step: Json, driver: Driver): (r: Outcome)
    ensures r.Aborted? <==> ActionOf(step).None?
    ensures r.Advanced? ==> |r.out| <= 1
    ensures r.Advanced? && |r.out| == 1 ==> r.page == page && r.ops == []
  {
    match ActionOf(step)
    case None => Aborted
    case Some(action) =>
      var s := ExecStep(action, page, step, driver);
      match s.output
      case Err(_) => Stopped(s.ops)
      case Ok(None) => Advanced(s.page, [], s.ops)
      case Ok(Some(text)) => Advanced(s.page, [text], s.ops)
  }

  /** How the step loop ended. */
  datatype LoopEnd = Completed | StoppedAt(index: nat) | AbortedAt(index: nat)

  datatype Replay = Replay(collected: seq<string>, ops: seq<BrowserOp>, page: Page, end: LoopEnd)

  /** One iteration of the loop, for a fixed driver. */
  type Stepper = (Page, Json) -> Outcome

  /** The step loop of `run` from step `i`; `step` is one iteration. */
  function RunFrom(page: Page, steps: seq<Json>, i: nat, step: Stepper): (r: Replay)
    requires i <= |steps|
    ensures r.end.StoppedAt? ==> i <= r.end.index < |steps| && step(r.page, steps[r.end.index]).Stopped?
    ensures r.end.AbortedAt? ==> i <= r.end.index < |steps| && step(r.page, steps[r.end.index]).Aborted?
    decreases |steps| - i
  {
    if i == |steps| then Replay([], [], page, Completed)
    else
      match step(page, steps[i])
      case Aborted => Replay([], [], page, AbortedAt(i))
      case Stopped(ops) => Replay([], ops, page, StoppedAt(i))
      case Advanced(next, out, ops) =>
        var rest := RunFrom(next, steps, i + 1, step);
        Replay(out + rest.collected, ops + rest.ops, rest.page, rest.end)
  }

  /** Steps after the one that ended the loop are never looked at. */
  lemma {:induction false} NothingAfterFailure(page: Page, steps: seq<Json>, other: seq<Json>, i: nat, step: Stepper)
    requires i <= |steps|
    requires RunFrom(page, steps, i, step).end.StoppedAt? || RunFrom(page, steps, i, step).end.AbortedAt?
    requires var k := RunFrom(page, steps, i, step).end.index;
      k < |other| && other[..k + 1] == steps[..k + 1]
    ensures i <= |other| && RunFrom(page, other, i, step) == RunFrom(page, steps, i, step)
    decreases |steps| - i
  {
    var k := RunFrom(page, steps, i, step).end.index;
    assert other[i] == other[..k + 1][i] == steps[..k + 1][i] == steps[i];
    match step(page, steps[i])
    case Aborted =>
    case Stopped(_) =>
    case Advanced(next, _, _) =>
      NothingAfterFailure(next, steps, other, i + 1, step);
  }

  /** Glue of a completed prefix run and the run of what follows it. */
  function Then(first: Replay, second: Replay): Replay {
    Replay(first.collected + second.collected, first.ops + second.ops, second.page, second.end)
  }

  /** Steps run in list order: replaying `a + b` is replaying `a` to
      completion and then `b` on the page `a` left, results in that order. */
  lemma {:induction false} RunInOrder(page: Page, a: seq<Json>, b: seq<Json>, i: nat, step: Stepper)
    requires i <= |a|
    requires RunFrom(page, a, i, step).end.Completed?
    ensures var first := RunFrom(page, a, i, step);
      RunFrom(page, a + b, i, step) == Then(first, RunFrom(first.page, a + b, |a|, step))
    decreases |a| - i
  {
    if i < |a| {
      assert (a + b)[i] == a[i];
      var o := step(page, a[i]);
      var first := RunFrom(page, a, i, step);
      var restA := RunFrom(o.page, a, i + 1, step);
      var restAB := RunFrom(o.page, a + b, i + 1, step);
      RunInOrder(o.page, a, b, i + 1, step);
      var tail := RunFrom(first.page, a + b, |a|, step);
      assert o.out + (restA.collected + tail.collected) == (o.out + restA.collected) + tail.collected;
      assert o.ops + (restA.ops + tail.ops) == (o.ops + restA.ops) + tail.ops;
    }
  }

  /** The run of `a + b` from the first step of `b` is the run of `b`, with
      indices shifted by |a|. */
  lemma {:induction false} RunShift(page: Page, a: seq<Json>, b: seq<Json>, j: nat, step: Stepper)
    requires j <= |b|
    ensures var r := RunFrom(page, a + b, |a| + j, step);
      var q := RunFrom(page, b, j, step);
      && r.collected == q.collected && r.ops == q.ops && r.page == q.page
      && (q.end.Completed? <==> r.end.Completed?)
      && (q.end.StoppedAt? ==> r.end == StoppedAt(|a| + q.end.index))
      && (q.end.AbortedAt? ==> r.end == AbortedAt(|a| + q.end.index))
    decreases |b| - j
  {
    if j < |b| {
      assert (a + b)[|a| + j] == b[j];
      var o := step(page, b[j]);
      if o.Advanced? {
        RunShift(o.page, a, b, j + 1, step);
      }
    }
  }

  // ------------------------------------------------------------------- run

  datatype RunResult = Done(output: string) | Raised(failure: Failure)

  /** The loop body of `run` for a given driver. */
  function StepperOf(driver: Driver): Stepper {
    (p, j) => StepOutcome(p, j, driver)
  }

  /** `self.scrap_script["site"]` after substitution. */
  function SiteOf(script: Json, values: Dict): Result<string> {
    StringMember(Substitute(script, values), "site")
  }

  /** `self.scrap_script["steps"]` after substitution, as a list to iterate. */
  function StepsOf(script: Json, values: Dict): Result<seq<Json>> {
    var stepList := Member(Substitute(script, values), "steps");
    if stepList.Ok? then Iterate(stepList.value) else Err("KeyError: 'steps'")
  }

  /** `run`: load (the script is given already decoded), validate,
      substitute, then launch the browser, open "site" and replay "steps".
      Returns the outcome and the browser operations issued. A completed run
      answers the texts the steps returned, in step order, joined by blank
      lines; a step that raised ends the loop and keeps what came before. */
  function Run(script: Json, values: Dict, driver: Driver): (r: (RunResult, seq<BrowserOp>))
    ensures r.1 == [] <==> !InputsSupplied(script, values)
    ensures !InputsSupplied(script, values) ==> r.0 == Raised(ValidateInputs(script, values).value)
    ensures r.0.Done? ==> r.1[0] == Launch && r.1[|r.1| - 1] == Close
    ensures r.0.Done? ==>
      && SiteOf(script, values).Ok?
      && driver.open(SiteOf(script, values).value).Ok?
      && StepsOf(script, values).Ok?
      && var replay := RunFrom(driver.open(SiteOf(script, values).value).value, StepsOf(script, values).value, 0, StepperOf(driver));
         && !replay.end.AbortedAt?
         && r.0.output == Join("\n\n", replay.collected)
    ensures (InputsSupplied(script, values) && SiteOf(script, values).Ok?
             && driver.open(SiteOf(script, values).value).Ok? && StepsOf(script, values).Ok?) ==>
      var replay := RunFrom(driver.open(SiteOf(script, values).value).value, StepsOf(script, values).value, 0, StepperOf(driver));
      r.0.Done? <==> !replay.end.AbortedAt?
  {
    match ValidateInputs(script, values)
    case Some(f) => (Raised(f), [])
    case None =>
      match SiteOf(script, values)
      case Err(_) => (Raised(NoSite), [Launch])
      case Ok(site) =>
        match driver.open(site)
        case Err(_) => (Raised(NoSite), [Launch, Goto(site)])
        case Ok(page) =>
          match StepsOf(script, values)
          case Err(_) => (Raised(NoSteps), [Launch, Goto(site)])
          case Ok(steps) =>
            var replay := RunFrom(page, steps, 0, StepperOf(driver));
            if replay.end.AbortedAt? then
              (Raised(UnknownAction(replay.end.index)), [Launch, Goto(site)] + replay.ops)
            else
              (Done(Join("\n\n", replay.collected)), [Launch, Goto(site)] + replay.ops + [Close])
  }

  /** The loop of `run`, one more step at a time: after a completed prefix,
      a step's text is appended to what was collected, a step that raised
      ends the loop keeping the earlier texts, and an unknown action raises
      out of the loop. */
  lemma RunSnoc(page: Page, a: seq<Json>, x: Json, step: Stepper)
    requires RunFrom(page, a, 0, step).end.Completed?
    ensures var first := RunFrom(page, a, 0, step);
      var r := RunFrom(page, a + [x], 0, step);
      match step(first.page, x)
      case Advanced(next, out, ops) =>
        r == Replay(first.collected + out, first.ops + ops, next, Completed)
      case Stopped(ops) =>
        r == Replay(first.collected, first.ops + ops, first.page, StoppedAt(|a|))
      case Aborted =>
        r == Replay(first.collected, first.ops, first.page, AbortedAt(|a|))
  {
    var first := RunFrom(page, a, 0, step);
    RunInOrder(page, a, [x], 0, step);
    assert (a + [x])[|a|] == x;
    var tail := RunFrom(first.page, a + [x], |a|, step);
    match step(first.page, x)
    case Advanced(next, out, ops) =>
      assert tail == Replay(out, ops, next, Completed);
    case Stopped(ops) =>
    case Aborted =>
  }

  /** A missing declared input raises before any browser operation, and names
      exactly the declared inputs that were not supplied. */
  lemma MissingInputRaisesEarly(script: Json, values: Dict, driver: Driver, decl: seq<(string, Json)>)
    requires script.JObj? && Get(script.fields, "input") == Some(JObj(decl))
    requires exists i | 0 <= i < |decl| :: !HasKey(values, decl[i].0)
    ensures Run(script, values, driver).1 == []
    ensures Run(script, values, driver).0 == Raised(MissingInputs(MissingNames(decl, values)))
    ensures forall n :: n in MissingNames(decl, values) <==> n in FieldNames(decl) && !HasKey(values, n)
  {
  }

  // -------------------------------------------------------- command line

  /** `re.match(r'^([^=]+)=(.+)$', arg.strip())`: the name runs up to the
      first `=`, the value is the non-empty rest and may not hold a newline. */
  function ParseAssignment(arg: string): (r: Option<(string, string)>)
    ensures r.Some? ==> Strip(arg) == r.value.0 + "=" + r.value.1
    ensures r.Some? ==> |r.value.0| > 0 && '=' !in r.value.0 && |r.value.1| > 0 && '\n' !in r.value.1
  {
    SplitAssignment(Strip(arg))
  }

  /** The pattern applied to the stripped argument. */
  function SplitAssignment(s: string): (r: Option<(string, string)>)
    ensures r.Some? ==> s == r.value.0 + "=" + r.value.1
    ensures r.Some? ==> |r.value.0| > 0 && '=' !in r.value.0 && |r.value.1| > 0 && '\n' !in r.value.1
  {
    var i := Find(s, '=');
    if i >= 1 && i + 1 < |s| && '\n' !in s[i + 1..] then
      assert s == s[..i] + "=" + s[i + 1..];
      Some((s[..i], s[i + 1..]))
    else None
  }

  /** Every well-formed `name=value` is accepted with exactly that split. */
  lemma ParseAssignmentComplete(arg: string, name: string, value: string)
    requires Strip(arg) == name + "=" + value
    requires |name| > 0 && '=' !in name && |value| > 0 && '\n' !in value
    ensures ParseAssignment(arg) == Some((name, value))
  {
    SplitAssignmentComplete(name, value);
  }

  lemma SplitAssignmentComplete(name: string, value: string)
    requires |name| > 0 && '=' !in name && |value| > 0 && '\n' !in value
    ensures SplitAssignment(name + "=" + value) == Some((name, value))
  {
    var s := name + "=" + value;
    assert s == name + ['='] + value;
    FindAfterPrefix(name, '=', value);
    assert s[..|name|] == name && s[|name| + 1..] == value;
  }

  /** Folds the assignments into the input dictionary; None when one is malformed. */
  function Assignments(args: seq<string>): (r: Option<Dict>)
    ensures r.Some? ==> DistinctKeys(r.value)
  {
    if |args| == 0 then Some([])
    else
      var init := Assignments(args[..|args| - 1]);
      var last := ParseAssignment(args[|args| - 1]);
      if init.None? || last.None? then None
      else Some(Put(init.value, last.value.0, last.value.1))
  }

  predicate WellFormed(arg: string) {
    ParseAssignment(arg).Some?
  }

  predicate AllWellFormed(args: seq<string>) {
    forall k | 0 <= k < |args| :: WellFormed(args[k])
  }

  /** A property holds of every item exactly when it holds of all but the
      last and of the last. */
  lemma AllSnoc<T>(p: T -> bool, s: seq<T>, init: seq<T>)
    requires |s| > 0 && init == s[..|s| - 1]
    ensures (forall k | 0 <= k < |s| :: p(s[k])) <==>
      (forall k | 0 <= k < |init| :: p(init[k])) && p(s[|s| - 1])
  {
    assert forall k | 0 <= k < |init| :: init[k] == s[k];
  }

  lemma AllWellFormedSnoc(args: seq<string>)
    requires |args| > 0
    ensures AllWellFormed(args) <==>
      AllWellFormed(args[..|args| - 1]) && WellFormed(args[|args| - 1])
  {
    AllSnoc(WellFormed, args, args[..|args| - 1]);
  }

  /** The arguments are accepted exactly when every one is well formed. */
  lemma {:induction false} AssignmentsAccepted(args: seq<string>)
    ensures Assignments(args).Some? <==> AllWellFormed(args)
  {
    if |args| > 0 {
      AssignmentsAccepted(args[..|args| - 1]);
      AllWellFormedSnoc(args);
    }
  }

  /** The value the last assignment to `name` gives, if any. */
  function LastAssigned(args: seq<string>, name: string): Option<string> {
    if |args| == 0 then None
    else
      var last := ParseAssignment(args[|args| - 1]);
      if last.Some? && last.value.0 == name then Some(last.value.1)
      else LastAssigned(args[..|args| - 1], name)
  }

  /** A later duplicate name overwrites an earlier one. */
  lemma {:induction false} LaterAssignmentWins(args: seq<string>, name: string)
    requires Assignments(args).Some?
    ensures Lookup(Assignments(args).value, name) == LastAssigned(args, name)
  {
    if |args| > 0 {
      LaterAssignmentWins(args[..|args| - 1], name);
    }
  }

  datatype Cli = Exit(code: int) | Invocation(scriptPath: string, values: Dict)

  /** `parse_args(sys.argv)`: the script path, then `name=value` pairs. */
  function ParseArgs(argv: seq<string>): (r: Cli)
    ensures r.Invocation? <==> |argv| >= 2 && AllWellFormed(argv[2..])
    ensures r.Invocation? ==> r.scriptPath == argv[1] && DistinctKeys(r.values)
    ensures r.Invocation? ==> forall n :: Lookup(r.values, n) == LastAssigned(argv[2..], n)
    ensures r.Exit? ==> r.code == 1
  {
    if |argv| < 2 then Exit(1)
    else
      AssignmentsAccepted(argv[2..]);
      match Assignments(argv[2..])
      case None => Exit(1)
      case Some(values) =>
        assert forall n :: Lookup(values, n) == LastAssigned(argv[2..], n) by {
          forall n
            ensures Lookup(values, n) == LastAssigned(argv[2..], n)
          {
            LaterAssignmentWins(argv[2..], n);
          }
        }
        Invocation(argv[1], values)
  }
}

=== FILE: search_cli.dfy ===
/** The command-line shopping flow of src/main.py (`main2`): the entry
    model either asks for specifications or writes a search query; the
    query is cleaned and searched; a scraping agent extracts data from each
    result; the reviewer model compares the aggregated data. Console input,
    the web search and the models are oracles. */
module SearchCli {
  import opened Wrappers
  import opened Strings
  import opened JsonValue
  import opened Llms
  import ScrapingAgent
  import Messages

  // ---------------------------------------------------------- projection

  datatype Hit = Hit(title: string, link: string, snippet: string)

  /** `item.get(key, "")` for a text field of a search item. */
  function TextField(fields: seq<(string, Json)>, key: string): (r: string)
    ensures Get(fields, key).None? ==> r == ""
    ensures Get(fields, key).Some? && Get(fields, key).value.JStr? ==> r == Get(fields, key).value.s
  {
    match Get(fields, key)
    case Some(JStr(s)) => s
    case _ => ""
  }

  /** `google_search`: the response's `items` (none when absent), each
      projected to its title, link and snippet. The loop visits whatever a
      Python `for` visits in `items`, and every visited value must be an
      object, since `get` is called on it; a response that is not an object
      has no `get` either. */
  function Project(response: Json): (r: Result<seq<Hit>>)
    ensures !response.JObj? ==> r.Err?
    ensures response.JObj? && Get(response.fields, "items").None? ==> r == Ok([])
    ensures response.JObj? && Get(response.fields, "items").Some? ==>
      var visited := Iterate(Get(response.fields, "items").value);
      && (r.Ok? <==> visited.Ok? && forall k | 0 <= k < |visited.value| :: visited.value[k].JObj?)
      && (r.Ok? ==> |r.value| == |visited.value|)
      && (r.Ok? ==> forall k | 0 <= k < |visited.value| ::
            r.value[k] == Hit(TextField(visited.value[k].fields, "title"),
                              TextField(visited.value[k].fields, "link"),
                              TextField(visited.value[k].fields, "snippet")))
    ensures response.JObj? && Get(response.fields, "items").Some? ==>
      var items := Get(response.fields, "items").value;
      && (items.JObj? ==> (r.Ok? <==> |items.fields| == 0))
      && (items.JStr? ==> (r.Ok? <==> |items.s| == 0))
      && (items.JArr? ==> (r.Ok? <==> forall k | 0 <= k < |items.items| :: items.items[k].JObj?))
  {
    if !response.JObj? then Err("AttributeError: 'get'")
    else
      match Get(response.fields, "items")
      case None => Ok([])
      case Some(items) =>
        var visited :- Iterate(items);
        assert items.JObj? && |items.fields| > 0 ==> !visited[0].JObj?;
        assert items.JStr? && |items.s| > 0 ==> !visited[0].JObj?;
        var r := ProjectItems(visited);
        if r.Ok? then
          assert forall k | 0 <= k < |visited| ::
            r.value[k] == Hit(TextField(visited[k].fields, "title"),
                              TextField(visited[k].fields, "link"),
                              TextField(visited[k].fields, "snippet")) by {
            forall k | 0 <= k < |visited| {
              ProjectionDefaults(visited, k);
            }
          }
          r
        else r
  }

  /** Empty `items` of any iterable kind give no hits, as the loop runs
      zero times; a non-empty object or string fails at `get`. */
  lemma EmptyItemsGiveNoHits()
    ensures Project(JObj([("items", JObj([]))])) == Ok([])
    ensures Project(JObj([("items", JStr(""))])) == Ok([])
    ensures Project(JObj([("items", JStr("a"))])).Err?
  {
  }

  function ProjectItems(items: seq<Json>): (r: Result<seq<Hit>>)
    ensures r.Ok? <==> forall k | 0 <= k < |items| :: items[k].JObj?
    ensures r.Ok? ==> |r.value| == |items|
  {
    if |items| == 0 then Ok([])
    else if !items[0].JObj? then Err("AttributeError: 'get'")
    else
      var rest := ProjectItems(items[1..]);
      assert forall k | 1 <= k < |items| :: items[k] == items[1..][k - 1];
      if rest.Err? then rest
      else
        var f := items[0].fields;
        Ok([Hit(TextField(f, "title"), TextField(f, "link"), TextField(f, "snippet"))] + rest.value)
  }

  /** Each hit is its item's fields, in order, with "" for a missing one. */
  lemma {:induction false} ProjectionDefaults(items: seq<Json>, k: nat)
    requires ProjectItems(items).Ok? && k < |items|
    ensures var hit := ProjectItems(items).value[k];
      && hit.title == TextField(items[k].fields, "title")
      && hit.link == TextField(items[k].fields, "link")
      && hit.snippet == TextField(items[k].fields, "snippet")
      && (Get(items[k].fields, "link").None? ==> hit.link == "")
  {
    if k > 0 {
      ProjectionDefaults(items[1..], k - 1);
    }
  }

  // ------------------------------------------------------- entry reply

  const SpecifyMark := "## SPECIFY ##"
  const SearchMark := "## SEARCH ##"
  const BadReply := "Algo deu errado na resposta do GPT"

  /** What the entry model's first reply asks for. */
  datatype Ask = AskSpecs(question: string) | GoSearch

  function Classify(reply: string): (r: Result<Ask>)
    ensures r.Err? <==> !(SpecifyMark <= reply) && !(SearchMark <= reply)
    ensures r.Err? ==> r.msg == BadReply
    ensures r == Ok(GoSearch) <==> !(SpecifyMark <= reply) && SearchMark <= reply
    ensures r.Ok? && r.value.AskSpecs? <==> SpecifyMark <= reply
    ensures r.Ok? && r.value.AskSpecs? ==>
      Stripped(r.value.question) && NonSpace(r.value.question) == NonSpace(reply[|SpecifyMark|..])
  {
    if SpecifyMark <= reply then Ok(AskSpecs(Strip(RemovePrefix(reply, SpecifyMark))))
    else if SearchMark <= reply then Ok(GoSearch)
    else Err(BadReply)
  }

  /** The Google query: the search mark removed, stripped, quotes deleted. */
  function GoogleQuery(reply: string): (r: string)
    ensures '"' !in r
  {
    RemoveCharGone(Strip(RemovePrefix(reply, SearchMark)), '"');
    ReplaceAll(Strip(RemovePrefix(reply, SearchMark)), ['"'], "")
  }

  /** A query with the mark, a stripped text and no quotes comes back whole. */
  lemma GoogleQueryOfClean(q: string)
    requires Stripped(q) && '"' !in q
    ensures GoogleQuery(SearchMark + q) == q
  {
    assert RemovePrefix(SearchMark + q, SearchMark) == q;
    StripOfStripped(q);
    RemoveAbsentChar(q, '"');
  }

  // -------------------------------------------------------- extraction

  function Fallback(link: string): string {
    "Falha ao extrair dados do link " + link
  }

  /** The scraping agent used for one link: its models and the tools over
      a browser open at that link. */
  datatype Scrapers = Scrapers(models: string -> ScrapingAgent.Models, tools: string -> ScrapingAgent.Toolbox)

  const DefaultLimit: nat := 100

  /** `extract_data` as written: the agent is never initialised, so its url
      is unset when `run` reads it, and every call ends in the fallback. The
      arguments are also passed positionally to a different signature (the
      link as the query); since the run fails first, that is immaterial. */
  function ExtractDataAsWritten(hit: Hit, query: string, scrapers: Scrapers): string {
    match ScrapingAgent.Run(ScrapingAgent.Agent(None), hit.link, true, DefaultLimit, scrapers.models(hit.link), scrapers.tools(hit.link))
    case Ok(answer) => answer
    case Err(_) => Fallback(hit.link)
  }

  /** Whatever the page, the models and the query, the as-written
      extraction yields only the fallback text. */
  lemma ExtractDataAlwaysFails(hit: Hit, query: string, scrapers: Scrapers)
    ensures ExtractDataAsWritten(hit, query, scrapers) == Fallback(hit.link)
  {
  }

  /** `extract_data` as intended: the agent is initialised at the link and
      asked the query; only a failing run falls back. */
  function ExtractData(hit: Hit, query: string, scrapers: Scrapers): (r: string)
    ensures var run := ScrapingAgent.Run(ScrapingAgent.Agent(Some(hit.link)), query, true, DefaultLimit, scrapers.models(hit.link), scrapers.tools(hit.link));
      && (run.Err? ==> r == Fallback(hit.link))
      && (run.Ok? ==> r == run.value && exists ms: seq<Messages.Message>, m: Messages.Message :: scrapers.models(hit.link).respond(ms) == Ok(m) && r == m.content)
  {
    match ScrapingAgent.Run(ScrapingAgent.Agent(Some(hit.link)), query, true, DefaultLimit, scrapers.models(hit.link), scrapers.tools(hit.link))
    case Ok(answer) => answer
    case Err(_) => Fallback(hit.link)
  }

  // -------------------------------------------------------- aggregation

  function Block(link: string, data: string): string {
    "FROM: " + link + "\nDATA: " + data
  }

  /** The extracted data of each hit, in order. */
  function Extractions(hits: seq<Hit>, query: string, scrapers: Scrapers): (r: seq<(string, string)>)
    ensures |r| == |hits|
    ensures forall k | 0 <= k < |hits| :: r[k] == (hits[k].link, ExtractData(hits[k], query, scrapers))
  {
    seq(|hits|, k requires 0 <= k < |hits| => (hits[k].link, ExtractData(hits[k], query, scrapers)))
  }

  /** The text the reviewer receives: one block per result, blank-line separated. */
  function Aggregate(results: seq<(string, string)>): string {
    Join("\n\n", seq(|results|, k requires 0 <= k < |results| => Block(results[k].0, results[k].1)))
  }

  /** One more result adds its block after a blank line; the earlier text is kept. */
  lemma AggregateSnoc(results: seq<(string, string)>, link: string, data: string)
    requires |results| > 0
    ensures Aggregate(results + [(link, data)]) == Aggregate(results) + "\n\n" + Block(link, data)
  {
    var blocks := seq(|results|, k requires 0 <= k < |results| => Block(results[k].0, results[k].1));
    var all := results + [(link, data)];
    assert seq(|all|, k requires 0 <= k < |all| => Block(all[k].0, all[k].1)) == blocks + [Block(link, data)];
    JoinSnoc("\n\n", blocks, Block(link, data));
  }

  /** The aggregated text starts with the first result's block. */
  lemma AggregateStartsWithFirst(results: seq<(string, string)>)
    requires |results| > 0
    ensures Block(results[0].0, results[0].1) <= Aggregate(results)
  {
    JoinStartsWithFirst("\n\n", seq(|results|, k requires 0 <= k < |results| => Block(results[k].0, results[k].1)));
  }

  // --------------------------------------------------------------- flow

  datatype Console = Console(product: string, specs: string -> string)

  datatype Services = Services(
    entryPrompt: string,
    reviewerPrompt: string,
    complete: Complete,
    search: (string, nat) -> seq<Hit>,
    scrapers: Scrapers)

  /** What a completed session produced: the search query and its hits,
      the query the agents were given, the text the reviewer received and
      its answer. */
  datatype Session = Session(googleQuery: string, hits: seq<Hit>, agentQuery: string, aggregated: string, answer: string)

  const Want := "Quero comprar: "

  function EntryLlm(svc: Services): Llm {
    SetSystemPrompt(New(Chat("gpt-4o-mini")), svc.entryPrompt)
  }

  function ReviewerLlm(svc: Services): Llm {
    SetSystemPrompt(New(Chat("gpt-4o-mini")), svc.reviewerPrompt)
  }

  /** The query the entry model finally answered and the specifications
      line: the reply after a specification request is not checked again. */
  function Clarified(entry: Llm, query: string, console: Console, complete: Complete): (r: Result<(string, string)>)
    requires entry.backend.Chat?
    ensures r.Ok? ==> GetResponse(entry, query, complete).1.Ok?
    ensures r.Ok? && r.value.1 == "" ==> r.value.0 == GetResponse(entry, query, complete).1.value && SearchMark <= r.value.0
    ensures r.Ok? && r.value.1 != "" ==>
      SpecifyMark <= GetResponse(entry, query, complete).1.value && "Especifica\U{E7}\U{F5}es: " <= r.value.1
  {
    var first := GetResponse(entry, query, complete);
    var reply :- first.1;
    var ask :- Classify(reply);
    match ask
    case GoSearch => Ok((reply, ""))
    case AskSpecs(question) =>
      var specifications := "Especifica\U{E7}\U{F5}es: " + console.specs(question + "\n");
      var second := GetResponse(first.0, specifications, complete);
      var reply2 :- second.1;
      Ok((reply2, specifications))
  }

  /** After a specification request the second reply is used whatever it
      says, even without the search mark. */
  lemma SecondReplyUnchecked(entry: Llm, query: string, console: Console, complete: Complete)
    requires entry.backend.Chat?
    requires var first := GetResponse(entry, query, complete);
      && first.1.Ok? && SpecifyMark <= first.1.value
      && GetResponse(first.0, "Especifica\U{E7}\U{F5}es: " + console.specs(Strip(RemovePrefix(first.1.value, SpecifyMark)) + "\n"), complete).1.Ok?
    ensures Clarified(entry, query, console, complete).Ok?
    ensures var first := GetResponse(entry, query, complete);
      var specifications := "Especifica\U{E7}\U{F5}es: " + console.specs(Strip(RemovePrefix(first.1.value, SpecifyMark)) + "\n");
      Clarified(entry, query, console, complete).value
        == (GetResponse(first.0, specifications, complete).1.value, specifications)
  {
  }

  /** Each hit's link with the data extracted for it, in hit order. */
  function Results(hits: seq<Hit>, query: string, extract: (Hit, string) -> string): (r: seq<(string, string)>)
    ensures |r| == |hits|
    ensures forall k | 0 <= k < |hits| :: r[k] == (hits[k].link, extract(hits[k], query))
  {
    seq(|hits|, k requires 0 <= k < |hits| => (hits[k].link, extract(hits[k], query)))
  }

  function AsWrittenExtractor(scrapers: Scrapers): (Hit, string) -> string {
    (hit, query) => ExtractDataAsWritten(hit, query, scrapers)
  }

  function CorrectedExtractor(scrapers: Scrapers): (Hit, string) -> string {
    (hit, query) => ExtractData(hit, query, scrapers)
  }

  /** Each hit's link paired with its fallback text, in hit order. */
  function Fallbacks(hits: seq<Hit>): (r: seq<(string, string)>)
    ensures |r| == |hits|
    ensures forall k | 0 <= k < |hits| :: r[k] == (hits[k].link, Fallback(hits[k].link))
  {
    seq(|hits|, k requires 0 <= k < |hits| => (hits[k].link, Fallback(hits[k].link)))
  }

  /** As written, every hit's data is its fallback text. */
  lemma FallbackResults(hits: seq<Hit>, query: string, scrapers: Scrapers)
    ensures Results(hits, query, AsWrittenExtractor(scrapers)) == Fallbacks(hits)
  {
    forall k | 0 <= k < |hits|
      ensures ExtractDataAsWritten(hits[k], query, scrapers) == Fallback(hits[k].link)
    {
      ExtractDataAlwaysFails(hits[k], query, scrapers);
    }
  }

  /** `main2` with the extraction of one hit as a parameter: the clarified
      reply gives the search query, the top three hits are extracted with
      the product query and specifications, and the reviewer answers the
      aggregated blocks. A failing model call ends the session. */
  function Flow(console: Console, svc: Services, extract: (Hit, string) -> string): (r: Result<Session>)
    ensures var clarified := Clarified(EntryLlm(svc), Want + console.product, console, svc.complete);
      && (clarified.Err? ==> r.Err?)
      && (r.Ok? ==>
        && clarified.Ok?
        && r.value.googleQuery == GoogleQuery(clarified.value.0)
        && '"' !in r.value.googleQuery
        && r.value.hits == svc.search(r.value.googleQuery, 3)
        && r.value.agentQuery == Want + console.product + "\n" + clarified.value.1
        && r.value.aggregated == Aggregate(Results(r.value.hits, r.value.agentQuery, extract))
        && GetResponse(ReviewerLlm(svc), r.value.aggregated, svc.complete).1 == Ok(r.value.answer))
    ensures r.Err? && Clarified(EntryLlm(svc), Want + console.product, console, svc.complete).Ok? ==>
      GetResponse(ReviewerLlm(svc), Aggregate(Results(
        svc.search(GoogleQuery(Clarified(EntryLlm(svc), Want + console.product, console, svc.complete).value.0), 3),
        Want + console.product + "\n" + Clarified(EntryLlm(svc), Want + console.product, console, svc.complete).value.1,
        extract)), svc.complete).1.Err?
  {
    var query := Want + console.product;
    var clarified :- Clarified(EntryLlm(svc), query, console, svc.complete);
    var googleQuery := GoogleQuery(clarified.0);
    var hits := svc.search(googleQuery, 3);
    var agentQuery := query + "\n" + clarified.1;
    var aggregated := Aggregate(Results(hits, agentQuery, extract));
    var answer :- GetResponse(ReviewerLlm(svc), aggregated, svc.complete).1;
    Ok(Session(googleQuery, hits, agentQuery, aggregated, answer))
  }

  /** `main2` as written: every hit contributes its fallback block, so the
      reviewer only ever sees `Falha ao extrair dados do link …` lines. */
  function Main(console: Console, svc: Services): (r: Result<Session>)
    ensures var clarified := Clarified(EntryLlm(svc), Want + console.product, console, svc.complete);
      && (clarified.Err? ==> r.Err?)
      && (r.Ok? ==>
        && clarified.Ok?
        && r.value.googleQuery == GoogleQuery(clarified.value.0)
        && '"' !in r.value.googleQuery
        && r.value.hits == svc.search(r.value.googleQuery, 3)
        && r.value.agentQuery == Want + console.product + "\n" + clarified.value.1
        && r.value.aggregated == Aggregate(Fallbacks(r.value.hits))
        && GetResponse(ReviewerLlm(svc), r.value.aggregated, svc.complete).1 == Ok(r.value.answer))
  {
    var r := Flow(console, svc, AsWrittenExtractor(svc.scrapers));
    if r.Ok? then
      FallbackResults(r.value.hits, r.value.agentQuery, svc.scrapers);
      r
    else r
  }

  /** `main2` with the intended extraction: each hit's block carries what
      the scraping agent initialised at its link answered, or the fallback
      when that run failed. */
  function MainCorrected(console: Console, svc: Services): (r: Result<Session>)
    ensures var clarified := Clarified(EntryLlm(svc), Want + console.product, console, svc.complete);
      && (clarified.Err? ==> r.Err?)
      && (r.Ok? ==>
        && clarified.Ok?
        && r.value.googleQuery == GoogleQuery(clarified.value.0)
        && r.value.hits == svc.search(r.value.googleQuery, 3)
        && r.value.agentQuery == Want + console.product + "\n" + clarified.value.1
        && r.value.aggregated == Aggregate(Extractions(r.value.hits, r.value.agentQuery, svc.scrapers))
        && GetResponse(ReviewerLlm(svc), r.value.aggregated, svc.complete).1 == Ok(r.value.answer))
  {
    var r := Flow(console, svc, CorrectedExtractor(svc.scrapers));
    if r.Ok? then
      assert Results(r.value.hits, r.value.agentQuery, CorrectedExtractor(svc.scrapers))
        == Extractions(r.value.hits, r.value.agentQuery, svc.scrapers);
      r
    else r
  }

  /** A first reply with neither mark stops the session with the error. */
  lemma UnmarkedReplyFails(console: Console, svc: Services)
    requires var reply := GetResponse(EntryLlm(svc), Want + console.product, svc.complete).1;
      reply.Ok? && !(SpecifyMark <= reply.value) && !(SearchMark <= reply.value)
    ensures Main(console, svc) == Err(BadReply)
  {
  }
}

=== FILE: shopping_agent.dfy ===
/** `ShoppingAgent` (src/shopping_agent/agent.py): receptionist → ask_human
    → researcher ⇄ tools → analyst. The run pauses at ask_human until the
    human's reply is supplied; the researcher's `save_relevant_data` calls
    accumulate research notes that the analyst receives, formatted, as its
    only message. Model calls and tools are oracles; the recursion limit is
    fuel. */
module ShoppingAgent {
  import opened Wrappers
  import opened Strings
  import opened JsonValue
  import opened Messages

  datatype State = State(messages: seq<Message>, product: string, specifications: string, research: seq<(string, string)>)

  /** The state a plain-text input starts from. */
  function InitialState(input: string): (s: State)
    ensures s.messages == [Human(input)] && s.product == input
    ensures s.specifications == "" && s.research == []
  {
    State([Human(input)], input, "", [])
  }

  datatype Node = Receptionist | AskHuman | Researcher | ToolsNode | Analyst | Finish

  const First: Node := Receptionist

  /** `tools_condition`: only a model turn carries tool calls. */
  function ToolsCondition(last: Message): (n: Node)
    ensures n == ToolsNode <==> last.Ai? && |last.toolCalls| > 0
    ensures n == Analyst <==> !(last.Ai? && |last.toolCalls| > 0)
  {
    if last.Ai? && |last.toolCalls| > 0 then ToolsNode else Analyst
  }

  /** The edges, given the state after the node has run. */
  function Successor(node: Node, state: State): Node
    requires |state.messages| > 0
  {
    match node
    case Receptionist => AskHuman
    case AskHuman => Researcher
    case Researcher => ToolsCondition(state.messages[|state.messages| - 1])
    case ToolsNode => Researcher
    case Analyst => Finish
    case Finish => Finish
  }

  /** Only the analyst leads to the end; tools always lead back to the
      researcher, and the researcher goes to tools or to the analyst. */
  lemma SuccessorShape(node: Node, state: State)
    requires |state.messages| > 0 && node != Finish
    ensures Successor(node, state) == Finish <==> node == Analyst
    ensures node == ToolsNode ==> Successor(node, state) == Researcher
    ensures node == Researcher ==> Successor(node, state) in {ToolsNode, Analyst}
    ensures node == Receptionist ==> Successor(node, state) == AskHuman
  {
  }

  // ---------------------------------------------------------------- tools

  const SaveTool := "save_relevant_data"

  datatype Toolbox = Toolbox(names: set<string>, invoke: (string, Json) -> Result<string>)

  /** What a call adds to the research notes: one entry for
      `save_relevant_data`, none for any other tool. */
  function SavedEntry(call: ToolCall): seq<(string, string)> {
    if call.name == SaveTool && StringMember(call.args, "key").Ok? && StringMember(call.args, "value").Ok?
    then [(StringMember(call.args, "key").value, StringMember(call.args, "value").value)]
    else []
  }

  /** `handle_tool_call`: the tool's reply carries the call id; research
      grows by the call's saved entry. */
  function HandleToolCall(call: ToolCall, research: seq<(string, string)>, tools: Toolbox): (r: Result<(Message, seq<(string, string)>)>)
    ensures r.Ok? ==> r.value.0.ToolReply? && r.value.0.callId == call.id
    ensures r.Ok? ==> r.value.1 == research + SavedEntry(call)
    ensures r.Ok? && call.name != SaveTool ==> r.value.1 == research
    ensures r.Ok? && call.name == SaveTool ==> |r.value.1| == |research| + 1
    ensures call.name !in tools.names ==> r.Err?
  {
    if call.name !in tools.names then Err("KeyError: '" + call.name + "'")
    else
      var result :- tools.invoke(call.name, call.args);
      if call.name == SaveTool then
        var key :- StringMember(call.args, "key");
        var value :- StringMember(call.args, "value");
        Ok((ToolReply(result, call.id), research + [(key, value)]))
      else Ok((ToolReply(result, call.id), research))
  }

  /** The saved entries of several calls, in call order. */
  function SavedEntries(calls: seq<ToolCall>): seq<(string, string)> {
    if |calls| == 0 then [] else SavedEntry(calls[0]) + SavedEntries(calls[1..])
  }

  /** The tools node, with the calls handled one after the other. */
  function HandleAll(calls: seq<ToolCall>, research: seq<(string, string)>, tools: Toolbox): (r: Result<(seq<Message>, seq<(string, string)>)>)
    ensures r.Ok? ==> |r.value.0| == |calls|
    ensures r.Ok? ==> forall i | 0 <= i < |calls| :: r.value.0[i].ToolReply? && r.value.0[i].callId == calls[i].id
  {
    if |calls| == 0 then Ok(([], research))
    else
      assert forall i | 1 <= i < |calls| :: calls[i] == calls[1..][i - 1];
      var first :- HandleToolCall(calls[0], research, tools);
      var rest :- HandleAll(calls[1..], first.1, tools);
      Ok(([first.0] + rest.0, rest.1))
  }

  /** Research after the tools node is research before it plus the saved
      entries of its calls, in order; nothing else is added. */
  lemma {:induction false} ResearchAccumulates(calls: seq<ToolCall>, research: seq<(string, string)>, tools: Toolbox)
    requires HandleAll(calls, research, tools).Ok?
    ensures HandleAll(calls, research, tools).value.1 == research + SavedEntries(calls)
  {
    if |calls| > 0 {
      var first := HandleToolCall(calls[0], research, tools).value;
      ResearchAccumulates(calls[1..], first.1, tools);
      assert research + SavedEntry(calls[0]) + SavedEntries(calls[1..])
        == research + (SavedEntry(calls[0]) + SavedEntries(calls[1..]));
    }
  }

  /** Without any `save_relevant_data` call the research is unchanged. */
  lemma {:induction false} NoSaveNoResearch(calls: seq<ToolCall>)
    requires forall i | 0 <= i < |calls| :: calls[i].name != SaveTool
    ensures SavedEntries(calls) == []
  {
    if |calls| > 0 {
      assert forall i | 1 <= i < |calls| :: calls[i] == calls[1..][i - 1];
      NoSaveNoResearch(calls[1..]);
    }
  }

  // -------------------------------------------------------------- analyst

  function Note(entry: (string, string)): string {
    "## " + entry.0 + ":\n" + entry.1
  }

  /** The research notes as the analyst reads them. */
  function ResearchText(research: seq<(string, string)>): string {
    Join("\n\n", seq(|research|, i requires 0 <= i < |research| => Note(research[i])))
  }

  /** A new note is appended after a blank line. */
  lemma ResearchTextSnoc(research: seq<(string, string)>, entry: (string, string))
    requires |research| > 0
    ensures ResearchText(research + [entry]) == ResearchText(research) + "\n\n" + Note(entry)
  {
    var notes := seq(|research|, i requires 0 <= i < |research| => Note(research[i]));
    assert seq(|research| + 1, i requires 0 <= i < |research| + 1 => Note((research + [entry])[i])) == notes + [Note(entry)];
    JoinSnoc("\n\n", notes, Note(entry));
  }

  /** The header the analyst input starts with. */
  function Header(product: string, specifications: string): string {
    "# Produto\n" + product + "\n# Especifica\U{E7}\U{F5}es:\n" + specifications + "\n# Pequisa:\n"
  }

  /** The analyst's only message: the header, then the research notes. */
  function AnalystInput(state: State): (r: string)
    ensures Header(state.product, state.specifications) <= r
    ensures r[|Header(state.product, state.specifications)|..] == ResearchText(state.research)
    ensures state.research == [] ==> r == Header(state.product, state.specifications)
  {
    Header(state.product, state.specifications) + ResearchText(state.research)
  }

  // ---------------------------------------------------------------- graph

  datatype Models = Models(
    receptionist: seq<Message> -> Result<Message>,
    researcher: seq<Message> -> Result<Message>,
    analyst: seq<Message> -> Result<Message>)

  /** The state after one node has run; ask_human is given the human's reply. */
  function RunNode(node: Node, state: State, reply: string, models: Models, tools: Toolbox): (r: Result<State>)
    requires |state.messages| > 0
    ensures r.Ok? ==> r.value.product == state.product && state.messages <= r.value.messages
    ensures r.Ok? && node != AskHuman ==> r.value.specifications == state.specifications
    ensures r.Ok? ==> state.research <= r.value.research
    ensures r.Ok? && node != ToolsNode ==> r.value.research == state.research
    ensures r.Ok? && node == ToolsNode ==>
      var last := state.messages[|state.messages| - 1];
      last.Ai? && r.value.research == state.research + SavedEntries(last.toolCalls)
    ensures r.Ok? && node == AskHuman ==>
      r.value.specifications == reply && r.value.messages == state.messages + [Human(reply)]
    ensures r.Ok? && node == Analyst ==>
      && models.analyst([Human(AnalystInput(state))]).Ok?
      && r.value.messages == state.messages + [models.analyst([Human(AnalystInput(state))]).value]
  {
    match node
    case Receptionist =>
      var m :- models.receptionist(state.messages);
      Ok(state.(messages := AddMessages(state.messages, [m])))
    case AskHuman =>
      Ok(state.(messages := AddMessages(state.messages, [Human(reply)]), specifications := reply))
    case Researcher =>
      var m :- models.researcher(state.messages);
      Ok(state.(messages := AddMessages(state.messages, [m])))
    case ToolsNode =>
      var last := state.messages[|state.messages| - 1];
      if !last.Ai? then Err("AttributeError: message has no tool_calls")
      else
        var handled :- HandleAll(last.toolCalls, state.research, tools);
        ResearchAccumulates(last.toolCalls, state.research, tools);
        Ok(state.(messages := AddMessages(state.messages, handled.0), research := handled.1))
    case Analyst =>
      var m :- models.analyst([Human(AnalystInput(state))]);
      Ok(state.(messages := AddMessages(state.messages, [m])))
    case Finish => Ok(state)
  }

  /** Where a run stopped: paused at ask_human waiting for the human, or
      finished after the analyst; `current` is the last node entered. */
  datatype Stop = Stop(state: State, current: Node, paused: bool)

  function RecursionError(limit: nat): string {
    "Recursion limit of " + NatToString(limit) + " reached without hitting a stop condition"
  }

  /** Runs the graph from `node`. `resume` is the human's reply when the run
      resumes at ask_human; without one, ask_human pauses the run. */
  function Execute(node: Node, state: State, current: Node, resume: Option<string>, fuel: nat, limit: nat, models: Models, tools: Toolbox): (r: Result<Stop>)
    requires |state.messages| > 0
    ensures r.Ok? ==> |r.value.state.messages| > 0 && r.value.state.product == state.product
    ensures r.Ok? && r.value.paused ==> r.value.current == AskHuman
    ensures r.Ok? && !r.value.paused && node != Finish ==> r.value.current == Analyst
    decreases fuel
  {
    if node == Finish then Ok(Stop(state, current, false))
    else if node == AskHuman && resume.None? then Ok(Stop(state, AskHuman, true))
    else if fuel == 0 then Err(RecursionError(limit))
    else
      var next :- RunNode(node, state, ReplyOf(resume), models, tools);
      var succ := Successor(node, next);
      SuccessorShape(node, next);
      Execute(succ, next, node, if node == AskHuman then None else resume, fuel - 1, limit, models, tools)
  }

  /** What `run` returns for a stop: the last message, marked when the run
      is waiting at ask_human. */
  function ResultText(stop: Stop): string
    requires |stop.state.messages| > 0
  {
    var last := stop.state.messages[|stop.state.messages| - 1].content;
    if stop.current == AskHuman then "ASK_HUMAN:" + last else last
  }

  /** `run(product)`: from the initial state up to the pause at ask_human. */
  function Start(product: string, recursionLimit: nat, models: Models, tools: Toolbox): Result<string> {
    var stop :- Execute(First, InitialState(product), First, None, recursionLimit, recursionLimit, models, tools);
    Ok(ResultText(stop))
  }

  /** The run `continue_from_input` starts: resumed at ask_human with the
      human's reply. */
  function Resume(paused: State, reply: string, recursionLimit: nat, models: Models, tools: Toolbox): Result<Stop>
    requires |paused.messages| > 0
  {
    Execute(AskHuman, paused, AskHuman, Some(reply), recursionLimit, recursionLimit, models, tools)
  }

  /** Once past the receptionist with the reply in hand, a run never
      pauses again: no node after ask_human leads back to it. */
  lemma {:induction false} ResumedRunNeverPauses(node: Node, state: State, current: Node, resume: Option<string>, fuel: nat, limit: nat, models: Models, tools: Toolbox)
    requires |state.messages| > 0 && node != Receptionist
    requires node == AskHuman ==> resume.Some?
    requires Execute(node, state, current, resume, fuel, limit, models, tools).Ok?
    ensures !Execute(node, state, current, resume, fuel, limit, models, tools).value.paused
    decreases fuel
  {
    if node != Finish {
      var reply := if resume.Some? then resume.value else "";
      var next := RunNode(node, state, reply, models, tools).value;
      SuccessorShape(node, next);
      ResumedRunNeverPauses(Successor(node, next), next, node, if node == AskHuman then None else resume, fuel - 1, limit, models, tools);
    }
  }

  /** `continue_from_input(reply)` as written: it awaits the resumed run but
      has no `return`, so its caller receives None whatever the run
      answered; a failing run still raises. */
  function ContinueAsWritten(paused: State, reply: string, recursionLimit: nat, models: Models, tools: Toolbox): (r: Result<Option<string>>)
    requires |paused.messages| > 0
    ensures r.Ok? <==> Resume(paused, reply, recursionLimit, models, tools).Ok?
    ensures r.Ok? ==> r.value.None?
  {
    var stop :- Resume(paused, reply, recursionLimit, models, tools);
    Ok(None)
  }

  /** `continue_from_input(reply)` returning what `run` computes: the
      analyst's answer to the formatted input, whose specifications are the
      reply and whose research extends the paused run's notes. */
  function Continue(paused: State, reply: string, recursionLimit: nat, models: Models, tools: Toolbox): (r: Result<string>)
    requires |paused.messages| > 0
    ensures r.Ok? <==> Resume(paused, reply, recursionLimit, models, tools).Ok?
    ensures r.Ok? ==> exists before: State ::
      && before.product == paused.product
      && before.specifications == reply
      && paused.research <= before.research
      && models.analyst([Human(AnalystInput(before))]).Ok?
      && r.value == models.analyst([Human(AnalystInput(before))]).value.content
  {
    var stop :- Resume(paused, reply, recursionLimit, models, tools);
    ResumedRunNeverPauses(AskHuman, paused, AskHuman, Some(reply), recursionLimit, recursionLimit, models, tools);
    ResumedRunEndsWithAnalyst(AskHuman, paused, AskHuman, Some(reply), recursionLimit, recursionLimit, models, tools);
    Ok(ResultText(stop))
  }

  /** A paused run whose researcher answers without tool calls: the
      corrected continuation returns the analyst's answer, while the one as
      written returns None. */
  lemma ContinueDropsAnswer()
    ensures var paused := State([Human("livro"), Ai("Qual genero?", [])], "livro", "", []);
      var models := Models(
        ms => Ok(Ai("Qual genero?", [])),
        ms => Ok(Ai("pronto", [])),
        ms => Ok(Ai("Compre o livro A", [])));
      var tools := Toolbox({}, (name, args) => Err("unused"));
      && Continue(paused, "ficcao", 100, models, tools) == Ok("Compre o livro A")
      && ContinueAsWritten(paused, "ficcao", 100, models, tools) == Ok(None)
  {
  }

  /** The first run asks the human, quoting the receptionist's message. */
  lemma FirstRunAsks(product: string, recursionLimit: nat, models: Models, tools: Toolbox)
    requires recursionLimit >= 1
    requires models.receptionist([Human(product)]).Ok?
    ensures Start(product, recursionLimit, models, tools)
      == Ok("ASK_HUMAN:" + models.receptionist([Human(product)]).value.content)
  {
    var s := InitialState(product);
    var next := RunNode(Receptionist, s, "", models, tools).value;
    assert next.messages == [Human(product), models.receptionist([Human(product)]).value];
    assert Successor(Receptionist, next) == AskHuman;
    assert Execute(AskHuman, next, Receptionist, None, recursionLimit - 1, recursionLimit, models, tools)
      == Ok(Stop(next, AskHuman, true));
    assert Execute(First, s, First, None, recursionLimit, recursionLimit, models, tools)
      == Ok(Stop(next, AskHuman, true));
  }

  /** The human's reply a node is given: the resumed one, or none. */
  function ReplyOf(resume: Option<string>): string {
    if resume.Some? then resume.value else ""
  }

  /** A run that does not stop at `node` runs it once and goes on from its
      successor, with the reply used up at ask_human. */
  lemma ExecuteStep(node: Node, state: State, current: Node, resume: Option<string>, fuel: nat, limit: nat, models: Models, tools: Toolbox)
    requires |state.messages| > 0 && node != Finish && (node == AskHuman ==> resume.Some?)
    requires Execute(node, state, current, resume, fuel, limit, models, tools).Ok?
    ensures fuel > 0 && RunNode(node, state, ReplyOf(resume), models, tools).Ok?
    ensures var next := RunNode(node, state, ReplyOf(resume), models, tools).value;
      Execute(node, state, current, resume, fuel, limit, models, tools)
        == Execute(Successor(node, next), next, node, if node == AskHuman then None else resume, fuel - 1, limit, models, tools)
  {
  }

  /** A resumed run that finishes last entered the analyst and has recorded
      the reply as the specifications. */
  lemma {:induction false} ResumedRunStops(node: Node, state: State, current: Node, resume: Option<string>, fuel: nat, limit: nat, models: Models, tools: Toolbox)
    requires |state.messages| > 0 && node != Finish
    requires node == AskHuman ==> resume.Some?
    requires node != AskHuman ==> resume.None?
    requires Execute(node, state, current, resume, fuel, limit, models, tools).Ok?
    requires !Execute(node, state, current, resume, fuel, limit, models, tools).value.paused
    ensures var stop := Execute(node, state, current, resume, fuel, limit, models, tools).value;
      && stop.current == Analyst
      && (resume.Some? ==> stop.state.specifications == resume.value)
      && (resume.None? ==> stop.state.specifications == state.specifications)
    decreases fuel
  {
    ExecuteStep(node, state, current, resume, fuel, limit, models, tools);
    var next := RunNode(node, state, ReplyOf(resume), models, tools).value;
    var succ := Successor(node, next);
    SuccessorShape(node, next);
    if succ != Finish {
      ResumedRunStops(succ, next, node, None, fuel - 1, limit, models, tools);
    }
  }

  lemma PrefixTransitive<T>(a: seq<T>, b: seq<T>, c: seq<T>)
    requires a <= b && b <= c
    ensures a <= c
  {
  }

  /** A run never drops research notes: it stops with the notes it started
      from, followed by any it saved. */
  lemma {:induction false} ResearchOnlyGrows(node: Node, state: State, current: Node, resume: Option<string>, fuel: nat, limit: nat, models: Models, tools: Toolbox)
    requires |state.messages| > 0
    requires Execute(node, state, current, resume, fuel, limit, models, tools).Ok?
    ensures state.research <= Execute(node, state, current, resume, fuel, limit, models, tools).value.state.research
    decreases fuel
  {
    if node != Finish && !(node == AskHuman && resume.None?) {
      ExecuteStep(node, state, current, resume, fuel, limit, models, tools);
      var next := RunNode(node, state, ReplyOf(resume), models, tools).value;
      var rest := if node == AskHuman then None else resume;
      ResearchOnlyGrows(Successor(node, next), next, node, rest, fuel - 1, limit, models, tools);
      var final := Execute(Successor(node, next), next, node, rest, fuel - 1, limit, models, tools).value.state.research;
      PrefixTransitive(state.research, next.research, final);
    }
  }

  /** `after` holds the analyst's reply to `before`'s formatted input as
      its last message, after `before`'s messages. */
  predicate AnsweredFrom(before: State, after: State, models: Models) {
    && models.analyst([Human(AnalystInput(before))]).Ok?
    && after.messages == before.messages + [models.analyst([Human(AnalystInput(before))]).value]
  }

  /** A resumed run that finishes ends with the analyst's reply to the
      formatted input of a state that kept the product, holds the final
      specifications, and extends the messages and research notes the run
      resumed with. */
  lemma {:induction false} ResumedRunEndsWithAnalyst(node: Node, state: State, current: Node, resume: Option<string>, fuel: nat, limit: nat, models: Models, tools: Toolbox)
    requires |state.messages| > 0 && node != Finish
    requires node == AskHuman ==> resume.Some?
    requires node != AskHuman ==> resume.None?
    requires Execute(node, state, current, resume, fuel, limit, models, tools).Ok?
    requires !Execute(node, state, current, resume, fuel, limit, models, tools).value.paused
    ensures var stop := Execute(node, state, current, resume, fuel, limit, models, tools).value;
      && stop.current == Analyst
      && (resume.Some? ==> stop.state.specifications == resume.value)
      && (resume.None? ==> stop.state.specifications == state.specifications)
      && state.research <= stop.state.research
      && exists before: State :: before.product == state.product
           && before.specifications == stop.state.specifications
           && before.research == stop.state.research
           && AnsweredFrom(before, stop.state, models)
    decreases fuel
  {
    ResumedRunStops(node, state, current, resume, fuel, limit, models, tools);
    ResearchOnlyGrows(node, state, current, resume, fuel, limit, models, tools);
    ExecuteStep(node, state, current, resume, fuel, limit, models, tools);
    var next := RunNode(node, state, ReplyOf(resume), models, tools).value;
    var succ := Successor(node, next);
    SuccessorShape(node, next);
    var stop := Execute(node, state, current, resume, fuel, limit, models, tools).value;
    if node == Analyst {
      assert stop.state == next;
      assert AnsweredFrom(state, next, models);
    } else {
      ResumedRunEndsWithAnalyst(succ, next, node, None, fuel - 1, limit, models, tools);
    }
  }
}

=== FILE: strings.dfy ===
/** The Python string operations the system relies on, over `seq<char>`:
    `strip`, `re.sub(r'\s+', ' ', ...)`, `str.replace`, `find`/`rfind`,
    `split(",")`, `sep.join(...)`, `upper`/`lower` and `str(int)`/`int(str)`. */
module Strings {
  import opened Wrappers

  /** Python's `str.isspace()` characters; `str.strip()` and the regular
      expression class `\s` use the same set. */
  predicate IsSpace(c: char) {
    || c == ' '
    || '\t' <= c <= '\r'
    || '\U{1C}' <= c <= '\U{1F}'
    || c == '\U{85}' || c == '\U{A0}' || c == '\U{1680}'
    || '\U{2000}' <= c <= '\U{200A}'
    || c == '\U{2028}' || c == '\U{2029}' || c == '\U{202F}' || c == '\U{205F}' || c == '\U{3000}'
  }

  predicate AllSpace(s: string) {
    forall k | 0 <= k < |s| :: IsSpace(s[k])
  }

  /** No leading and no trailing whitespace. */
  predicate Stripped(s: string) {
    |s| == 0 || (!IsSpace(s[0]) && !IsSpace(s[|s| - 1]))
  }

  /** The characters of `s` that are not whitespace, in order. */
  function NonSpace(s: string): string {
    if |s| == 0 then "" else (if IsSpace(s[0]) then "" else [s[0]]) + NonSpace(s[1..])
  }

  lemma {:induction false} NonSpaceAppend(a: string, b: string)
    ensures NonSpace(a + b) == NonSpace(a) + NonSpace(b)
  {
    if |a| > 0 {
      assert (a + b)[1..] == a[1..] + b;
      NonSpaceAppend(a[1..], b);
    } else {
      assert a + b == b;
    }
  }

  lemma {:induction false} NonSpaceOfSpaces(s: string)
    requires AllSpace(s)
    ensures NonSpace(s) == ""
  {
    if |s| > 0 {
      NonSpaceOfSpaces(s[1..]);
    }
  }

  function LeadingSpaces(s: string): (n: nat)
    ensures n <= |s|
    ensures AllSpace(s[..n])
    ensures n < |s| ==> !IsSpace(s[n])
  {
    if |s| == 0 || !IsSpace(s[0]) then 0 else 1 + LeadingSpaces(s[1..])
  }

  function TrailingSpaces(s: string): (n: nat)
    ensures n <= |s|
    ensures AllSpace(s[|s| - n..])
    ensures n < |s| ==> !IsSpace(s[|s| - n - 1])
  {
    var e := SpaceRunStart(s, |s|);
    assert forall k | 0 <= k < |s| - e :: s[e..][k] == s[e + k];
    |s| - e
  }

  /** Where the run of whitespace that ends at `e` begins. */
  function SpaceRunStart(s: string, e: nat): (r: nat)
    requires e <= |s|
    ensures r <= e
    ensures forall k | r <= k < e :: IsSpace(s[k])
    ensures r > 0 ==> !IsSpace(s[r - 1])
  {
    if e == 0 || !IsSpace(s[e - 1]) then e else SpaceRunStart(s, e - 1)
  }

  /** Python's `str.strip()`: the result is the infix of `s` left after
      removing whitespace at both ends, and no non-whitespace is lost. */
  function Strip(s: string): (r: string)
    ensures Stripped(r)
    ensures NonSpace(r) == NonSpace(s)
    ensures Stripped(s) ==> r == s
    ensures var i := LeadingSpaces(s);
      i <= |s| - |r| && r == s[i..i + |r|] && AllSpace(s[..i]) && AllSpace(s[i + |r|..])
  {
    StripParts(s);
    s[LeadingSpaces(s)..StripEnd(s)]
  }

  /** Where the text kept by `strip` ends. */
  function StripEnd(s: string): (e: nat)
    ensures LeadingSpaces(s) <= e <= |s|
  {
    |s| - TrailingSpaces(s[LeadingSpaces(s)..])
  }

  lemma StripParts(s: string)
    ensures var a := LeadingSpaces(s);
      var r := s[a..StripEnd(s)];
      && Stripped(r)
      && NonSpace(r) == NonSpace(s)
      && (Stripped(s) ==> r == s)
      && a <= |s| - |r| && r == s[a..a + |r|] && AllSpace(s[..a]) && AllSpace(s[a + |r|..])
  {
    var a := LeadingSpaces(s);
    var b := TrailingSpaces(s[a..]);
    var t := s[a..];
    var r := t[..|t| - b];
    var back := t[|t| - b..];
    StripSlices(s, t, r, back, a);
    assert r == s[a..StripEnd(s)];
    StripText(s[..a], r, back, s);
    StripEnds(t, r, b);
    if Stripped(s) {
      NothingToStrip(s, a, b);
      assert r == s;
    }
  }

  lemma NothingToStrip(s: string, a: nat, b: nat)
    requires Stripped(s) && a == LeadingSpaces(s) && b == TrailingSpaces(s[a..])
    ensures a == 0 && b == 0
  {
    if |s| > 0 {
      assert s[a..] == s;
    }
  }

  lemma StripSlices(s: string, t: string, r: string, back: string, a: nat)
    requires a <= |s| && t == s[a..] && |r| <= |t| && r == t[..|r|] && back == t[|r|..]
    ensures r == s[a..a + |r|] && s[a + |r|..] == back
    ensures s == s[..a] + r + back
  {
    assert t == r + back;
    assert s == s[..a] + t;
  }

  lemma StripEnds(t: string, r: string, b: nat)
    requires |t| > 0 ==> !IsSpace(t[0])
    requires b <= |t| && r == t[..|t| - b]
    requires b < |t| ==> !IsSpace(t[|t| - b - 1])
    ensures Stripped(r)
  {
  }

  /** Removing whitespace from both ends keeps every other character. */
  lemma StripText(front: string, r: string, back: string, s: string)
    requires s == front + r + back && AllSpace(front) && AllSpace(back)
    ensures NonSpace(r) == NonSpace(s)
  {
    NonSpaceOfSpaces(front);
    NonSpaceOfSpaces(back);
    NonSpaceAppend(front, r);
    NonSpaceAppend(front + r, back);
  }

  lemma StripOfStripped(s: string)
    requires Stripped(s)
    ensures Strip(s) == s
  {
  }

  /** Stripping cannot introduce a character. */
  lemma StripKeepsOut(s: string, c: char)
    requires c !in s
    ensures c !in Strip(s)
  {
    var r := Strip(s);
    var i := LeadingSpaces(s);
    SliceKeepsOut(s, i, i + |r|, c);
  }

  lemma SliceKeepsOut(s: string, i: nat, j: nat, c: char)
    requires i <= j <= |s| && c !in s
    ensures c !in s[i..j]
  {
    assert forall k | 0 <= k < j - i :: s[i..j][k] == s[i + k];
  }

  /** One space before a stripped string is stripped away again. */
  lemma StripAfterSpace(a: string)
    requires Stripped(a)
    ensures Strip(" " + a) == a
  {
    var s := " " + a;
    assert s[1..] == a;
    assert LeadingSpaces(s) == 1 + LeadingSpaces(a);
  }

  /** Python's `re.sub(r'\s+', ' ', s)`: every maximal run of whitespace
      becomes one space; nothing else changes. */
  function CollapseSpaces(s: string): (r: string)
    ensures |r| <= |s|
    ensures |r| == 0 <==> |s| == 0
    ensures |s| > 0 ==> (IsSpace(r[0]) <==> IsSpace(s[0]))
    ensures |s| > 0 ==> (IsSpace(r[|r| - 1]) <==> IsSpace(s[|s| - 1]))
    decreases |s|
  {
    if |s| == 0 then ""
    else if IsSpace(s[0]) then " " + CollapseSpaces(s[LeadingSpaces(s)..])
    else [s[0]] + CollapseSpaces(s[1..])
  }

  /** Collapsing drops whitespace only. */
  lemma {:induction false} CollapseKeepsText(s: string)
    ensures NonSpace(CollapseSpaces(s)) == NonSpace(s)
    decreases |s|
  {
    if |s| > 0 {
      if IsSpace(s[0]) {
        var n := LeadingSpaces(s);
        var rest := CollapseSpaces(s[n..]);
        CollapseKeepsText(s[n..]);
        assert s == s[..n] + s[n..];
        NonSpaceOfSpaces(s[..n]);
        NonSpaceAppend(s[..n], s[n..]);
        NonSpaceAppend(" ", rest);
      } else {
        CollapseKeepsText(s[1..]);
        NonSpaceAppend([s[0]], CollapseSpaces(s[1..]));
        assert s == [s[0]] + s[1..];
        NonSpaceAppend([s[0]], s[1..]);
      }
    }
  }

  /** Every whitespace character is a plain space and no two are adjacent. */
  predicate SpacesCollapsed(r: string) {
    && (forall k | 0 <= k < |r| && IsSpace(r[k]) :: r[k] == ' ')
    && (forall k | 0 <= k < |r| - 1 :: !IsSpace(r[k]) || !IsSpace(r[k + 1]))
  }

  lemma ConsCollapsed(head: char, rest: string)
    requires SpacesCollapsed(rest)
    requires IsSpace(head) ==> head == ' ' && (|rest| == 0 || !IsSpace(rest[0]))
    ensures SpacesCollapsed([head] + rest)
  {
    var r := [head] + rest;
    forall k | 0 <= k < |r| && IsSpace(r[k])
      ensures r[k] == ' '
    {
      if k > 0 {
        assert r[k] == rest[k - 1];
      }
    }
    forall k | 0 <= k < |r| - 1
      ensures !IsSpace(r[k]) || !IsSpace(r[k + 1])
    {
      assert r[k + 1] == rest[k];
      if k > 0 {
        assert r[k] == rest[k - 1];
      }
    }
  }

  /** After collapsing, every whitespace character is a plain space and no
      two of them are adjacent. */
  lemma {:induction false} CollapseShape(s: string)
    ensures SpacesCollapsed(CollapseSpaces(s))
    decreases |s|
  {
    if |s| > 0 {
      if IsSpace(s[0]) {
        var n := LeadingSpaces(s);
        CollapseShape(s[n..]);
        ConsCollapsed(' ', CollapseSpaces(s[n..]));
      } else {
        CollapseShape(s[1..]);
        ConsCollapsed(s[0], CollapseSpaces(s[1..]));
      }
    }
  }

  lemma CollapseKeepsStripped(s: string)
    requires Stripped(s)
    ensures Stripped(CollapseSpaces(s))
  {
  }

  // ---------------------------------------------------------------- search

  predicate OccursAt(s: string, pat: string, i: int) {
    0 <= i && i + |pat| <= |s| && s[i..i + |pat|] == pat
  }

  /** Python's `s.endswith(suffix)`. */
  predicate EndsWith(s: string, suffix: string) {
    |suffix| <= |s| && s[|s| - |suffix|..] == suffix
  }

  /** Python's `pat in s`. */
  predicate Contains(s: string, pat: string) {
    exists i | 0 <= i <= |s| - |pat| :: OccursAt(s, pat, i)
  }

  /** A string holding `p + q` holds `p`. */
  lemma ContainsPrefix(s: string, p: string, q: string)
    requires Contains(s, p + q)
    ensures Contains(s, p)
  {
    var i :| 0 <= i <= |s| - |p + q| && OccursAt(s, p + q, i);
    assert s[i..i + |p|] == (p + q)[..|p|];
    assert OccursAt(s, p, i);
  }

  /** The first occurrence of `pat` at or after `from`. */
  function IndexOfFrom(s: string, pat: string, from: nat): (r: Option<nat>)
    ensures r.Some? ==> from <= r.value && OccursAt(s, pat, r.value)
    ensures r.Some? ==> forall j | from <= j < r.value :: !OccursAt(s, pat, j)
    ensures r.None? ==> forall j | from <= j :: !OccursAt(s, pat, j)
    decreases |s| - from
  {
    if from + |pat| > |s| then None
    else if s[from..from + |pat|] == pat then Some(from)
    else IndexOfFrom(s, pat, from + 1)
  }

  lemma IndexOfFindsContained(s: string, pat: string)
    ensures Contains(s, pat) <==> IndexOfFrom(s, pat, 0).Some?
  {
    if Contains(s, pat) {
      var i :| 0 <= i <= |s| - |pat| && OccursAt(s, pat, i);
    }
  }

  /** Python's `s.find(c)`: -1 when `c` does not occur. */
  function Find(s: string, c: char): (r: int)
    ensures -1 <= r < |s|
    ensures r == -1 <==> c !in s
    ensures r >= 0 ==> s[r] == c && c !in s[..r]
  {
    var r := FirstFrom(s, c, 0);
    assert r >= 0 ==> forall k | 0 <= k < r :: s[..r][k] == s[k];
    r
  }

  /** The first `c` at or after `i`, or -1. */
  function FirstFrom(s: string, c: char, i: nat): (r: int)
    requires i <= |s|
    ensures r == -1 || i <= r < |s|
    ensures r >= 0 ==> s[r] == c
    ensures forall k | i <= k < (if r < 0 then |s| else r) :: s[k] != c
    decreases |s| - i
  {
    if i == |s| then -1
    else if s[i] == c then i
    else FirstFrom(s, c, i + 1)
  }

  /** Python's `s.rfind(c)`: -1 when `c` does not occur. */
  function RFind(s: string, c: char): (r: int)
    ensures -1 <= r < |s|
    ensures r == -1 <==> c !in s
    ensures r >= 0 ==> s[r] == c && c !in s[r + 1..]
  {
    var r := LastBefore(s, c, |s|);
    assert r >= 0 ==> forall k | r + 1 <= k < |s| :: s[r + 1..][k - (r + 1)] == s[k];
    r
  }

  /** The last `c` before `e`, or -1. */
  function LastBefore(s: string, c: char, e: nat): (r: int)
    requires e <= |s|
    ensures -1 <= r < e
    ensures r >= 0 ==> s[r] == c
    ensures forall k | r < k < e :: s[k] != c
  {
    if e == 0 then -1
    else if s[e - 1] == c then e - 1
    else LastBefore(s, c, e - 1)
  }

  // ------------------------------------------------------- replace / split

  /** Python's `s.replace(pat, rep)` for a non-empty `pat`: occurrences are
      replaced from left to right and never overlap. */
  function ReplaceAll(s: string, pat: string, rep: string): (r: string)
    requires |pat| > 0
    ensures !Contains(s, pat) ==> r == s
    decreases |s|
  {
    if |s| < |pat| then s
    else if s[..|pat|] == pat then
      assert OccursAt(s, pat, 0);
      rep + ReplaceAll(s[|pat|..], pat, rep)
    else
      var rest := ReplaceAll(s[1..], pat, rep);
      assert !Contains(s, pat) ==> !Contains(s[1..], pat) by {
        if Contains(s[1..], pat) {
          var i :| 0 <= i <= |s[1..]| - |pat| && OccursAt(s[1..], pat, i);
          assert s[i + 1..i + 1 + |pat|] == s[1..][i..i + |pat|];
          assert OccursAt(s, pat, i + 1);
        }
      }
      [s[0]] + rest
  }

  /** Replacing a pattern by itself changes nothing. */
  lemma {:induction false} ReplaceByItself(s: string, pat: string)
    requires |pat| > 0
    ensures ReplaceAll(s, pat, pat) == s
    decreases |s|
  {
    if |s| < |pat| {
    } else if s[..|pat|] == pat {
      ReplaceByItself(s[|pat|..], pat);
      assert s == s[..|pat|] + s[|pat|..];
    } else {
      ReplaceByItself(s[1..], pat);
      assert s == [s[0]] + s[1..];
    }
  }

  /** A one-character replacement acts on each character independently. */
  lemma {:induction false} ReplaceCharAppend(a: string, b: string, c: char, rep: string)
    ensures ReplaceAll(a + b, [c], rep) == ReplaceAll(a, [c], rep) + ReplaceAll(b, [c], rep)
    decreases |a|
  {
    if |a| > 0 {
      assert (a + b)[1..] == a[1..] + b;
      assert (a + b)[..1] == [a[0]];
      ReplaceCharAppend(a[1..], b, c, rep);
    } else {
      assert a + b == b;
    }
  }

  /** Removing a character (`s.replace(c, "")`) leaves none of it behind. */
  lemma {:induction false} RemoveCharGone(s: string, c: char)
    ensures c !in ReplaceAll(s, [c], "")
    decreases |s|
  {
    if |s| > 0 {
      RemoveCharGone(s[1..], c);
    }
  }

  /** Removing a character that does not occur changes nothing. */
  lemma {:induction false} RemoveAbsentChar(s: string, c: char)
    requires c !in s
    ensures ReplaceAll(s, [c], "") == s
    decreases |s|
  {
    if |s| > 0 {
      assert s[..1] == [s[0]];
      RemoveAbsentChar(s[1..], c);
      assert s == [s[0]] + s[1..];
    }
  }

  /** Python's `sep.join(parts)`. */
  function Join(sep: string, parts: seq<string>): string {
    if |parts| == 0 then ""
    else if |parts| == 1 then parts[0]
    else parts[0] + sep + Join(sep, parts[1..])
  }

  lemma {:induction false} JoinSnoc(sep: string, parts: seq<string>, x: string)
    requires |parts| > 0
    ensures Join(sep, parts + [x]) == Join(sep, parts) + sep + x
    decreases |parts|
  {
    if |parts| == 1 {
      assert parts + [x] == [parts[0], x];
    } else {
      assert (parts + [x])[1..] == parts[1..] + [x];
      JoinSnoc(sep, parts[1..], x);
    }
  }

  lemma JoinStartsWithFirst(sep: string, parts: seq<string>)
    requires |parts| > 0
    ensures parts[0] <= Join(sep, parts)
  {
  }

  /** Python's `s.split(c)` for a one-character separator: the pieces hold
      no separator and joining them back gives `s`. */
  function Split(s: string, c: char): (r: seq<string>)
    ensures |r| >= 1
    ensures forall k | 0 <= k < |r| :: c !in r[k]
    ensures Join([c], r) == s
    decreases |s|
  {
    var i := Find(s, c);
    if i < 0 then [s]
    else
      var rest := Split(s[i + 1..], c);
      assert s == s[..i] + [c] + s[i + 1..];
      [s[..i]] + rest
  }

  lemma {:induction false} FindAfterPrefix(a: string, c: char, b: string)
    requires c !in a
    ensures Find(a + [c] + b, c) == |a|
  {
    var s := a + [c] + b;
    if |a| > 0 {
      assert s[0] == a[0];
      assert s[1..] == a[1..] + [c] + b;
      FindAfterPrefix(a[1..], c, b);
    }
  }

  /** Splitting a joined list gives back the list when no piece holds the separator. */
  lemma {:induction false} SplitJoin(parts: seq<string>, c: char)
    requires |parts| >= 1
    requires forall k | 0 <= k < |parts| :: c !in parts[k]
    ensures Split(Join([c], parts), c) == parts
    decreases |parts|
  {
    var s := Join([c], parts);
    if |parts| == 1 {
      assert Find(s, c) == -1;
    } else {
      var tail := Join([c], parts[1..]);
      assert s == parts[0] + [c] + tail;
      FindAfterPrefix(parts[0], c, tail);
      assert s[|parts[0]| + 1..] == tail;
      assert s[..|parts[0]|] == parts[0];
      SplitJoin(parts[1..], c);
      assert Split(s, c) == [parts[0]] + Split(tail, c);
    }
  }

  /** Python's `s.removeprefix(p)`. */
  function RemovePrefix(s: string, p: string): (r: string)
    ensures p <= s ==> p + r == s
    ensures !(p <= s) ==> r == s
  {
    if p <= s then s[|p|..] else s
  }

  // ------------------------------------------------------------------ case

  function UpperChar(c: char): char {
    if 'a' <= c <= 'z' then (c as int - 32) as char else c
  }

  function LowerChar(c: char): char {
    if 'A' <= c <= 'Z' then (c as int + 32) as char else c
  }

  /** Python's `str.upper()` on ASCII letters. */
  function Upper(s: string): string {
    seq(|s|, k requires 0 <= k < |s| => UpperChar(s[k]))
  }

  /** Python's `str.lower()` on ASCII letters. */
  function Lower(s: string): string {
    seq(|s|, k requires 0 <= k < |s| => LowerChar(s[k]))
  }

  // --------------------------------------------------------------- numbers

  predicate IsDigit(c: char) {
    '0' <= c <= '9'
  }

  predicate AllDigits(s: string) {
    forall k | 0 <= k < |s| :: IsDigit(s[k])
  }

  function DigitValue(c: char): nat
    requires IsDigit(c)
  {
    c as int - '0' as int
  }

  /** The number a string of decimal digits denotes. */
  function DigitsValue(s: string): nat
    requires AllDigits(s)
  {
    if |s| == 0 then 0 else DigitsValue(s[..|s| - 1]) * 10 + DigitValue(s[|s| - 1])
  }

  /** Python's `str(n)` for a natural number. */
  function NatToString(n: nat): (r: string)
    ensures |r| > 0 && AllDigits(r)
    ensures |r| > 1 ==> r[0] != '0'
  {
    if n < 10 then [('0' as int + n) as char]
    else NatToString(n / 10) + [('0' as int + n % 10) as char]
  }

  /** Python's `str(n)` for an integer. */
  function IntToString(n: int): string {
    if n < 0 then "-" + NatToString(-n) else NatToString(n)
  }

  lemma {:induction false} NatToStringValue(n: nat)
    ensures DigitsValue(NatToString(n)) == n
  {
    if n >= 10 {
      NatToStringValue(n / 10);
      var s := NatToString(n);
      assert s[..|s| - 1] == NatToString(n / 10);
    }
  }

  /** Python's `int(s)` in base 10 for ASCII digits with an optional sign;
      whitespace around the number is ignored. */
  function ParseInt(s: string): Result<int> {
    match ParseNumber(Strip(s))
    case Some(v) => Ok(v)
    case None => Err("invalid literal for int() with base 10: '" + s + "'")
  }

  /** An optional sign, then at least one digit, and nothing else. */
  function ParseNumber(t: string): Option<int> {
    if |t| > 1 && (t[0] == '-' || t[0] == '+') && AllDigits(t[1..]) then
      var v: int := DigitsValue(t[1..]);
      Some(if t[0] == '-' then -v else v)
    else if |t| > 0 && AllDigits(t) then Some(DigitsValue(t))
    else None
  }

  /** `int(str(n)) == n`. */
  lemma IntRoundTrip(n: int)
    ensures ParseInt(IntToString(n)) == Ok(n)
  {
    var s := IntToString(n);
    assert Stripped(s);
    StripOfStripped(s);
    NumberRoundTrip(n);
  }

  lemma NumberRoundTrip(n: int)
    ensures ParseNumber(IntToString(n)) == Some(n)
  {
    var s := IntToString(n);
    if n < 0 {
      NatToStringValue(-n);
      assert s[1..] == NatToString(-n);
    } else {
      NatToStringValue(n);
    }
  }
}

=== FILE: wrappers.dfy ===
/** Failure-carrying datatypes shared by every module of the model.
    A Python exception is modelled as `Err(message)`, where the message is
    what `str(e)` would print when the model knows it. */
module Wrappers {

  datatype Option<+T> = None | Some(value: T) {

    function GetOr(default: T): T {
      match this
      case Some(v) => v
      case None => default
    }
  }

  datatype Result<+T> = Ok(value: T) | Err(msg: string) {

    predicate IsFailure() {
      Err?
    }

    function PropagateFailure<U>(): Result<U>
      requires Err?
    {
      Err(msg)
    }

    function Extract(): T
      requires Ok?
    {
      value
    }
  }
}
